=== FILE: README.md ===
# Supplier import and enrichment engine, modelled in Dafny

The system is a supplier-database tool. A user uploads a CSV of companies and maps its columns onto company fields. The import engine maps every row, derives a domain, a deduplication hash and a cleaned business e-mail, and splits the rows into new companies and duplicates, using both the hashes already stored and those seen earlier in the same file. It then inserts the new companies in batches of 100, falling back to one insert at a time when a batch is refused.

Three stage runners then move the companies of an import along `pending → cleaned → researched → validated`:

- **clean** sends batches of 15 to a language model and writes the formatted name, address, type and description;
- **research** asks a web-search service for a missing address or description and keeps only plausible answers;
- **validate** checks each company against the active column rules.

An orchestrator runs the three stages in order and aggregates their counts into the import's status. Around this core sit:

- the import route's guard checks;
- the CSV export with its field quoting (section 2 of RFC 4180);
- the hedge-phrase filters of the web-search client;
- two archived Python loaders: one cleans spreadsheet rows for the warehouse, and one fills missing addresses and descriptions and merges language-model answers into company rows by id.

The project has one Dafny module per source file, plus five shared modules:

- `Wrappers`: `Option` and `Result`;
- `Strings`: JavaScript `trim`, `toLowerCase`, `split`, string `replace` and UTF-16 length;
- `Batching`: consecutive slices;
- `Model`: the entities and statuses;
- `Store`: the database as a class whose maps the runners update in place.

Providers are parameters of the operations: the language models, the search service, SHA-256, the URL parser, the regular-expression engine (its match, and the `SyntaxError` of a pattern that does not compile), the columns the database fills in itself (`id`, `created_at`, `updated_at`), and the database's failures, including the exceptions its client throws. The stage runners are methods with loops. Each one is proved against a fold over its selection, and the promised properties are lemmas about that fold:

- only companies at the stage's source status change;
- research and validate count every selected company exactly once;
- clean counts the records of the model's answer, not the companies: a record that names a batch company is counted once, as processed or as an error, each time it appears, a company the answer leaves out stays pending and is not counted, and only the one-company retries after a failed batch count each company at most once;
- status never moves backwards.

Where the source and the database type declarations disagree, the model follows the code:

- The company status union in `src/types/database.ts` lacks `cleaned` and `researched`, and the import status union lacks `completed_with_errors`. The runners write all three, so the model's status types include them.
- `validate` never writes `failed`: a company that breaks a rule keeps its status.
- `skipped_count` counts duplicates only. Rows dropped for a missing name are counted nowhere.
- Mapped strings are copied untrimmed, and `required` accepts a whitespace-only string.
- `custom` rules are ignored.
- `accepts_startups: false` is inserted as null (`false || null`).
- A failing duplicate lookup counts as "nothing stored".
- In the spreadsheet loader, the `.csv` removal is a regular expression, so its `.` matches any character except a line feed.
- In the spreadsheet loader, the comment says key cleaning removes whitespace, but the pattern only inserts an underscore before it (`a b` becomes `a_ b`).

## Model

| member | source | states |
|---|---|---|
| Hash.HashKey | src/lib/utils/hash.ts:18 | the key is the lower-cased, trimmed domain when there is a non-empty one, the name otherwise |
| Hash.HexByte | src/lib/utils/hash.ts:25 | a byte renders as two hex digits that read back as the byte |
| Hash.HexBytes | src/lib/utils/hash.ts:25 | two hex digits per byte |
| Hash.HexBytesAt | src/lib/utils/hash.ts:25 | characters `2i` and `2i+1` of the rendering are byte `i`'s two digits |
| Hash.ComputeCompanyHash | src/lib/utils/hash.ts:14-29 | the hash is 16 hex digits, and each pair of them reads back as the corresponding one of the first 8 SHA-256 bytes of the key |
| Hash.SameDomainSameHash | src/lib/utils/hash.ts:18 | two companies with the same non-empty domain hash alike, whatever their names |
| Hash.Wrap32 | src/lib/utils/hash.ts:44 | `hash & hash` yields the signed 32-bit integer congruent to the value |
| Hash.Djb2Step | src/lib/utils/hash.ts:43-44 | `(h << 5) + h + c`, wrapped, is `33h + c` wrapped |
| Hash.Djb2 | src/lib/utils/hash.ts:41-45 | the hash state, starting from 5381, is always a signed 32-bit integer |
| Hash.Djb2Snoc | src/lib/utils/hash.ts:42-45 | one more code unit multiplies the state by 33, adds the unit and wraps to 32 bits |
| Hash.ToHexRoundTrip | src/lib/utils/hash.ts:48 | `toString(16)` reads back as the number |
| Hash.PadStart | src/lib/utils/hash.ts:48 | `padStart` keeps a long enough string and otherwise puts zeros in front to the width |
| Hash.PaddedHex | src/lib/utils/hash.ts:48 | a value up to 2^31 renders as exactly 8 hex digits that read back as the value |
| Hash.HashHex | src/lib/utils/hash.ts:48 | `Math.abs(hash)` in hex is always 8 digits and reads back as the absolute value |
| Hash.ComputeCompanyHashSync | src/lib/utils/hash.ts:35-49 | the djb2 loop over the key's UTF-16 units with 32-bit wrap-around, returning 8 hex digits that read back as the absolute value of the final state |
| Domain.UrlToParse | src/lib/utils/domain.ts:16-19 | the trimmed website, with `https://` in front unless it already starts with an http or https scheme in any case |
| Domain.StripWww | src/lib/utils/domain.ts:23 | a leading `www.`, in any case, is removed and nothing else is |
| Domain.RunEnd | src/lib/utils/domain.ts:26 | `[^\/\s]+` matches the longest run of host characters |
| Domain.FirstHostChar | src/lib/utils/domain.ts:26 | the first position where the fallback can match |
| Domain.FallbackHost | src/lib/utils/domain.ts:26-27 | the fallback match is lower-case |
| Domain.FallbackHostSpec | src/lib/utils/domain.ts:26-27 | the fallback fails iff the input holds no host character, and otherwise returns a maximal run of host characters, lower-cased |
| Domain.PrefixShape | src/lib/utils/domain.ts:26 | a match of `(?:https?:\/\/)?(?:www\.)?` starting at a position ends there, after `www.`, after the scheme `SchemeLen` finds there, or after that scheme and `www.`, and at no other place |
| Domain.SchemeShape | src/lib/utils/domain.ts:26 | a scheme matched at a position is exactly the one `SchemeLen` finds: `http://` and `https://` never both match at one place |
| Domain.FallbackHostStart | src/lib/utils/domain.ts:26-27 | the host found is the run of host characters from the place where the group starts: the match begins at the first host character (no earlier position can begin one), and the group follows the longest match of the scheme-then-`www.` prefix that a host character follows, as the greedy regular expression chooses |
| Domain.GroupStartUnique | src/lib/utils/domain.ts:26-27 | the place where the group starts is determined uniquely |
| Domain.ExtractDomain | src/lib/utils/domain.ts:11-29 | null for a missing or empty website; the parsed hostname without `www.`, lower-cased, when the URL parses; the regex fallback on the untrimmed input when it does not |
| Domain.NormalizeWebsite | src/lib/utils/domain.ts:34-50 | null for a missing or empty website; the parsed origin when the URL parses; the prefixed URL itself otherwise |
| Domain.AcmeExample | src/lib/utils/domain.ts:8 | "https://www.acme.com/about" gives "acme.com" |
| Domain.ShopExample | src/lib/utils/domain.ts:9 | "http://shop.example.org" gives "shop.example.org" |
| Email.ShapeIsRegex | src/lib/utils/email.ts:40 | the executable shape test accepts exactly the language of `/^[^\s@]+@[^\s@]+\.[^\s@]+$/` |
| Email.IsValidEmailFormat | src/lib/utils/email.ts:36-42 | true iff the input is non-empty and its trimmed text matches the regular expression |
| Email.EmailRegexIff | src/lib/utils/email.ts:40 | the expression accepts exactly the texts with one '@', not first, no whitespace, and a '.' after the '@' with a character on both sides |
| Email.UniqueAt | src/lib/utils/email.ts:36-42 | a well-formed address has exactly one '@', followed by at least one character, even before trimming |
| Email.IsBusinessEmail | src/lib/utils/email.ts:47-57 | only a well-formed address can be a business address |
| Email.BusinessIff | src/lib/utils/email.ts:47-57 | a well-formed address is a business address iff no denylisted provider occurs in the lower-cased text after its '@' |
| Email.PrivateProviderRejected | src/lib/utils/email.ts:47-57 | an address whose domain part contains a listed provider is never a business address |
| Email.ValidateEmail | src/lib/utils/email.ts:63-72 | null for a missing or empty input; an address is kept exactly when the input is non-empty and its trimmed, lower-cased form is well formed and a business address, and the kept address is that form |
| Email.ValidateEmailIdempotent | src/lib/utils/email.ts:63-72 | a cleaned address validates to itself |
| Perplexity.HedgeFreeTrimmed | src/lib/llm/perplexity.ts:80-91 | an answer free of hedging phrases stays free of them once trimmed |
| Perplexity.OnlyFirstReplaced | src/lib/llm/perplexity.ts:60-63 | a string-pattern `replace` fills only the first placeholder and keeps the text around it, later placeholders included |
| Perplexity.AddressAnswer | src/lib/llm/perplexity.ts:79-91 | the cleaned answer is empty iff the answer hedges or is blank; otherwise it is the trimmed answer, free of hedging phrases |
| Perplexity.DescriptionAnswer | src/lib/llm/perplexity.ts:117-130 | empty iff the answer hedges, is shorter than 50 UTF-16 units before trimming, or is blank; otherwise the trimmed answer |
| Perplexity.AddressAnswerIdempotent | src/lib/llm/perplexity.ts:79-91 | cleaning an address answer twice changes nothing more |
| Perplexity.DescriptionAnswerIdempotent | src/lib/llm/perplexity.ts:117-130 | cleaning a description answer twice changes nothing more when the trimmed answer still meets the length bound |
| Perplexity.ResearchCompanyAddress | src/lib/llm/perplexity.ts:54-92 | the call fails exactly when the search fails, with its error; otherwise the value is `AddressAnswer` of the search answer, which when non-empty is trimmed and free of hedging phrases |
| Perplexity.ResearchCompanyDescription | src/lib/llm/perplexity.ts:94-131 | the call fails exactly when the search fails, with its error; otherwise the value is `DescriptionAnswer` of the search answer, which when non-empty is trimmed, hedge-free, and came from an answer of at least 50 units |
| ImportRoute.Precheck | src/app/api/imports/route.ts:30-51 | the guards run in order: "No data provided" iff data is not a non-empty array, then "No column mappings provided", then "Name column mapping is required" iff no mapping targets `name`; none iff all three pass |
| ImportRoute.FilenameOr | src/app/api/imports/route.ts:53 | a non-empty filename is kept, otherwise `unnamed.csv` |
| ImportRoute.NoNameMappingDropsAll | src/app/api/imports/route.ts:44-51 | without a mapping onto `name` every row would be dropped by the mapping step |
| ImportRoute.Post | src/app/api/imports/route.ts:21-63 | an unreadable body gives 500 and a failed guard 400 with its message, both before anything is written; a failed import record gives 500 with its message; otherwise the companies, the row order and the import records are those `Import.ImportOutcome` gives for the next import id, and the response is 200 with its result or 500 with its error; no exception gives 200, and one that always escapes gives 500 |
| Export.Double | src/app/api/companies/export/route.ts:60 | every double quote is doubled; a quote-free text is unchanged |
| Export.EncodeField | src/app/api/companies/export/route.ts:55-63 | null and undefined give an empty field, arrays are joined by `; ` inside quotes, strings holding a comma, quote or line feed are quoted with quotes doubled, other strings are kept |
| Export.CsvLines | src/app/api/companies/export/route.ts:54-65 | one line per company |
| Export.CsvLinesAt | src/app/api/companies/export/route.ts:54-65 | line `k` encodes company `k`'s sixteen fields in header order |
| Export.ReadQuotedDouble | src/app/api/companies/export/route.ts:60 | a doubled text followed by the closing quote reads back to the text |
| Export.FieldRoundTrip | src/app/api/companies/export/route.ts:55-63 | each encoded field reads back to its value's text, alone or before more fields |
| Export.RecordRoundTrip | src/app/api/companies/export/route.ts:55-64 | a record of encoded fields reads back to the values' texts in order, whatever commas, quotes and line feeds the strings hold |
| Export.ArrayQuoteUnreadable | src/app/api/companies/export/route.ts:58 | an array item holding a quote yields a field no CSV reader accepts |
| Export.LineRoundTrip | src/app/api/companies/export/route.ts:45-64 | a company line reads back to the texts of its sixteen columns in header order |
| Export.BuildCsv | src/app/api/companies/export/route.ts:52-67 | the text is the header line, then one line per company, joined by `\n` |
| Export.ExportCompanies | src/app/api/companies/export/route.ts:4-73 | a query error gives 500 with its message, no rows gives 404 "No data to export", `json` gives the JSON file, anything else the CSV text |
| Strings.Lower | src/lib/utils/hash.ts:18 | `toLowerCase` maps each character to its lower-case form and keeps the length |
| Strings.Trim | src/lib/utils/email.ts:66 | `trim` drops the leading and trailing whitespace run and leaves a trimmed string |
| Strings.TrimOfTrimmed | src/lib/llm/perplexity.ts:91 | trimming a trimmed string changes nothing |
| Strings.TrimLowerCommute | src/lib/utils/hash.ts:18 | lower-casing then trimming equals trimming then lower-casing |
| Strings.Find | src/lib/llm/perplexity.ts:60-63 | the first occurrence of the pattern, or none when it never occurs |
| Strings.Split | src/lib/utils/email.ts:50 | `split` gives at least one piece and no piece holds the separator |
| Strings.SplitJoin | src/lib/utils/email.ts:50 | joining the pieces with the separator gives the string back |
| Strings.SubstitutePlain | src/lib/llm/perplexity.ts:60-63 | a replacement without `$` is inserted literally |
| Strings.Utf16 | src/lib/utils/hash.ts:42-43 | the code units `charCodeAt` reads, each below 2^16 |
| Model.AdvancesRaisesRank | src/types/database.ts:35 | every status change a stage can make (pending to cleaned, cleaned to researched, cleaned or researched to validated) moves forward along the pipeline, and nothing leaves `validated` |
| Store.RowsOf | src/lib/pipeline/clean.ts:95-99 | a select returns one row per stored hash, in insertion order |
| Store.WithStatus | src/lib/pipeline/clean.ts:98-99 | `.eq('import_id').eq('status')` keeps exactly the rows of that import with that status |
| Store.CountImport | src/lib/pipeline/runner.ts:131-150 | a per-import count never exceeds the number of rows |
| Store.SetStatusWhere | src/lib/pipeline/validate.ts:140-144 | a bulk status update changes no key of the table |
| Store.Store.Rows | src/lib/pipeline/clean.ts:95-97 | the rows of the table are exactly the stored companies, each under its own hash |
| Store.Store.constructor | src/types/database.ts:12-40 | a fresh store is empty and consistent |
| Store.Store.Insert | src/lib/pipeline/import.ts:166-188 | inserting a company with a new hash adds exactly that row, last in select order |
| Store.Store.Update | src/lib/pipeline/clean.ts:125-135 | an update by id replaces that one row and nothing else |
| Store.Store.UpdateStatusWhere | src/lib/pipeline/validate.ts:140-144 | the bulk update leaves the table equal to `SetStatusWhere` of the old table, everything else unchanged |
| Store.Store.CreateImportRecord | src/lib/pipeline/import.ts:214-228 | a new import gets a fresh id under which exactly the given record is stored |
| Store.Store.SetImport | src/lib/pipeline/import.ts:240-243 | an update of an import replaces its record, and is a no-op for an unknown id |
| Store.Store.AppendLog | src/lib/pipeline/validate.ts:195-203 | a processing log entry is appended and nothing else changes |
| Batching.ChunksCover | src/lib/pipeline/clean.ts:107-109 | every batch is non-empty and at most the batch size long, and the batches put back together are the selection, in order |
| Batching.ChunkCount | src/lib/pipeline/clean.ts:108 | there is a batch number `b` exactly when `b * size` is inside the selection (the loop test `i < length`) |
| Batching.ChunkAt | src/lib/pipeline/clean.ts:108-109 | batch number `b` is `slice(b * size, b * size + size)` |
| Import.SplitList | src/lib/pipeline/import.ts:33-37 | a list cell splits into non-empty, trimmed pieces that hold no comma |
| Import.Pieces | src/lib/pipeline/import.ts:36 | `.map(trim).filter(Boolean)` keeps at most every piece, each non-empty and trimmed |
| Import.SplitListSingle | src/lib/pipeline/import.ts:35-36 | a cell without commas gives its trimmed text as the only item, or nothing when blank |
| Import.LastFilled | src/lib/pipeline/import.ts:28-47 | the winning mapping onto a target is the last one whose source cell is neither null, undefined nor `''`; none wins when there is no such mapping |
| Import.RowMappingSnoc | src/lib/pipeline/import.ts:28-47 | one more mapping writes its coerced value over the target when its cell is filled and changes nothing otherwise: a later mapping overwrites an earlier one |
| Import.MapRow | src/lib/pipeline/import.ts:26-50 | the loop over the mappings fills exactly `RowMapping` |
| Import.RowMappingSpec | src/lib/pipeline/import.ts:28-47 | a target is set iff some mapping onto it has a filled cell, and then it holds the coercion (list split, `accepts_startups` flag, or the text verbatim, untrimmed) of the last such cell |
| Import.MapRows | src/lib/pipeline/import.ts:25 | one mapped record per CSV row |
| Import.MapRowsAt | src/lib/pipeline/import.ts:25-50 | record `i` is the mapping of row `i`: order is kept |
| Import.KeepNamed | src/lib/pipeline/import.ts:51 | the filter keeps only records with a truthy name, at most all of them |
| Import.ApplyMapping | src/lib/pipeline/import.ts:21-52 | `applyMapping` returns the mapped rows that have a name, in order |
| Import.KeepNamedAppend | src/lib/pipeline/import.ts:51 | the filter of a concatenation is the concatenation of the filters: order is preserved |
| Import.KeepNamedKeeps | src/lib/pipeline/import.ts:51 | every record with a name is kept |
| Import.KeepNamedFrom | src/lib/pipeline/import.ts:51 | every kept record is an input with a name |
| Import.MappedRowsExact | src/lib/pipeline/import.ts:25-51 | a row's mapping is kept iff its mapped name is present and non-empty |
| Import.ProcessOne | src/lib/pipeline/import.ts:63-75 | a processed company keeps its mapped fields, is pending and carries the import id |
| Import.SameWebsiteDomainSameHash | src/lib/pipeline/import.ts:64-65 | two rows whose websites yield the same non-empty domain get the same hash |
| Import.ProcessAll | src/lib/pipeline/import.ts:63-76 | one processed company per input |
| Import.ProcessCompanies | src/lib/pipeline/import.ts:57-79 | the loop returns one processed company per input, in order |
| Import.HashesOf | src/lib/pipeline/import.ts:91 | the set of the companies' hashes |
| Import.Partition | src/lib/pipeline/import.ts:102-113 | the reference split puts each company in exactly one of the two lists |
| Import.DeduplicateCompanies | src/lib/pipeline/import.ts:85-116 | the loop with its seen-set returns `Partition` of the companies over the stored hashes |
| Import.PartitionPermutes | src/lib/pipeline/import.ts:106-113 | new and duplicates together are a permutation of the input |
| Import.PartitionNotStored | src/lib/pipeline/import.ts:107 | no new company's hash is stored already |
| Import.PartitionHashes | src/lib/pipeline/import.ts:106-113 | the new companies' hashes are exactly the import's hashes that are not stored |
| Import.PartitionDistinct | src/lib/pipeline/import.ts:102-111 | no two new companies share a hash |
| Import.PartitionFirst | src/lib/pipeline/import.ts:101-111 | each new company is the first company of the import with its hash: first occurrence wins |
| Import.ToRow | src/lib/pipeline/import.ts:137-157 | the inserted row carries the hash, domain, validated email, status pending and the import id; `accepts_startups` is true or null, never false |
| Import.InsertData | src/lib/pipeline/import.ts:137 | one row per company of the batch |
| Import.InsertDataAt | src/lib/pipeline/import.ts:137-157 | row `k` is built from company `k` |
| Import.AcceptedRows | src/lib/pipeline/import.ts:159-163 | in a batch the database accepts, every row is new to the table and to the rows before it |
| Import.InsertOne | src/lib/pipeline/import.ts:165-194 | a single insert adds exactly one success or one error |
| Import.InsertEach | src/lib/pipeline/import.ts:165-195 | the fallback adds one success or one error per company |
| Import.AddAll | src/lib/pipeline/import.ts:196-198 | an accepted batch adds its length to success and no error |
| Import.AddAllKeys | src/lib/pipeline/import.ts:159-161 | an accepted batch adds exactly its rows' hashes to the table |
| Import.InsertBatch | src/lib/pipeline/import.ts:134-198 | a batch, either way, accounts once for each of its rows |
| Import.InsertUpToCount | src/lib/pipeline/import.ts:134-199 | the batches so far account once for each of their rows |
| Import.InsertAccounts | src/lib/pipeline/import.ts:121-202 | success plus errors equals the number of inputs, and the empty input gives `{0, []}` |
| Import.InsertRow | src/lib/pipeline/import.ts:166-194 | one single-row insert writes what `InsertOne` specifies |
| Import.InsertSingly | src/lib/pipeline/import.ts:165-195 | the fallback loop ends where `InsertEach` does |
| Import.AcceptedRowIsNew | src/lib/pipeline/import.ts:159-161 | each row of an accepted batch is new when it is added |
| Import.InsertBatchRows | src/lib/pipeline/import.ts:159-198 | an accepted batch is written as `AddAll` specifies |
| Import.InsertOneBatch | src/lib/pipeline/import.ts:135-198 | one batch is written as `InsertBatch` specifies |
| Import.InsertBatchAt | src/lib/pipeline/import.ts:134-198 | batch `i / 100` is the slice of 100 from `i`, and after it the state is that of the batches so far |
| Import.InsertBatches | src/lib/pipeline/import.ts:133-199 | the loop over slices of 100 ends where `InsertUpTo` over all batches does |
| Import.InsertCompanies | src/lib/pipeline/import.ts:121-202 | `insertCompanies` leaves the table of `InsertAll` and accounts for every input exactly once |
| Import.CreateImport | src/lib/pipeline/import.ts:207-229 | a new record with zero counts, status pending and the mappings under the next fresh id, or "Failed to create import: …" with no record |
| Import.ApplyStats | src/lib/pipeline/import.ts:234-244 | a partial update sets exactly the keys it carries and keeps the rest |
| Import.ApplyNoStats | src/lib/pipeline/import.ts:240-243 | an update with no keys changes nothing |
| Import.UpdateImportStats | src/lib/pipeline/import.ts:234-244 | the import's record gets the partial update; an unknown id changes nothing |
| Import.RowErrors | src/lib/pipeline/import.ts:283 | one reported error per insert error, numbered by its position in the list |
| Import.ExistingHashes | src/lib/pipeline/import.ts:91-99 | the lookup returns stored hashes only, and exactly the stored ones among the import's when it succeeds |
| Import.ImportAccounts | src/lib/pipeline/import.ts:259-283 | every named row is inserted, skipped as a duplicate or reported as an error; rows without a name are counted nowhere |
| Import.RunImport | src/lib/pipeline/import.ts:249-289 | a failed `createImport` throws before anything is written; otherwise the import id is fresh and the result, the companies, the row order and the import records are exactly `ImportOutcome`'s; processed plus skipped plus errors is the number of named rows; the log is untouched |
| Import.ImportOutcome | src/lib/pipeline/import.ts:249-289 | the run adds exactly one import record, holding the filename, the row count and the mappings; a run that succeeds reports that import id and leaves the status `completed` or `completed_with_errors` by its error count; a run that throws passes the thrown error on and leaves the record `failed`; a run where nothing throws succeeds |
| Clean.GetCleanPrompt | src/lib/pipeline/clean.ts:27-42 | the prompt is the active template when there is a non-empty one; otherwise the fixed "No active CLEAN prompt" error |
| Clean.Inputs | src/lib/pipeline/clean.ts:112-118 | one model input per batch company, in order, each the company's hash, name, address, description and company type |
| Clean.CleanCompanyBatchOutcome | src/lib/pipeline/clean.ts:47-80 | a missing prompt is an error before the model is asked; a thrown call and empty content are errors; an array answer is taken whole, an object answer by its `companies` key, else its `results` key, else nothing |
| Clean.CleanedRowFields | src/lib/pipeline/clean.ts:127-134 | the update writes the four cleaned columns and status `cleaned`, keeps every other column, and falls back to the original `company_type` when the answer's is empty |
| Clean.ApplyCleaned | src/lib/pipeline/clean.ts:125-141 | applying one answer record keeps the table's keys and adds exactly one to processed or one error |
| Clean.ApplyCleanedOutcome | src/lib/pipeline/clean.ts:125-141 | processed grows iff the update succeeds, which writes the cleaned row; a failed update changes nothing and appends "Failed to update <name>: <message>" |
| Clean.FindByHash | src/lib/pipeline/clean.ts:122 | the company found is a batch company with that hash, and none is found iff no batch company has it |
| Clean.Known | src/lib/pipeline/clean.ts:121-123 | the number of answer records that name a batch company: all of them exactly when every record names one, none exactly when no record does |
| Clean.ApplyAnswer | src/lib/pipeline/clean.ts:121-142 | the success path keeps the table's keys and accounts exactly once for each record that names a batch company; unknown hashes are skipped |
| Clean.AnswerLeavesOthers | src/lib/pipeline/clean.ts:121-123 | a company no returned record names (or outside the batch) is left as it was: omitted companies stay pending with no error |
| Clean.CleanSolo | src/lib/pipeline/clean.ts:148-175 | the retry of one company keeps the table's keys and adds at most one to processed plus errors |
| Clean.SoloAll | src/lib/pipeline/clean.ts:148-176 | the fallback over a batch keeps the table's keys and accounts at most once per company |
| Clean.SoloFailures | src/lib/pipeline/clean.ts:173-175 | at most one failing retry per batch company |
| Clean.SoloAllErrors | src/lib/pipeline/clean.ts:148-176 | the fallback appends exactly one error per company whose retry throws, after the earlier errors |
| Clean.FailedBatchRetries | src/lib/pipeline/clean.ts:143-176 | a failed batch appends "Batch N failed: <message>" once and then one error per failing retry |
| Clean.NoPromptBatch | src/lib/pipeline/clean.ts:50-176 | with no prompt, a batch changes no row, processes nothing and reports the batch plus every company |
| Clean.NoPromptSolo | src/lib/pipeline/clean.ts:148-176 | with no prompt, every retry fails: no row changes and one error per company |
| Clean.CleanBatch | src/lib/pipeline/clean.ts:110-177 | one batch keeps the table's keys |
| Clean.CleanUpTo | src/lib/pipeline/clean.ts:108-178 | the batches so far keep the table's keys |
| Clean.CleanedRowFrom | src/lib/pipeline/clean.ts:127-134 | a cleaned row stays a pending company of the import, cleaned |
| Clean.ApplyCleanedFrom | src/lib/pipeline/clean.ts:125-141 | one answer record only cleans a pending company of the import |
| Clean.ApplyAnswerFrom | src/lib/pipeline/clean.ts:121-142 | the success path only cleans pending companies of the import |
| Clean.CleanSoloFrom | src/lib/pipeline/clean.ts:158-169 | a retry only cleans the pending company it was given |
| Clean.SoloAllFrom | src/lib/pipeline/clean.ts:148-176 | the fallback only cleans pending companies of the import |
| Clean.CleanBatchFrom | src/lib/pipeline/clean.ts:110-177 | a batch, by either path, only cleans pending companies of the import |
| Clean.ChunkAgrees | src/lib/pipeline/clean.ts:95-109 | every batch company is the stored pending company of the import with its hash |
| Clean.ApplyRecordTo | src/lib/pipeline/clean.ts:121-141 | the store and counters after one record are those of `ApplyRecord` |
| Clean.ApplyAnswerTo | src/lib/pipeline/clean.ts:121-142 | the loop over the answer ends where `ApplyAnswer` does |
| Clean.CleanSoloTo | src/lib/pipeline/clean.ts:149-175 | one retry writes what `CleanSolo` specifies |
| Clean.SoloAllTo | src/lib/pipeline/clean.ts:148-176 | the fallback loop ends where `SoloAll` does |
| Clean.CleanBatchTo | src/lib/pipeline/clean.ts:110-177 | one batch writes what `CleanBatch` specifies |
| Clean.CleanBatchAt | src/lib/pipeline/clean.ts:108-177 | batch `i / 15` is the slice of 15 from `i`; it keeps "only pending companies of the import are cleaned" and, with no prompt, reports the batch plus each of its companies |
| Clean.CleanBatches | src/lib/pipeline/clean.ts:106-178 | the batch loop ends where `CleanUpTo` over all batches does; only pending companies of the import change; with no prompt nothing changes and every batch and company is reported |
| Clean.RunCleanStep | src/lib/pipeline/clean.ts:86-181 | a failed select throws "Failed to fetch companies: …"; no pending companies gives `{0, ['No pending companies found']}`; otherwise the result is `CleanStep` of the pending selection, the keys are kept and only pending companies of the import become cleaned |
| Research.GetResearchPrompts | src/lib/pipeline/research.ts:24-37 | each prompt is the active template when it is non-empty, else the built-in default |
| Research.CallPerplexity | src/lib/pipeline/research.ts:60-98 | without a token the call throws "PERPLEXITY_TOKEN not configured"; an HTTP error throws "Perplexity API error: <body>"; it succeeds exactly when the token is set and the response is OK, and then returns the trimmed content (empty when absent) with the response's citations (none when absent); the domain filter is sent only when non-empty |
| Research.ResearchAddress | src/lib/pipeline/research.ts:103-132 | no domain means no call and nothing found; nothing found comes with no sources; a found address passes the plausibility filter |
| Research.ResearchAddressOutcome | src/lib/pipeline/research.ts:111-131 | an address is found iff there is a domain, the call succeeds and the answer is non-empty, at least 10 long and free of "not found", "could not find" and "no address" case-insensitively; then it is the answer with its citations; a thrown call yields nothing |
| Research.ResearchDescription | src/lib/pipeline/research.ts:137-162 | no domain means nothing found; nothing found comes with no sources; a found description passes the length filter |
| Research.ResearchDescriptionOutcome | src/lib/pipeline/research.ts:145-161 | a description is found iff there is a domain, the call succeeds and the answer is at least 30 long; then it is the answer with its citations |
| Research.NoTokenFindsNothing | src/lib/pipeline/research.ts:64-131 | without a token the thrown error is swallowed and nothing is found |
| Research.Findings | src/lib/pipeline/research.ts:193-213 | a filled address or description is never researched; what is found passed its filter; sources only come with a found value |
| Research.FindingsOutcome | src/lib/pipeline/research.ts:198-213 | a missing field gets its research's result; the sources are those of the accepted answers, address first |
| Research.ResearchedRowFields | src/lib/pipeline/research.ts:216-225 | the row written has status `researched`, the found values, the sources when there are some, and every other column as before |
| Research.ResearchOne | src/lib/pipeline/research.ts:192-247 | each company keeps the table's keys and adds exactly one to processed or one error |
| Research.ResearchAll | src/lib/pipeline/research.ts:192-248 | processed plus errors grows by exactly the number of selected companies |
| Research.ResearchSelection | src/lib/pipeline/research.ts:177-182 | exactly this import's cleaned companies missing a formatted address or an enriched description |
| Research.ResearchStep | src/lib/pipeline/research.ts:185-250 | an empty selection gives `{0, ['No companies need research']}`; otherwise each selected company contributes exactly one to processed or to errors |
| Research.ResearchOneFrom | src/lib/pipeline/research.ts:216-239 | a company only changes from cleaned to researched, with filled fields kept and new values plausible |
| Research.ResearchOneTo | src/lib/pipeline/research.ts:216-247 | the store and counters after one company are those of `ResearchOne` |
| Research.ResearchAt | src/lib/pipeline/research.ts:192-247 | one iteration researches the company and keeps "only selected companies advance, plausibly" |
| Research.ResearchCompanies | src/lib/pipeline/research.ts:192-248 | the loop ends where `ResearchAll` does, and only selected companies change |
| Research.RunResearchStep | src/lib/pipeline/research.ts:168-251 | a failed select throws; otherwise the result is `ResearchStep` of the selection with the active or default prompts; every selected company is counted once; the keys are kept and only cleaned companies of the import become researched |
| Validate.ValidateValue | src/lib/pipeline/validate.ts:48-99 | an error carries the rule's column, type name and message; `required` fails iff the value is null, undefined or `''`; `format` fails only on a non-empty string with a set pattern; `enum` only on a truthy value outside a set list; length rules only on non-empty strings with a non-zero bound that the UTF-16 length breaks; any other rule type never fails |
| Validate.ValidateValueFails | src/lib/pipeline/validate.ts:61-95 | the converse directions: a non-matching pattern, a truthy value outside the list, and a length beyond a set bound each yield an error |
| Validate.RuleQuirks | src/lib/pipeline/validate.ts:56-91 | `required` accepts a whitespace-only string, and a length rule whose bound is 0 never fails |
| Validate.PatternError | src/lib/pipeline/validate.ts:61-68 | checking a rule throws only for a `format` rule with a set pattern on a non-empty string, with the `SyntaxError` of that pattern, and a non-empty pattern that does not compile does throw there |
| Validate.CompanyErrors | src/lib/pipeline/validate.ts:104-119 | at most one error per rule |
| Validate.CompanyErrorsSpec | src/lib/pipeline/validate.ts:104-119 | the list is empty iff every rule passes; every error comes from a failing rule and every failing rule's error is in the list |
| Validate.ValidateCompany | src/lib/pipeline/validate.ts:104-119 | the loop over the rules throws the first pattern error, in rule order, if there is one, and otherwise returns `CompanyErrors` |
| Validate.CompanyThrowSpec | src/lib/pipeline/validate.ts:104-119 | a company's check throws iff some rule's pattern does not compile on its value, and then with the error of the first such rule |
| Validate.CompanyThrowPrefix | src/lib/pipeline/validate.ts:104-119 | once the rules up to some point throw, all of them throw the same error |
| Validate.CompiledNeverThrows | src/lib/pipeline/validate.ts:61-68 | when every non-empty `format` pattern compiles, no company's check throws |
| Validate.Messages | src/lib/pipeline/validate.ts:206 | the messages of the errors, one each, in order |
| Validate.ActiveRules | src/lib/pipeline/validate.ts:33-43 | exactly the active rules of the table |
| Validate.ValidateSelection | src/lib/pipeline/validate.ts:160-164 | exactly this import's cleaned or researched companies |
| Validate.ThrowAt | src/lib/pipeline/validate.ts:172-211 | the first selected company whose check throws: every company before it passes its check without throwing, and it throws |
| Validate.CompiledCompletes | src/lib/pipeline/validate.ts:172-211 | when every pattern compiles the company loop runs to the end over any rows |
| Validate.RequiredSystemColumnsPass | src/lib/pipeline/validate.ts:160-164 | the rows checked are full `select('*')` rows, so a `required` rule on `import_id`, or on a non-empty `id`, never fails |
| Validate.ValidateOne | src/lib/pipeline/validate.ts:172-211 | one company keeps the table's keys, counts once as processed, adds one to valid or one error line, adds one to invalid iff it has errors, and logs at most once, only when it has errors |
| Validate.InvalidKeepsStatus | src/lib/pipeline/validate.ts:190-207 | a company with errors keeps its row (no `failed` is written), adds "name: m1, m2" and gets its log entry |
| Validate.ValidateAll | src/lib/pipeline/validate.ts:172-211 | processed counts every selected company; valid plus errors grows by one per company; invalid by at most one each |
| Validate.ValidateOneFrom | src/lib/pipeline/validate.ts:175-189 | a company only ever changes from cleaned or researched to validated |
| Validate.BulkValidates | src/lib/pipeline/validate.ts:138-144 | with no rules, a company is validated afterwards iff it was already, or it is a cleaned or researched company of the import |
| Validate.ValidateOneTo | src/lib/pipeline/validate.ts:173-210 | the store, log and counters after one company are those of `ValidateOne` |
| Validate.ValidateAt | src/lib/pipeline/validate.ts:172-211 | one iteration throws with the company's pattern error and changes nothing, or records the outcome `ValidateOne` gives for the company's full row; either way only selected companies become validated |
| Validate.ValidateCompanies | src/lib/pipeline/validate.ts:172-211 | the loop stops at the first company whose check throws and passes its error on, with the table and the log those of `ValidateAll` over the companies before it; without a throw it ends where `ValidateAll` over the whole selection does; only selected companies become validated |
| Validate.RunValidateStep | src/lib/pipeline/validate.ts:124-214 | a rule fetch error throws "Failed to fetch rules: …"; with no active rules the bulk update runs (its error gives `{0,0,0,[message]}`) and processed = valid = the validated count, or 0 when the count fails; a fetch error throws; an empty selection gives "No companies to validate"; a pattern that does not compile throws its `SyntaxError`, with the companies before it already checked; otherwise the result is `ValidateAll` over the full rows, database-filled columns included; the step succeeds exactly when none of these throws; no company ever leaves validated or becomes failed |
| Runner.FinalStatus | src/lib/pipeline/runner.ts:70 | `completed_with_errors` iff there is an error, `completed` iff there is none |
| Runner.ChainProgress | src/lib/pipeline/runner.ts:48-64 | clean, then research, then validate move a company of the import strictly forward, never to `failed`, and leave a validated company alone |
| Runner.ChainAll | src/lib/pipeline/runner.ts:48-64 | the three stages over the whole table compose to progress for every stored company |
| Runner.MarkImport | src/lib/pipeline/runner.ts:29-83 | the import's status is set (a no-op for an unknown id) and nothing else changes |
| Runner.CleanPhase | src/lib/pipeline/runner.ts:48 | the clean step's result, companies and log are exactly `CleanOutcome` of the table before it; only pending companies are cleaned; order and import records are untouched |
| Runner.ResearchPhase | src/lib/pipeline/runner.ts:56 | the research step's result, companies and log are exactly `ResearchOutcome` of the table before it; only cleaned companies are researched |
| Runner.ValidatePhase | src/lib/pipeline/runner.ts:64 | the validate step's result, companies and log are exactly `ValidateOutcome` of the table before it; it succeeds exactly when neither select fails and no pattern throws on the rows it selects, and for any rows when every pattern compiles; only cleaned or researched companies become validated |
| Runner.SucceedsAnywhere | src/lib/pipeline/runner.ts:64 | a validate step that cannot throw for any rows succeeds on every table |
| Runner.CleanOutcome | src/lib/pipeline/runner.ts:48 | the clean step keeps the table's keys and the log; a failed select throws `Failed to fetch companies: ` with its error and changes nothing; otherwise the step returns |
| Runner.ResearchOutcome | src/lib/pipeline/runner.ts:56 | the research step keeps the table's keys and the log; a failed select throws with its error and changes nothing; otherwise the step returns |
| Runner.ValidateOutcome | src/lib/pipeline/runner.ts:64 | the validate step keeps the table's keys; when it returns is stated by `ValidateOutcomeOk` |
| Runner.ValidateOutcomeOk | src/lib/pipeline/runner.ts:64 | the validate step returns exactly when its rule select succeeds and, with rules active, its company select succeeds and no selected company's check throws |
| Runner.Steps | src/lib/pipeline/runner.ts:45-67 | the try block keeps the table's keys; when it returns and what it reports is stated by `StepsOk` |
| Runner.ChainOk | src/lib/pipeline/runner.ts:45-67 | when no step throws, the result holds each step's own result, totalProcessed is clean plus research processed (validate is not added) and totalErrors is the sum of the three error lists; the companies and log are the validate step's |
| Runner.StepsOf | src/lib/pipeline/runner.ts:45-67 | the try block is the chain of the outcomes of the steps that ran, each on what the one before left |
| Runner.StepsOk | src/lib/pipeline/runner.ts:45-67 | the try block returns exactly when neither the clean nor the research select fails and the validate step returns on the rows the research step left; it then reports each step's outcome on the table the step before left, the validate step's companies, and the totals |
| Runner.AsStep | src/lib/pipeline/runner.ts:101-103 | the validate result as `runPipelineStep` returns it: an error passes unchanged, a result keeps only its processed count and errors |
| Runner.RunSteps | src/lib/pipeline/runner.ts:45-67 | the result, companies and log after the try block are exactly `Steps` of the table before it, the steps run in order and stopping at the first that throws; import records are untouched; every company only progresses |
| Runner.RunFullPipeline | src/lib/pipeline/runner.ts:25-87 | the import is set to `processing` first and then to the final status by the total errors, or to `failed` when a step throws; the result, companies and log are exactly `Steps` of the table before the run, so the error is passed on; every company only progresses |
| Runner.RunPipelineStep | src/lib/pipeline/runner.ts:92-107 | dispatch by name: clean and research leave exactly their `CleanOutcome` / `ResearchOutcome`; validate leaves `ValidateOutcome`'s companies and log and returns its result cut down to the processed count and the errors; each changes companies only as that step may; another name throws "Unknown step" and changes nothing |
| Runner.PipelineStatusOf | src/lib/pipeline/runner.ts:112-175 | an unknown import throws "Import not found"; otherwise the import's status, filename and row count, with each count read as 0 when its query fails |
| Runner.StatusCountsBounded | src/lib/pipeline/runner.ts:136-163 | the four status counts of an import add up to at most its total |
| Runner.ReportConsistent | src/lib/pipeline/runner.ts:165-174 | when the total query succeeds the reported status counts never exceed the total |
| GDrive.Underscored | wonnda_archive/src/python/loaders/gdrive.py:55-63 | inserting underscores never shortens the key |
| GDrive.CleanKey | wonnda_archive/src/python/loaders/gdrive.py:55-63 | the cleaned key is lower-case and no shorter than the key |
| GDrive.SnakeCaseKept | wonnda_archive/src/python/loaders/gdrive.py:60-63 | a key with neither capitals nor whitespace is kept as it is |
| GDrive.Boundaries | wonnda_archive/src/python/loaders/gdrive.py:55 | there are at most as many boundaries as characters |
| GDrive.UnderscoredLength | wonnda_archive/src/python/loaders/gdrive.py:55-63 | each match of the pattern adds exactly one underscore |
| GDrive.WordBoundary | wonnda_archive/src/python/loaders/gdrive.py:55-63 | appending a capital or a whitespace character to a non-empty key appends an underscore and the lower-cased character to the cleaned key |
| GDrive.NoWordBoundary | wonnda_archive/src/python/loaders/gdrive.py:55-63 | appending any other character, or any character to the empty key, appends only the lower-cased character: never an underscore at the start |
| GDrive.CleanValue | wonnda_archive/src/python/loaders/gdrive.py:63 | a value becomes None iff it is `-` (or None already); any other value is kept |
| GDrive.RemoveCsv | wonnda_archive/src/python/loaders/gdrive.py:58 | removing `.csv` matches never lengthens the name |
| GDrive.DropExtension | wonnda_archive/src/python/loaders/gdrive.py:58 | for every name, the name followed by `.csv` cleans to the same as the name alone: the extension is removed and no match reaches across it |
| GDrive.AnyCharBeforeCsv | wonnda_archive/src/python/loaders/gdrive.py:58 | the unescaped `.` removes any character other than a line feed in front of `csv` |
| GDrive.SetEntry | wonnda_archive/src/python/loaders/gdrive.py:58-59 | assigning a dict key keeps the place of an existing key and appends a new one |
| GDrive.CleanRow | wonnda_archive/src/python/loaders/gdrive.py:62-65 | the cleaned row's keys are exactly the cleaned keys of the row |
| GDrive.CleanRowSnoc | wonnda_archive/src/python/loaders/gdrive.py:62-65 | a later entry overwrites whatever an earlier entry with the same cleaned key wrote |
| GDrive.LastWritesWin | wonnda_archive/src/python/loaders/gdrive.py:58-65 | `source_file` and `loaded_at`, written last, hold their own cleaned values |
| GDrive.StampedColumns | wonnda_archive/src/python/loaders/gdrive.py:58-65 | a loaded row carries the file name without `.csv` (None if that is `-`) and the load time |
| GDrive.LoadRows | wonnda_archive/src/python/loaders/gdrive.py:56-66 | one loaded row per sheet row |
| GDrive.LoadRowsAt | wonnda_archive/src/python/loaders/gdrive.py:56-66 | loaded row `i` is sheet row `i` stamped and cleaned with the time read for it: order is kept |
| GDrive.CleanSheetRow | wonnda_archive/src/python/loaders/gdrive.py:58-66 | one turn of the loop produces the stamped, cleaned row |
| GDrive.ProcessFile | wonnda_archive/src/python/loaders/gdrive.py:15-87 | an unsupported MIME type is skipped; an empty sheet with no table fails on `load_data[0]`; otherwise the rows loaded are exactly `LoadRows` of the sheet |
| LlmEnrichment.EntriesOf | wonnda_archive/src/python/loaders/llm_enrichment.py:304-329 | the current contents of the company dicts, one per dict, in order |
| LlmEnrichment.DomainFilter | wonnda_archive/src/python/loaders/llm_enrichment.py:176-186 | the search is restricted to `[domain]` iff the domain is truthy |
| LlmEnrichment.Retrieved | wonnda_archive/src/python/loaders/llm_enrichment.py:146-189 | retrieval keeps every queried column present |
| LlmEnrichment.RetrievedFillsMissing | wonnda_archive/src/python/loaders/llm_enrichment.py:164-189 | only `address` and `description` can change, a truthy one never does, and a changed one holds the search answer for its prompt and the domain filter |
| LlmEnrichment.RetrievedIdle | wonnda_archive/src/python/loaders/llm_enrichment.py:167-178 | a company with both fields truthy makes no search, and retrieving again after a successful retrieval that filled both changes nothing |
| LlmEnrichment.RetrieveCompany | wonnda_archive/src/python/loaders/llm_enrichment.py:146-189 | the dict is updated in place to `Retrieved`'s row, and the same dict is returned unless a search raised |
| LlmEnrichment.RetrieveMissing | wonnda_archive/src/python/loaders/llm_enrichment.py:102-143 | every dict of the chunk is updated as `Retrieved` says; the call raises iff some company's search raised, with that error |
| LlmEnrichment.RetryInput | wonnda_archive/src/python/loaders/llm_enrichment.py:233-237 | the retry input is exactly the input entries carrying the answer's id |
| LlmEnrichment.Settled | wonnda_archive/src/python/loaders/llm_enrichment.py:225-244 | an answer with a name is kept; one without is replaced by the first company of the retry, whose error, or an `IndexError` when it returns none, propagates |
| LlmEnrichment.ReformatAndEnrich | wonnda_archive/src/python/loaders/llm_enrichment.py:192-246 | a failed structured call propagates; the call succeeds exactly when `Reformats` holds and then returns `Answers`, one settled answer per answer row in order; otherwise the error of the first row that fails to settle |
| LlmEnrichment.Answers | wonnda_archive/src/python/loaders/llm_enrichment.py:192-246 | one row per answer row of the structured call, each that row settled |
| LlmEnrichment.Fields | wonnda_archive/src/python/loaders/llm_enrichment.py:226 | `model_dump()` gives the five answer columns, with the answer's id |
| LlmEnrichment.MergedKeeps | wonnda_archive/src/python/loaders/llm_enrichment.py:304-308 | the merge keeps the row's id, adds no column beyond the answer's and changes no other column |
| LlmEnrichment.LastMatch | wonnda_archive/src/python/loaders/llm_enrichment.py:305-306 | the last answer row whose id is the row's, if any |
| LlmEnrichment.FieldsShadow | wonnda_archive/src/python/loaders/llm_enrichment.py:307-308 | a later matching answer row hides an earlier one entirely |
| LlmEnrichment.MergedIsLastMatch | wonnda_archive/src/python/loaders/llm_enrichment.py:304-308 | a row without a matching answer row is unchanged, otherwise it gets exactly the fields of the last matching one |
| LlmEnrichment.MergeRow | wonnda_archive/src/python/loaders/llm_enrichment.py:305-308 | the inner loops leave the dict as `Merged` says |
| LlmEnrichment.MergeEnriched | wonnda_archive/src/python/loaders/llm_enrichment.py:304-308 | each dict of the chunk is left as `Merged` says |
| LlmEnrichment.SearchChunk | wonnda_archive/src/python/loaders/llm_enrichment.py:291-295 | each dict of the chunk is left as `Retrieved` says, even when the step raises; the step raises exactly when some company's retrieval raises, and with such a company's error |
| LlmEnrichment.EnrichChunk | wonnda_archive/src/python/loaders/llm_enrichment.py:297-308 | the structured step raises exactly when `Reformats` fails on the chunk's rows; otherwise its answers are `Answers` and each dict is merged with them; when it raises the dicts are unchanged |
| LlmEnrichment.RetrievedAll | wonnda_archive/src/python/loaders/llm_enrichment.py:291-295 | one row per company after the search step, each that company's `Retrieved` row, with every queried column kept |
| LlmEnrichment.ChunkRows | wonnda_archive/src/python/loaders/llm_enrichment.py:291-308 | one row per company of a chunk that goes through, each its retrieved row merged with the chunk's answers |
| LlmEnrichment.ChunkRowsFrom | wonnda_archive/src/python/loaders/llm_enrichment.py:291-308 | a chunk's written row differs from its queried row only in the address, the description and the answer columns, and keeps its company id |
| LlmEnrichment.ChunksRowsFrom | wonnda_archive/src/python/loaders/llm_enrichment.py:285-332 | when every chunk goes through, one row is written per queried row, in order, each differing from it only in the address, the description and the answer columns, with the company id kept |
| LlmEnrichment.ChunkSteps | wonnda_archive/src/python/loaders/llm_enrichment.py:291-308 | the chunk raises exactly when its search or its reformatting raises; otherwise the answers are `Answers` of the retrieved rows and the dicts hold exactly `ChunkRows` |
| LlmEnrichment.ChunksStep | wonnda_archive/src/python/loaders/llm_enrichment.py:285 | the chunks from a row on are the chunk starting there followed by the chunks after it, both in whether they go through and in what they write |
| LlmEnrichment.ChunksAdvance | wonnda_archive/src/python/loaders/llm_enrichment.py:285-332 | once a chunk went through, whether every chunk goes through and what all chunks write is decided by the rows written so far and the chunks after it |
| LlmEnrichment.ProcessChunk | wonnda_archive/src/python/loaders/llm_enrichment.py:285-332 | the chunk raises exactly when `ChunkSucceeds` fails on its rows; otherwise the answers are `Answers` of the retrieved rows, the rows written are `ChunkRows`, and each dict is its retrieved row merged with the answers; dicts outside the chunk are untouched |
| LlmEnrichment.ChunkTurn | wonnda_archive/src/python/loaders/llm_enrichment.py:285-332 | one turn of the chunk loop: a raising chunk means not every chunk goes through; otherwise what all chunks write is the rows written so far, then this chunk's, then those of the chunks after it; the dicts after the chunk are untouched |
| LlmEnrichment.ProcessEnrichment | wonnda_archive/src/python/loaders/llm_enrichment.py:249-332 | the run raises exactly when some chunk of `chunkSize` rows fails, and otherwise writes exactly `ChunksRows` of the rows it was given; the rows written are a prefix of the companies in order, never more than those counted as processed; the schema comes from the first written row iff the table had to be created; the chunk size defaults to 25 |

## Left out

- Network, database and file I/O are left out. Supabase and its `createClient`, `fetch` inside `callPerplexity` of `src/lib/llm/perplexity.ts`, the OpenAI client, and the BigQuery, Drive and Sheets clients of the Python loaders are not part of this model. Their results and failures are parameters.
- The BigQuery load is reduced to the rows handed to it, plus the row the schema is taken from. Dataset and table creation, `write_to_table` and moving the processed file are left out as I/O.
- `process_gdrive` (the loop over the Drive folder) is left out: it only calls `process_file` once per listed file.
- `get_companies_to_process` is left out: its SQL query is I/O. Its result is the `companies` argument of `LlmEnrichment.ProcessEnrichment`.
- SHA-256, the WHATWG URL parser and the JavaScript regular-expression engine used by `format` rules are opaque function parameters; for the last, both whether a pattern compiles and what it matches. Only the e-mail expression and the domain fallback expression are modelled as languages.
- JSON parsing of model output is left out: the model's answer arrives already parsed, as an array, an object, or an error.
- Timestamps (`new Date().toISOString()`, `datetime.now()`) are left out: a load time is a number supplied per row.
- Logging and the waits (`sleep` between submissions in the enrichment loader, the 500 ms delay in the research step) are left out: they change no data.
- Lower-casing covers ASCII letters only; JavaScript and Python lower-case all of Unicode.
- Python's `str.format` on prompt templates is an opaque function parameter. JavaScript's string `replace` is modelled exactly for replacements without `$`.
- The JSON branch of the export route is left out, and so are its query filters: the route's input is the result of the select.
- Rule bounds `min` and `max` are integers. A non-integer bound from the rule table's JSON is not modelled.
- The UI components, the auth middleware, the thin pipeline and company CRUD routes, and the configuration modules are not part of this model.
- LlmEnrichment.RetrieveMissing: does not model the thread pool. The result list follows completion order, which is nondeterministic, so the model returns the same dicts in submission order. Each company is retrieved as if alone; this is sound because every task touches only its own dict.
- LlmEnrichment.RetrieveMissing: requires `Distinct`. The query builds one fresh dict per row, so no dict occurs twice.
- LlmEnrichment: column values are `str` or `None`. Other BigQuery types are not modelled.
- GDrive.CleanRow: Python's dict comprehension is modelled as a map built entry by entry. Key order in the written dict is not modelled, since the warehouse load is by column name.
- Export.RecordRoundTrip: covers records whose array items hold no double quote. `Export.ArrayQuoteUnreadable` shows that such an item yields an unreadable field.
- Export.EncodeField: a lone `\r` in a string does not trigger quoting, as in the source. The read-back lemmas use a reader that splits on `,` only, not on line ends.
- Perplexity.DescriptionAnswerIdempotent: requires that the trimmed answer still be at least 50 long. The bound applies before trimming, so without that requirement a second cleaning can empty the answer.
- Import.RunImport: an exception thrown by the `updateImportStats` call inside the catch block itself is not modelled. The model assumes that this update runs, so the import is always left `failed` before the error is passed on.
- Research.GetResearchPrompts: the built-in default prompts of `getDefaultAddressPrompt` and `getDefaultDescriptionPrompt` are the parameter `defaults`, not constants. Their text only shapes what the search service is asked, and the search service is a parameter.
- Perplexity: the search function of type `Search` stands for the whole request, including the fixed system message sent with every prompt. Only the user prompt is an input.
- Hash.ComputeCompanyHash: the digest is an opaque function from the key to 32 bytes. The UTF-8 encoding of the key is folded into it.

=== FILE: batching.dfy ===
/** Consecutive fixed-size slices: `for (i = 0; i < n; i += size) xs.slice(i, i + size)`
    in the TypeScript code and `chunked(xs, chunk_size)` in the Python loaders. */
module Batching {

  function Min(a: int, b: int): int { if a <= b then a else b }

  /** The slices of `xs`, in order, each `size` long except possibly the last. */
  function Chunks<T>(xs: seq<T>, size: nat): (cs: seq<seq<T>>)
    requires size > 0
    decreases |xs|
  {
    if |xs| == 0 then []
    else [xs[..Min(size, |xs|)]] + Chunks(xs[Min(size, |xs|)..], size)
  }

  function Flatten<T>(xss: seq<seq<T>>): seq<T> {
    if |xss| == 0 then [] else xss[0] + Flatten(xss[1..])
  }

  /** Every chunk is non-empty and at most `size` long, and the chunks put
      back together are `xs`, in order. */
  lemma {:induction false} ChunksCover<T>(xs: seq<T>, size: nat)
    requires size > 0
    ensures forall b :: 0 <= b < |Chunks(xs, size)| ==> 0 < |Chunks(xs, size)[b]| <= size
    ensures Flatten(Chunks(xs, size)) == xs
    decreases |xs|
  {
    if |xs| > 0 {
      var k := Min(size, |xs|);
      ChunksCover(xs[k..], size);
      assert xs == xs[..k] + xs[k..];
    }
  }

  /** There is a chunk number `b` exactly when `b * size` is inside `xs`. */
  lemma {:induction false} ChunkCount<T>(xs: seq<T>, size: nat, b: nat)
    requires size > 0
    ensures b < |Chunks(xs, size)| <==> b * size < |xs|
    decreases |xs|
  {
    var k := Min(size, |xs|);
    if |xs| > 0 && b > 0 {
      ChunkCount(xs[k..], size, b - 1);
      assert (b - 1) * size + size == b * size;
    }
  }

  /** Where chunk number `b` starts, counted chunk by chunk. */
  function Start(b: nat, size: nat): nat {
    if b == 0 then 0 else Start(b - 1, size) + size
  }

  lemma {:induction false} StartIsProduct(b: nat, size: nat)
    ensures Start(b, size) == b * size
  {
    if b > 0 {
      StartIsProduct(b - 1, size);
      assert (b - 1) * size + size == b * size;
    }
  }

  lemma {:induction false} ChunkAtStart<T>(xs: seq<T>, size: nat, b: nat)
    requires size > 0
    requires b < |Chunks(xs, size)|
    ensures Start(b, size) < |xs|
    ensures Chunks(xs, size)[b] == xs[Start(b, size)..Min(Start(b, size) + size, |xs|)]
    decreases |xs|
  {
    var k := Min(size, |xs|);
    var cs := Chunks(xs[k..], size);
    assert |xs| > 0 && Chunks(xs, size) == [xs[..k]] + cs;
    if b > 0 {
      ChunkAtStart(xs[k..], size, b - 1);
      var m := Start(b - 1, size);
      var hi := Min(m + size, |xs| - k);
      assert k == size;
      SliceOfDrop(xs, k, m, hi);
    }
  }

  lemma SliceOfDrop<T>(xs: seq<T>, k: nat, m: nat, hi: nat)
    requires k <= |xs| && m <= hi <= |xs| - k
    ensures xs[k..][m..hi] == xs[k + m..k + hi]
  {
  }

  /** The chunk with number `b` is the slice that starts at `b * size`. */
  lemma ChunkAt<T>(xs: seq<T>, size: nat, b: nat)
    requires size > 0
    requires b < |Chunks(xs, size)|
    ensures b * size < |xs|
    ensures Chunks(xs, size)[b] == xs[b * size..Min(b * size + size, |xs|)]
  {
    ChunkAtStart(xs, size, b);
    StartIsProduct(b, size);
  }
}

=== FILE: clean.dfy ===
/** The CLEAN step: the pending companies of an import are sent to the
    language model in batches of 15 together with the active clean prompt,
    and every record the model returns is written back to the company with
    the same hash, which moves from `pending` to `cleaned`.  A batch the
    model call fails on is retried one company at a time.  The prompt table,
    the model and the update errors of the database are parameters. */
module Clean {
  import opened Wrappers
  import opened Strings
  import opened Batching
  import opened Model
  import Store

  const NoPromptMessage: string := "No active CLEAN prompt found in database. Please add one via /pipeline/prompts"
  const NoResponseMessage: string := "No response from OpenAI"
  const NoPendingMessage: string := "No pending companies found"
  const CleanBatchSize: nat := 15

  /** `getCleanPrompt`: `template` is the `template` column of the active
      `clean` prompt, `None` when the query fails or finds no row. */
  function GetCleanPrompt(template: Option<string>): (r: Result<string>)
    ensures r.Ok? <==> template.Some? && template.value != ""
    ensures r.Ok? ==> r.value == template.value
    ensures r.Err? ==> r.msg == NoPromptMessage
  {
    if template.None? || template.value == "" then Err(NoPromptMessage) else Ok(template.value)
  }

  /** The fields of a company sent to the model. */
  datatype ForCleaning = ForCleaning(companyHash: string, name: string, address: Option<string>,
    description: Option<string>, companyType: Option<string>)

  function ForCleaningOf(c: Company): ForCleaning {
    ForCleaning(c.companyHash, c.name, c.address, c.description, c.companyType)
  }

  /** `batch.map(c => ({company_hash, name, address, description, company_type}))`. */
  function Inputs(batch: seq<Company>): (xs: seq<ForCleaning>)
    ensures |xs| == |batch|
    ensures forall i :: 0 <= i < |batch| ==> xs[i] == ForCleaningOf(batch[i])
  {
    if batch == [] then [] else Inputs(batch[..|batch| - 1]) + [ForCleaningOf(batch[|batch| - 1])]
  }

  /** One record of the model's answer. */
  datatype CleanedCompany = CleanedCompany(companyHash: string, formattedName: string,
    formattedAddress: Option<string>, companyType: Option<string>, enrichedDescription: Option<string>)

  /** The parsed JSON content: an array, or an object whose `companies` or
      `results` key holds the array (`None`: key absent or null). */
  datatype Parsed =
    | ParsedArray(items: seq<CleanedCompany>)
    | ParsedObject(companies: Option<seq<CleanedCompany>>, results: Option<seq<CleanedCompany>>)

  /** What the chat-completion call yields: a thrown error (an API failure
      or content that is not JSON), no content, or parsed content. */
  datatype Reply = Threw(msg: string) | NoContent | Content(parsed: Parsed)

  /** The model, as a function of the system prompt and the companies. */
  type Llm = (string, seq<ForCleaning>) -> Reply

  function Records(p: Parsed): seq<CleanedCompany> {
    match p
    case ParsedArray(items) => items
    case ParsedObject(companies, results) =>
      if companies.Some? then companies.value else if results.Some? then results.value else []
  }

  /** `cleanCompanyBatch`: the prompt guard runs first, then the model call;
      an array answer is returned as it is, an object answer yields its
      `companies`, else its `results`, else nothing. */
  function CleanCompanyBatch(template: Option<string>, llm: Llm, inputs: seq<ForCleaning>): Result<seq<CleanedCompany>> {
    match GetCleanPrompt(template)
    case Err(msg) => Err(msg)
    case Ok(prompt) =>
      match llm(prompt, inputs)
      case Threw(msg) => Err(msg)
      case NoContent => Err(NoResponseMessage)
      case Content(p) => Ok(Records(p))
  }

  /** The outcomes of `cleanCompanyBatch`: without a usable prompt it
      fails before the model is called; otherwise a thrown error is passed
      on, missing content is an error, and the array is taken from the
      answer or from its `companies` or `results` key, in that order. */
  lemma CleanCompanyBatchOutcome(template: Option<string>, llm: Llm, inputs: seq<ForCleaning>)
    ensures var r := CleanCompanyBatch(template, llm, inputs);
      (GetCleanPrompt(template).Err? ==> r == Err(NoPromptMessage))
      && (GetCleanPrompt(template).Ok? ==>
        match llm(template.value, inputs)
        case Threw(msg) => r == Err(msg)
        case NoContent => r == Err(NoResponseMessage)
        case Content(ParsedArray(items)) => r == Ok(items)
        case Content(ParsedObject(cs, rs)) =>
          r.Ok? && (cs.Some? ==> r.value == cs.value) && (cs.None? && rs.Some? ==> r.value == rs.value)
          && (cs.None? && rs.None? ==> r.value == []))
  {
  }

  /** JavaScript `a || b` on a nullable string. */
  function OrElse(a: Option<string>, b: Option<string>): Option<string> {
    if a.Some? && a.value != "" then a else b
  }

  /** `b` equals `a` except in the four columns the clean step writes and
      the status. */
  predicate KeepsOtherColumns(a: Company, b: Company) {
    b == a.(formattedName := b.formattedName, formattedAddress := b.formattedAddress, companyType := b.companyType,
            enrichedDescription := b.enrichedDescription, status := b.status)
  }

  /** The row after the update: the model's formatted fields, the model's
      company type unless it is empty (then the type read at selection),
      and status `cleaned`. */
  function CleanedRow(current: Company, original: Company, cc: CleanedCompany): Company {
    current.(formattedName := Some(cc.formattedName), formattedAddress := cc.formattedAddress,
             companyType := OrElse(cc.companyType, original.companyType),
             enrichedDescription := cc.enrichedDescription, status := Cleaned)
  }

  /** The updated row is `cleaned`, carries the model's fields, falls back
      to the company type read at selection when the model's is empty, and
      keeps every other column of the current row. */
  lemma CleanedRowFields(current: Company, original: Company, cc: CleanedCompany)
    ensures var r := CleanedRow(current, original, cc);
      r.status == Cleaned && KeepsOtherColumns(current, r) && r.companyHash == current.companyHash
      && r.formattedName == Some(cc.formattedName)
      && r.formattedAddress == cc.formattedAddress && r.enrichedDescription == cc.enrichedDescription
      && (cc.companyType.Some? && cc.companyType.value != "" ==> r.companyType == cc.companyType)
      && (cc.companyType.None? || cc.companyType.value == "" ==> r.companyType == original.companyType)
  {
  }

  /** The companies table and the counters of `runCleanStep`. */
  datatype CleanState = CleanState(companies: map<string, Company>, processed: nat, errors: seq<string>)

  /** The update of `original` with record `cc` on the success path: an
      update error is reported and changes nothing, an update that matches
      no row changes nothing either and counts as done. */
  function ApplyCleaned(st: CleanState, original: Company, cc: CleanedCompany, fault: Company -> Option<string>): (r: CleanState)
    ensures r.companies.Keys == st.companies.Keys
    ensures r.processed + |r.errors| == st.processed + |st.errors| + 1
  {
    var h := original.companyHash;
    if h !in st.companies then st.(processed := st.processed + 1)
    else
      var row := CleanedRow(st.companies[h], original, cc);
      match fault(row)
      case Some(msg) => st.(errors := st.errors + ["Failed to update " + original.name + ": " + msg])
      case None => CleanState(st.companies[h := row], st.processed + 1, st.errors)
  }

  /** `batch.find(b => b.company_hash === hash)`. */
  function FindByHash(batch: seq<Company>, h: string): (r: Option<Company>)
    ensures r.Some? ==> r.value in batch && r.value.companyHash == h
    ensures r.None? <==> forall c :: c in batch ==> c.companyHash != h
  {
    if batch == [] then None
    else if batch[0].companyHash == h then Some(batch[0])
    else FindByHash(batch[1..], h)
  }

  /** The records of `answer` whose hash is in the batch. */
  function Known(batch: seq<Company>, answer: seq<CleanedCompany>): (n: nat)
    ensures n <= |answer|
    ensures n == |answer| <==> forall i :: 0 <= i < |answer| ==> FindByHash(batch, answer[i].companyHash).Some?
    ensures n == 0 <==> forall i :: 0 <= i < |answer| ==> FindByHash(batch, answer[i].companyHash).None?
  {
    if answer == [] then 0
    else
      var prefix := answer[..|answer| - 1];
      assert forall i :: 0 <= i < |prefix| ==> prefix[i] == answer[i];
      Known(batch, prefix) + (if FindByHash(batch, answer[|answer| - 1].companyHash).Some? then 1 else 0)
  }

  /** One returned record: a record with an unknown hash is skipped. */
  function ApplyRecord(st: CleanState, batch: seq<Company>, cc: CleanedCompany, fault: Company -> Option<string>): CleanState {
    match FindByHash(batch, cc.companyHash)
    case None => st
    case Some(original) => ApplyCleaned(st, original, cc, fault)
  }

  /** The success path of a batch: each returned record in turn. */
  function ApplyAnswer(st: CleanState, batch: seq<Company>, answer: seq<CleanedCompany>, fault: Company -> Option<string>): (r: CleanState)
    ensures r.companies.Keys == st.companies.Keys
    ensures r.processed + |r.errors| == st.processed + |st.errors| + Known(batch, answer)
  {
    if answer == [] then st
    else ApplyRecord(ApplyAnswer(st, batch, answer[..|answer| - 1], fault), batch, answer[|answer| - 1], fault)
  }

  /** The fallback for one company: a failed call is reported, an empty
      answer is skipped, and otherwise the first record is written to this
      company whatever its hash; the update's own error is not looked at
      and the company counts as processed. */
  function CleanSolo(st: CleanState, c: Company, template: Option<string>, llm: Llm, fault: Company -> Option<string>): (r: CleanState)
    ensures r.companies.Keys == st.companies.Keys
    ensures st.processed + |st.errors| <= r.processed + |r.errors| <= st.processed + |st.errors| + 1
  {
    match CleanCompanyBatch(template, llm, [ForCleaningOf(c)])
    case Err(_) => st.(errors := st.errors + ["Individual processing failed for: " + c.name])
    case Ok(xs) =>
      if xs == [] then st
      else
        var h := c.companyHash;
        var companies :=
          if h in st.companies && fault(CleanedRow(st.companies[h], c, xs[0])).None?
          then st.companies[h := CleanedRow(st.companies[h], c, xs[0])]
          else st.companies;
        CleanState(companies, st.processed + 1, st.errors)
  }

  /** The fallback for a whole batch, company by company. */
  function SoloAll(st: CleanState, batch: seq<Company>, template: Option<string>, llm: Llm, fault: Company -> Option<string>): (r: CleanState)
    ensures r.companies.Keys == st.companies.Keys
    ensures st.processed + |st.errors| <= r.processed + |r.errors| <= st.processed + |st.errors| + |batch|
  {
    if batch == [] then st
    else CleanSolo(SoloAll(st, batch[..|batch| - 1], template, llm, fault), batch[|batch| - 1], template, llm, fault)
  }

  function BatchFailed(b: nat, msg: string): string {
    "Batch " + NatToString(b + 1) + " failed: " + msg
  }

  /** Batch number `b` (from 0). */
  function CleanBatch(st: CleanState, batch: seq<Company>, b: nat, template: Option<string>, llm: Llm, fault: Company -> Option<string>): (r: CleanState)
    ensures r.companies.Keys == st.companies.Keys
  {
    match CleanCompanyBatch(template, llm, Inputs(batch))
    case Ok(answer) => ApplyAnswer(st, batch, answer, fault)
    case Err(msg) => SoloAll(st.(errors := st.errors + [BatchFailed(b, msg)]), batch, template, llm, fault)
  }

  /** The first `b` batches. */
  function CleanUpTo(st: CleanState, batches: seq<seq<Company>>, b: nat, template: Option<string>, llm: Llm,
    fault: Company -> Option<string>): (r: CleanState)
    requires b <= |batches|
    ensures r.companies.Keys == st.companies.Keys
  {
    if b == 0 then st else CleanBatch(CleanUpTo(st, batches, b - 1, template, llm, fault), batches[b - 1], b - 1, template, llm, fault)
  }

  /** The pending companies of the import, in select order. */
  function Selection(rows: seq<Company>, importId: ImportId): seq<Company> {
    Store.WithStatus(rows, importId, Pending)
  }

  /** What `runCleanStep` leaves behind for a selection. */
  function CleanStep(companies: map<string, Company>, sel: seq<Company>, template: Option<string>, llm: Llm,
    fault: Company -> Option<string>): CleanState
  {
    if sel == [] then CleanState(companies, 0, [NoPendingMessage])
    else
      var batches := Chunks(sel, CleanBatchSize);
      CleanUpTo(CleanState(companies, 0, []), batches, |batches|, template, llm, fault)
  }

  // ---------------------------------------------------------------------
  // Properties of the specification

  /** Every company of `sel` is stored as it is, pending, in this import. */
  ghost predicate Selected(c0: map<string, Company>, sel: seq<Company>, importId: ImportId) {
    forall c :: c in sel ==> c.companyHash in c0 && c0[c.companyHash] == c && c.status == Pending && c.importId == importId
  }

  /** `b` is `a`, or `a` was a pending company of the import and `b` is it
      cleaned. */
  predicate CleanedFrom(a: Company, b: Company, importId: ImportId) {
    b == a || (a.status == Pending && a.importId == importId && b.status == Cleaned && KeepsOtherColumns(a, b))
  }

  /** A company of the batch with hash `h` is `a`, pending, in this import. */
  ghost predicate Agrees(batch: seq<Company>, h: string, a: Company, importId: ImportId) {
    forall c :: c in batch && c.companyHash == h ==> c == a && a.status == Pending && a.importId == importId
  }

  lemma CleanedRowFrom(a: Company, current: Company, original: Company, cc: CleanedCompany, importId: ImportId)
    requires CleanedFrom(a, current, importId)
    requires original == a && a.status == Pending && a.importId == importId
    ensures CleanedFrom(a, CleanedRow(current, original, cc), importId)
  {
    CleanedRowFields(current, original, cc);
    assert KeepsOtherColumns(a, CleanedRow(current, original, cc));
  }

  lemma ApplyCleanedFrom(st: CleanState, original: Company, cc: CleanedCompany, fault: Company -> Option<string>,
    h: string, a: Company, importId: ImportId)
    requires h in st.companies && CleanedFrom(a, st.companies[h], importId)
    requires original.companyHash == h ==> original == a && a.status == Pending && a.importId == importId
    ensures CleanedFrom(a, ApplyCleaned(st, original, cc, fault).companies[h], importId)
  {
    if original.companyHash == h {
      CleanedRowFrom(a, st.companies[h], original, cc, importId);
    }
  }

  lemma {:induction false} ApplyAnswerFrom(st: CleanState, batch: seq<Company>, answer: seq<CleanedCompany>,
    fault: Company -> Option<string>, h: string, a: Company, importId: ImportId)
    requires h in st.companies && CleanedFrom(a, st.companies[h], importId) && Agrees(batch, h, a, importId)
    ensures CleanedFrom(a, ApplyAnswer(st, batch, answer, fault).companies[h], importId)
  {
    if answer != [] {
      var n := |answer| - 1;
      ApplyAnswerFrom(st, batch, answer[..n], fault, h, a, importId);
      var s := ApplyAnswer(st, batch, answer[..n], fault);
      var found := FindByHash(batch, answer[n].companyHash);
      if found.Some? {
        ApplyCleanedFrom(s, found.value, answer[n], fault, h, a, importId);
      }
    }
  }

  lemma CleanSoloFrom(st: CleanState, c: Company, template: Option<string>, llm: Llm, fault: Company -> Option<string>,
    h: string, a: Company, importId: ImportId)
    requires h in st.companies && CleanedFrom(a, st.companies[h], importId)
    requires c.companyHash == h ==> c == a && a.status == Pending && a.importId == importId
    ensures CleanedFrom(a, CleanSolo(st, c, template, llm, fault).companies[h], importId)
  {
    var answer := CleanCompanyBatch(template, llm, [ForCleaningOf(c)]);
    if answer.Ok? && answer.value != [] && c.companyHash == h {
      CleanedRowFrom(a, st.companies[h], c, answer.value[0], importId);
    }
  }

  lemma {:induction false} SoloAllFrom(st: CleanState, batch: seq<Company>, template: Option<string>, llm: Llm,
    fault: Company -> Option<string>, h: string, a: Company, importId: ImportId)
    requires h in st.companies && CleanedFrom(a, st.companies[h], importId) && Agrees(batch, h, a, importId)
    ensures CleanedFrom(a, SoloAll(st, batch, template, llm, fault).companies[h], importId)
  {
    if batch != [] {
      var n := |batch| - 1;
      assert Agrees(batch[..n], h, a, importId) by {
        forall c | c in batch[..n] ensures c in batch { }
      }
      SoloAllFrom(st, batch[..n], template, llm, fault, h, a, importId);
      assert batch[n] in batch;
      CleanSoloFrom(SoloAll(st, batch[..n], template, llm, fault), batch[n], template, llm, fault, h, a, importId);
    }
  }

  lemma CleanBatchFrom(st: CleanState, batch: seq<Company>, b: nat, template: Option<string>, llm: Llm,
    fault: Company -> Option<string>, h: string, a: Company, importId: ImportId)
    requires h in st.companies && CleanedFrom(a, st.companies[h], importId) && Agrees(batch, h, a, importId)
    ensures CleanedFrom(a, CleanBatch(st, batch, b, template, llm, fault).companies[h], importId)
  {
    var answer := CleanCompanyBatch(template, llm, Inputs(batch));
    if answer.Ok? {
      ApplyAnswerFrom(st, batch, answer.value, fault, h, a, importId);
    } else {
      SoloAllFrom(st.(errors := st.errors + [BatchFailed(b, answer.msg)]), batch, template, llm, fault, h, a, importId);
    }
  }

  lemma ChunkAgrees(c0: map<string, Company>, sel: seq<Company>, b: nat, h: string, importId: ImportId)
    requires Selected(c0, sel, importId) && h in c0
    requires b < |Chunks(sel, CleanBatchSize)|
    ensures Agrees(Chunks(sel, CleanBatchSize)[b], h, c0[h], importId)
  {
    ChunkAt(sel, CleanBatchSize, b);
    forall c | c in Chunks(sel, CleanBatchSize)[b] ensures c in sel {
      var k :| 0 <= k < |Chunks(sel, CleanBatchSize)[b]| && Chunks(sel, CleanBatchSize)[b][k] == c;
      assert c == sel[b * CleanBatchSize + k];
    }
  }

  /** A company that no returned record names, or whose hash is not in the
      batch, is left as it is by the success path. */
  lemma {:induction false} AnswerLeavesOthers(st: CleanState, batch: seq<Company>, answer: seq<CleanedCompany>,
    fault: Company -> Option<string>, h: string)
    requires h in st.companies
    requires (forall k :: 0 <= k < |answer| ==> answer[k].companyHash != h) || (forall c :: c in batch ==> c.companyHash != h)
    ensures ApplyAnswer(st, batch, answer, fault).companies[h] == st.companies[h]
  {
    if answer != [] {
      var n := |answer| - 1;
      AnswerLeavesOthers(st, batch, answer[..n], fault, h);
      var found := FindByHash(batch, answer[n].companyHash);
      if found.Some? {
        assert found.value.companyHash != h;
      }
    }
  }

  /** On the success path an update that reports no error writes the
      `cleaned` row and counts the company as processed; an update error
      leaves the table as it was and adds one message. */
  lemma ApplyCleanedOutcome(st: CleanState, original: Company, cc: CleanedCompany, fault: Company -> Option<string>)
    requires original.companyHash in st.companies
    ensures var h := original.companyHash;
      var row := CleanedRow(st.companies[h], original, cc);
      var r := ApplyCleaned(st, original, cc, fault);
      (r.processed == st.processed + 1 <==> fault(row).None?)
      && (fault(row).None? ==> r.companies[h] == row && row.status == Cleaned && r.errors == st.errors)
      && (fault(row).Some? ==>
        r.companies == st.companies && r.errors == st.errors + ["Failed to update " + original.name + ": " + fault(row).value])
  {
  }

  /** The companies of a failed batch whose own retry fails too. */
  function SoloFailures(batch: seq<Company>, template: Option<string>, llm: Llm): (n: nat)
    ensures n <= |batch|
  {
    if batch == [] then 0
    else
      var failed := CleanCompanyBatch(template, llm, [ForCleaningOf(batch[|batch| - 1])]).Err?;
      SoloFailures(batch[..|batch| - 1], template, llm) + (if failed then 1 else 0)
  }

  /** The fallback adds one error per company whose retry fails and keeps
      the earlier errors in front. */
  lemma {:induction false} SoloAllErrors(st: CleanState, batch: seq<Company>, template: Option<string>, llm: Llm,
    fault: Company -> Option<string>)
    ensures var r := SoloAll(st, batch, template, llm, fault);
      |r.errors| == |st.errors| + SoloFailures(batch, template, llm) && r.errors[..|st.errors|] == st.errors
  {
    if batch != [] {
      var n := |batch| - 1;
      SoloAllErrors(st, batch[..n], template, llm, fault);
      var s := SoloAll(st, batch[..n], template, llm, fault);
      var r := CleanSolo(s, batch[n], template, llm, fault);
      assert r.errors == s.errors || r.errors == s.errors + ["Individual processing failed for: " + batch[n].name];
      assert r.errors[..|st.errors|] == s.errors[..|st.errors|];
    }
  }

  /** A batch whose model call fails reports the batch once, then one error
      per company whose retry fails, after the errors so far. */
  lemma FailedBatchRetries(st: CleanState, batch: seq<Company>, b: nat, template: Option<string>, llm: Llm,
    fault: Company -> Option<string>)
    requires CleanCompanyBatch(template, llm, Inputs(batch)).Err?
    ensures var r := CleanBatch(st, batch, b, template, llm, fault);
      var msg := CleanCompanyBatch(template, llm, Inputs(batch)).msg;
      |r.errors| == |st.errors| + 1 + SoloFailures(batch, template, llm)
      && r.errors[..|st.errors| + 1] == st.errors + [BatchFailed(b, msg)]
  {
    var msg := CleanCompanyBatch(template, llm, Inputs(batch)).msg;
    SoloAllErrors(st.(errors := st.errors + [BatchFailed(b, msg)]), batch, template, llm, fault);
  }

  /** With no usable prompt every batch fails and so does every retry:
      nothing is written, nothing is processed, and there is one error per
      batch plus one per company. */
  lemma NoPromptBatch(st: CleanState, batch: seq<Company>, b: nat, template: Option<string>, llm: Llm,
    fault: Company -> Option<string>)
    requires NoPrompt(template)
    ensures var r := CleanBatch(st, batch, b, template, llm, fault);
      r.companies == st.companies && r.processed == st.processed && |r.errors| == |st.errors| + 1 + |batch|
  {
    NoPromptSolo(st.(errors := st.errors + [BatchFailed(b, NoPromptMessage)]), batch, template, llm, fault);
  }

  lemma {:induction false} NoPromptSolo(st: CleanState, batch: seq<Company>, template: Option<string>, llm: Llm,
    fault: Company -> Option<string>)
    requires NoPrompt(template)
    ensures var r := SoloAll(st, batch, template, llm, fault);
      r.companies == st.companies && r.processed == st.processed && |r.errors| == |st.errors| + |batch|
  {
    if batch != [] {
      NoPromptSolo(st, batch[..|batch| - 1], template, llm, fault);
    }
  }

  // ---------------------------------------------------------------------
  // runCleanStep

  lemma ApplyAnswerStep(st: CleanState, batch: seq<Company>, answer: seq<CleanedCompany>, k: nat, fault: Company -> Option<string>)
    requires k < |answer|
    ensures ApplyAnswer(st, batch, answer[..k + 1], fault) == ApplyRecord(ApplyAnswer(st, batch, answer[..k], fault), batch, answer[k], fault)
  {
    assert answer[..k + 1][..k] == answer[..k];
  }

  lemma SoloAllStep(st: CleanState, batch: seq<Company>, k: nat, template: Option<string>, llm: Llm, fault: Company -> Option<string>)
    requires k < |batch|
    ensures SoloAll(st, batch[..k + 1], template, llm, fault) == CleanSolo(SoloAll(st, batch[..k], template, llm, fault), batch[k], template, llm, fault)
  {
    assert batch[..k + 1][..k] == batch[..k];
  }

  /** One returned record written to the store. */
  method ApplyRecordTo(db: Store.Store, batch: seq<Company>, cc: CleanedCompany, fault: Company -> Option<string>,
    processed0: nat, errors0: seq<string>)
    returns (processed: nat, errors: seq<string>)
    requires db.Valid()
    modifies db
    ensures db.Valid()
    ensures CleanState(db.companies, processed, errors) == ApplyRecord(CleanState(old(db.companies), processed0, errors0), batch, cc, fault)
    ensures db.order == old(db.order) && db.imports == old(db.imports) && db.nextImportId == old(db.nextImportId) && db.logs == old(db.logs)
  {
    processed, errors := processed0, errors0;
    var original := FindByHash(batch, cc.companyHash);
    if original.None? {
      return;
    }
    var h := original.value.companyHash;
    if h !in db.companies {
      processed := processed + 1;
      return;
    }
    var row := CleanedRow(db.companies[h], original.value, cc);
    var updateError := fault(row);
    if updateError.Some? {
      errors := errors + ["Failed to update " + original.value.name + ": " + updateError.value];
    } else {
      db.Update(row);
      processed := processed + 1;
    }
  }

  /** The success path: every returned record in turn. */
  method ApplyAnswerTo(db: Store.Store, batch: seq<Company>, answer: seq<CleanedCompany>, fault: Company -> Option<string>,
    processed0: nat, errors0: seq<string>)
    returns (processed: nat, errors: seq<string>)
    requires db.Valid()
    modifies db
    ensures db.Valid()
    ensures CleanState(db.companies, processed, errors) == ApplyAnswer(CleanState(old(db.companies), processed0, errors0), batch, answer, fault)
    ensures db.order == old(db.order) && db.imports == old(db.imports) && db.nextImportId == old(db.nextImportId) && db.logs == old(db.logs)
  {
    ghost var st0 := CleanState(db.companies, processed0, errors0);
    processed, errors := processed0, errors0;
    var k := 0;
    while k < |answer|
      invariant 0 <= k <= |answer|
      invariant db.Valid()
      invariant CleanState(db.companies, processed, errors) == ApplyAnswer(st0, batch, answer[..k], fault)
      invariant db.order == old(db.order) && db.imports == old(db.imports) && db.nextImportId == old(db.nextImportId) && db.logs == old(db.logs)
    {
      ApplyAnswerStep(st0, batch, answer, k, fault);
      processed, errors := ApplyRecordTo(db, batch, answer[k], fault, processed, errors);
      k := k + 1;
    }
    assert answer[..k] == answer;
  }

  /** The fallback for one company. */
  method CleanSoloTo(db: Store.Store, c: Company, template: Option<string>, llm: Llm, fault: Company -> Option<string>,
    processed0: nat, errors0: seq<string>)
    returns (processed: nat, errors: seq<string>)
    requires db.Valid()
    modifies db
    ensures db.Valid()
    ensures CleanState(db.companies, processed, errors) == CleanSolo(CleanState(old(db.companies), processed0, errors0), c, template, llm, fault)
    ensures db.order == old(db.order) && db.imports == old(db.imports) && db.nextImportId == old(db.nextImportId) && db.logs == old(db.logs)
  {
    processed, errors := processed0, errors0;
    var answer := CleanCompanyBatch(template, llm, [ForCleaningOf(c)]);
    if answer.Err? {
      errors := errors + ["Individual processing failed for: " + c.name];
      return;
    }
    if answer.value == [] {
      return;
    }
    var h := c.companyHash;
    if h in db.companies {
      var row := CleanedRow(db.companies[h], c, answer.value[0]);
      if fault(row).None? {
        db.Update(row);
      }
    }
    processed := processed + 1;
  }

  /** The fallback loop over a failed batch. */
  method SoloAllTo(db: Store.Store, batch: seq<Company>, template: Option<string>, llm: Llm, fault: Company -> Option<string>,
    processed0: nat, errors0: seq<string>)
    returns (processed: nat, errors: seq<string>)
    requires db.Valid()
    modifies db
    ensures db.Valid()
    ensures CleanState(db.companies, processed, errors) == SoloAll(CleanState(old(db.companies), processed0, errors0), batch, template, llm, fault)
    ensures db.order == old(db.order) && db.imports == old(db.imports) && db.nextImportId == old(db.nextImportId) && db.logs == old(db.logs)
  {
    ghost var st0 := CleanState(db.companies, processed0, errors0);
    processed, errors := processed0, errors0;
    var k := 0;
    while k < |batch|
      invariant 0 <= k <= |batch|
      invariant db.Valid()
      invariant CleanState(db.companies, processed, errors) == SoloAll(st0, batch[..k], template, llm, fault)
      invariant db.order == old(db.order) && db.imports == old(db.imports) && db.nextImportId == old(db.nextImportId) && db.logs == old(db.logs)
    {
      SoloAllStep(st0, batch, k, template, llm, fault);
      processed, errors := CleanSoloTo(db, batch[k], template, llm, fault, processed, errors);
      k := k + 1;
    }
    assert batch[..k] == batch;
  }

  /** One batch: the model call, then the success path or the fallback. */
  method CleanBatchTo(db: Store.Store, batch: seq<Company>, b: nat, template: Option<string>, llm: Llm,
    fault: Company -> Option<string>, processed0: nat, errors0: seq<string>)
    returns (processed: nat, errors: seq<string>)
    requires db.Valid()
    modifies db
    ensures db.Valid()
    ensures CleanState(db.companies, processed, errors) == CleanBatch(CleanState(old(db.companies), processed0, errors0), batch, b, template, llm, fault)
    ensures db.order == old(db.order) && db.imports == old(db.imports) && db.nextImportId == old(db.nextImportId) && db.logs == old(db.logs)
  {
    var cleaned := CleanCompanyBatch(template, llm, Inputs(batch));
    if cleaned.Ok? {
      processed, errors := ApplyAnswerTo(db, batch, cleaned.value, fault, processed0, errors0);
    } else {
      processed, errors := SoloAllTo(db, batch, template, llm, fault, processed0, errors0 + [BatchFailed(b, cleaned.msg)]);
    }
  }

  lemma CleanUpToStep(st: CleanState, batches: seq<seq<Company>>, b: nat, template: Option<string>, llm: Llm,
    fault: Company -> Option<string>)
    requires b < |batches|
    ensures CleanUpTo(st, batches, b + 1, template, llm, fault)
      == CleanBatch(CleanUpTo(st, batches, b, template, llm, fault), batches[b], b, template, llm, fault)
  {
  }

  /** No active prompt with a non-empty template. */
  predicate NoPrompt(template: Option<string>) {
    template.None? || template.value == ""
  }

  /** Every company of `c0` is still stored in `c1`, unchanged or, if it
      was a pending company of the import, cleaned. */
  ghost predicate OnlyPendingCleaned(c0: map<string, Company>, c1: map<string, Company>, importId: ImportId) {
    forall h :: h in c0 ==> h in c1 && CleanedFrom(c0[h], c1[h], importId)
  }

  /** Batch `b`: the slice of 15 companies from `i`; `b` is the source's
      `i / batchSize`. */
  method CleanBatchAt(db: Store.Store, sel: seq<Company>, i: nat, template: Option<string>, llm: Llm, fault: Company -> Option<string>,
    processed0: nat, errors0: seq<string>, b: nat, ghost batches: seq<seq<Company>>, ghost c0: map<string, Company>, ghost importId: ImportId)
    returns (processed: nat, errors: seq<string>)
    requires db.Valid()
    requires batches == Chunks(sel, CleanBatchSize) && b < |batches| && i == b * CleanBatchSize
    requires Selected(c0, sel, importId) && OnlyPendingCleaned(c0, db.companies, importId)
    modifies db
    ensures db.Valid()
    ensures CleanState(db.companies, processed, errors) == CleanBatch(CleanState(old(db.companies), processed0, errors0), batches[b], b, template, llm, fault)
    ensures OnlyPendingCleaned(c0, db.companies, importId)
    ensures NoPrompt(template) ==> db.companies == old(db.companies) && processed == processed0 && |errors| == |errors0| + 1 + (Min(i + CleanBatchSize, |sel|) - i)
    ensures db.order == old(db.order) && db.imports == old(db.imports) && db.nextImportId == old(db.nextImportId) && db.logs == old(db.logs)
  {
    ChunkAt(sel, CleanBatchSize, b);
    var batch := sel[i..Min(i + CleanBatchSize, |sel|)];
    assert batch == batches[b];
    ghost var st := CleanState(db.companies, processed0, errors0);
    processed, errors := CleanBatchTo(db, batch, b, template, llm, fault, processed0, errors0);
    forall h | h in c0 ensures h in db.companies && CleanedFrom(c0[h], db.companies[h], importId) {
      ChunkAgrees(c0, sel, b, h, importId);
      CleanBatchFrom(st, batch, b, template, llm, fault, h, c0[h], importId);
    }
    if NoPrompt(template) {
      NoPromptBatch(st, batch, b, template, llm, fault);
    }
  }

  /** The batch loop of `runCleanStep`.  Only pending companies of the
      import change; without a prompt nothing changes and every batch and
      every company is reported. */
  method CleanBatches(db: Store.Store, sel: seq<Company>, template: Option<string>, llm: Llm, fault: Company -> Option<string>,
    ghost batches: seq<seq<Company>>, ghost importId: ImportId)
    returns (processed: nat, errors: seq<string>)
    requires db.Valid()
    requires batches == Chunks(sel, CleanBatchSize)
    requires Selected(db.companies, sel, importId)
    modifies db
    ensures db.Valid()
    ensures CleanState(db.companies, processed, errors) == CleanUpTo(CleanState(old(db.companies), 0, []), batches, |batches|, template, llm, fault)
    ensures OnlyPendingCleaned(old(db.companies), db.companies, importId)
    ensures NoPrompt(template) ==> db.companies == old(db.companies) && processed == 0 && |errors| == |batches| + |sel|
    ensures db.order == old(db.order) && db.imports == old(db.imports) && db.nextImportId == old(db.nextImportId) && db.logs == old(db.logs)
  {
    ghost var c0 := db.companies;
    ghost var st0 := CleanState(db.companies, 0, []);
    processed, errors := 0, [];
    var b := 0;
    var i := 0;
    while i < |sel|
      invariant 0 <= b <= |batches| && i == b * CleanBatchSize
      invariant db.Valid()
      invariant CleanState(db.companies, processed, errors) == CleanUpTo(st0, batches, b, template, llm, fault)
      invariant OnlyPendingCleaned(c0, db.companies, importId)
      invariant NoPrompt(template) ==> db.companies == c0 && processed == 0 && |errors| == b + Min(i, |sel|)
      invariant db.order == old(db.order) && db.imports == old(db.imports) && db.nextImportId == old(db.nextImportId) && db.logs == old(db.logs)
    {
      ChunkCount(sel, CleanBatchSize, b);
      CleanUpToStep(st0, batches, b, template, llm, fault);
      processed, errors := CleanBatchAt(db, sel, i, template, llm, fault, processed, errors, b, batches, c0, importId);
      b := b + 1;
      i := i + CleanBatchSize;
    }
    ChunkCount(sel, CleanBatchSize, b);
  }

  /** `runCleanStep`: a failed select throws; an empty selection is
      reported; otherwise the pending companies of the import are cleaned
      in batches of 15, and only they change. */
  method RunCleanStep(db: Store.Store, importId: ImportId, fetchFault: Option<string>, template: Option<string>, llm: Llm,
    fault: Company -> Option<string>)
    returns (r: Result<StepResult>)
    requires db.Valid()
    modifies db
    ensures db.Valid()
    ensures fetchFault.Some? ==> r == Err(FetchFailedPrefix + fetchFault.value) && db.companies == old(db.companies)
    ensures fetchFault.None? ==> r.Ok?
    ensures r.Ok? ==>
      CleanState(db.companies, r.value.processed, r.value.errors)
      == CleanStep(old(db.companies), Selection(old(db.Rows()), importId), template, llm, fault)
    ensures r.Ok? && Selection(old(db.Rows()), importId) == [] ==> r.value == StepResult(0, [NoPendingMessage])
    ensures db.companies.Keys == old(db.companies).Keys
    ensures OnlyPendingCleaned(old(db.companies), db.companies, importId)
    ensures r.Ok? && NoPrompt(template) && Selection(old(db.Rows()), importId) != [] ==>
      var sel := Selection(old(db.Rows()), importId);
      db.companies == old(db.companies) && r.value.processed == 0 && |r.value.errors| == |Chunks(sel, CleanBatchSize)| + |sel|
    ensures db.order == old(db.order) && db.imports == old(db.imports) && db.nextImportId == old(db.nextImportId) && db.logs == old(db.logs)
  {
    if fetchFault.Some? {
      return Err(FetchFailedPrefix + fetchFault.value);
    }
    var companies := Selection(db.Rows(), importId);
    if |companies| == 0 {
      return Ok(StepResult(0, [NoPendingMessage]));
    }
    var processed, errors := CleanBatches(db, companies, template, llm, fault, Chunks(companies, CleanBatchSize), importId);
    return Ok(StepResult(processed, errors));
  }
}

=== FILE: domain.dfy ===
/** Website handling: the host used as the deduplication key and the
    canonical origin of a website.  The WHATWG URL parser is a parameter
    `parse`, which yields `None` where `new URL` throws. */
module Domain {
  import opened Wrappers
  import opened Strings

  /** The parts of a parsed URL the core reads. */
  datatype ParsedUrl = ParsedUrl(hostname: string, origin: string)

  type UrlParser = string -> Option<ParsedUrl>

  /** `/^https?:\/\//i`. */
  predicate HasHttpScheme(s: string) {
    StartsWithCI(s, "http://") || StartsWithCI(s, "https://")
  }

  /** The trimmed website, with `https://` put in front unless it already
      starts with an http or https scheme. */
  function UrlToParse(website: string): (url: string)
    ensures HasHttpScheme(url)
    ensures HasHttpScheme(Trim(website)) ==> url == Trim(website)
    ensures !HasHttpScheme(Trim(website)) ==> url == "https://" + Trim(website)
  {
    var url := Trim(website);
    if HasHttpScheme(url) then url
    else
      assert ("https://" + url)[..8] == "https://";
      "https://" + url
  }

  /** `hostname.replace(/^www\./i, '')`. */
  function StripWww(h: string): (r: string)
    ensures StartsWithCI(h, "www.") ==> r == h[4..]
    ensures !StartsWithCI(h, "www.") ==> r == h
  {
    if StartsWithCI(h, "www.") then h[4..] else h
  }

  // ---------------------------------------------------------------------
  // The fallback `/(?:https?:\/\/)?(?:www\.)?([^\/\s]+)/i`

  /** The class `[^\/\s]`. */
  predicate IsHostChar(c: char) { c != '/' && !IsJsSpace(c) }

  /** End of the longest run of host characters starting at `i`. */
  function RunEnd(t: string, i: nat): (j: nat)
    requires i <= |t|
    ensures i <= j <= |t|
    ensures forall k :: i <= k < j ==> IsHostChar(t[k])
    ensures j < |t| ==> !IsHostChar(t[j])
    decreases |t| - i
  {
    if i == |t| || !IsHostChar(t[i]) then i else RunEnd(t, i + 1)
  }

  /** The group matched from `i`, trying the optional `www.` first. */
  function CaptureAt(t: string, i: nat): (r: Option<string>)
    requires i <= |t|
    ensures r.Some? ==> exists k :: i <= k < |t| && r.value == t[k..RunEnd(t, k)] && RunEnd(t, k) > k
  {
    if i + 4 < |t| && StartsWithCI(t[i..], "www.") && IsHostChar(t[i + 4]) then
      Some(t[i + 4..RunEnd(t, i + 4)])
    else if i < |t| && IsHostChar(t[i]) then
      Some(t[i..RunEnd(t, i)])
    else None
  }

  /** Length of the `https?://` prefix at `p`, or 0 when there is none. */
  function SchemeLen(t: string, p: nat): (k: nat)
    requires p <= |t|
    ensures p + k <= |t|
  {
    if StartsWithCI(t[p..], "https://") then 8
    else if StartsWithCI(t[p..], "http://") then 7
    else 0
  }

  /** Index of the first host character of `t`, or `|t|`. */
  function FirstHostChar(t: string): (p: nat)
    ensures p <= |t|
    ensures forall k :: 0 <= k < p ==> !IsHostChar(t[k])
    ensures p < |t| ==> IsHostChar(t[p])
  {
    if |t| == 0 then 0
    else if IsHostChar(t[0]) then 0
    else
      var q := FirstHostChar(t[1..]);
      assert forall k :: 1 <= k < 1 + q ==> t[k] == t[1..][k - 1];
      1 + q
  }

  /** The first match of the fallback expression, lower-cased: no match can
      start before the first host character, and at that position the
      alternatives are tried with the scheme first, then without it. */
  function FallbackHost(t: string): (r: Option<string>)
    ensures r.Some? ==> IsLowerCase(r.value)
  {
    var p := FirstHostChar(t);
    if p == |t| then None
    else
      var k := SchemeLen(t, p);
      var m := if k > 0 && CaptureAt(t, p + k).Some? then CaptureAt(t, p + k) else CaptureAt(t, p);
      if m.Some? then LowerIsLowerCase(m.value); Some(Lower(m.value)) else None
  }

  /** `u` is `w` up to the case of ASCII letters. */
  predicate EqualsCI(u: string, w: string) {
    |u| == |w| && StartsWithCI(u, w)
  }

  /** `u` matches `https?:\/\/` (case-insensitively, as the whole pattern). */
  predicate IsScheme(u: string) {
    EqualsCI(u, "http://") || EqualsCI(u, "https://")
  }

  /** `u` matches `(?:https?:\/\/)?(?:www\.)?`, the part of the fallback
      expression before the group. */
  predicate PrefixMatch(u: string) {
    u == [] || EqualsCI(u, "www.") || IsScheme(u)
    || (|u| > 4 && IsScheme(u[..|u| - 4]) && EqualsCI(u[|u| - 4..], "www."))
  }

  lemma {:induction false} SliceCI(t: string, i: nat, j: nat, w: string)
    requires i <= j <= |t| && j - i == |w|
    ensures EqualsCI(t[i..j], w) <==> StartsWithCI(t[i..], w)
  {
    assert t[i..][..|w|] == t[i..j];
  }

  /** A scheme matched at `p` is the one `SchemeLen` finds there: `http://`
      and `https://` cannot both match at one place. */
  lemma {:induction false} SchemeShape(t: string, p: nat, s: nat)
    requires p <= s <= |t| && IsScheme(t[p..s])
    ensures SchemeLen(t, p) > 0 && s == p + SchemeLen(t, p)
  {
    if EqualsCI(t[p..s], "https://") {
      SliceCI(t, p, s, "https://");
    } else {
      SliceCI(t, p, s, "http://");
      NotBothSchemes(t, p);
    }
  }

  /** `http://` and `https://` differ in their fifth character. */
  lemma {:induction false} NotBothSchemes(t: string, p: nat)
    requires p <= |t|
    ensures !(StartsWithCI(t[p..], "https://") && StartsWithCI(t[p..], "http://"))
  {
    if StartsWithCI(t[p..], "http://") && |t| - p >= 8 {
      assert Lower(t[p..][..8])[4] == LowerChar(t[p + 4]) == Lower(t[p..][..7])[4] == ':';
      assert Lower("https://")[4] == 's';
    }
  }

  /** The places where a match of the prefix part can end when it starts
      at `p`: nowhere further, after `www.`, after the scheme, or after the
      scheme and `www.`. */
  lemma {:induction false} PrefixShape(t: string, p: nat, s: nat)
    requires p <= s <= |t|
    ensures PrefixMatch(t[p..s]) <==>
      var k := SchemeLen(t, p);
      s == p || (s == p + 4 && StartsWithCI(t[p..], "www.")) || (k > 0 && s == p + k)
      || (k > 0 && s == p + k + 4 && StartsWithCI(t[p + k..], "www."))
  {
    var u := t[p..s];
    var k := SchemeLen(t, p);
    if s == p + 4 {
      SliceCI(t, p, s, "www.");
    }
    if k > 0 && s == p + k {
      if k == 8 { SliceCI(t, p, s, "https://"); } else { SliceCI(t, p, s, "http://"); }
    }
    if |u| > 4 {
      assert u[..|u| - 4] == t[p..s - 4];
      assert u[|u| - 4..] == t[s - 4..s];
      SliceCI(t, s - 4, s, "www.");
      if k > 0 && s == p + k + 4 {
        if k == 8 { SliceCI(t, p, s - 4, "https://"); } else { SliceCI(t, p, s - 4, "http://"); }
      }
      if IsScheme(t[p..s - 4]) {
        SchemeShape(t, p, s - 4);
      }
    }
    if IsScheme(u) {
      SchemeShape(t, p, s);
    }
  }

  /** The fallback finds a host exactly when the input has a character that
      is neither '/' nor whitespace; the host is a maximal run of such
      characters of the input, lower-cased. */
  lemma {:induction false} FallbackHostSpec(t: string)
    ensures FallbackHost(t).None? <==> forall k :: 0 <= k < |t| ==> !IsHostChar(t[k])
    ensures FallbackHost(t).Some? ==>
      exists i :: 0 <= i < |t| && RunEnd(t, i) > i && FallbackHost(t).value == Lower(t[i..RunEnd(t, i)])
  {
    var p := FirstHostChar(t);
    if p < |t| {
      assert CaptureAt(t, p).Some?;
    }
  }

  /** `s` is where the group of the first match of the fallback
      expression on `t` starts: the match begins at the first host
      character `p` (no earlier position can begin one), and the group
      follows the longest match of the prefix part that a host character
      follows (the regular expression's greedy choice, scheme first, then
      `www.`). */
  ghost predicate GroupStartsAt(t: string, s: nat) {
    var p := FirstHostChar(t);
    p <= s < |t| && PrefixMatch(t[p..s]) && IsHostChar(t[s])
    && forall s' :: s < s' < |t| && PrefixMatch(t[p..s']) ==> !IsHostChar(t[s'])
  }

  lemma {:induction false} StartAfterScheme(t: string, p: nat, k: nat)
    requires p == FirstHostChar(t) && p < |t| && k == SchemeLen(t, p) && k > 0 && CaptureAt(t, p + k).Some?
    ensures var s := if p + k + 4 < |t| && StartsWithCI(t[p + k..], "www.") && IsHostChar(t[p + k + 4]) then p + k + 4 else p + k;
      GroupStartsAt(t, s) && CaptureAt(t, p + k).value == t[s..RunEnd(t, s)]
  {
    var www := p + k + 4 < |t| && StartsWithCI(t[p + k..], "www.") && IsHostChar(t[p + k + 4]);
    var s := if www then p + k + 4 else p + k;
    PrefixShape(t, p, s);
    forall s' | s < s' < |t| && PrefixMatch(t[p..s']) ensures !IsHostChar(t[s']) {
      PrefixShape(t, p, s');
      assert s' == p + k + 4 && StartsWithCI(t[p + k..], "www.");
    }
  }

  lemma {:induction false} StartWithoutScheme(t: string, p: nat)
    requires p == FirstHostChar(t) && p < |t| && !(SchemeLen(t, p) > 0 && CaptureAt(t, p + SchemeLen(t, p)).Some?)
    ensures var s := if p + 4 < |t| && StartsWithCI(t[p..], "www.") && IsHostChar(t[p + 4]) then p + 4 else p;
      GroupStartsAt(t, s) && CaptureAt(t, p) == Some(t[s..RunEnd(t, s)])
  {
    var k := SchemeLen(t, p);
    var www := p + 4 < |t| && StartsWithCI(t[p..], "www.") && IsHostChar(t[p + 4]);
    var s := if www then p + 4 else p;
    PrefixShape(t, p, s);
    assert k > 0 ==> !(p + k < |t| && IsHostChar(t[p + k]));
    assert k > 0 ==> !(p + k + 4 < |t| && StartsWithCI(t[p + k..], "www.") && IsHostChar(t[p + k + 4]));
    forall s' | s < s' < |t| && PrefixMatch(t[p..s']) ensures !IsHostChar(t[s']) {
      PrefixShape(t, p, s');
      if s' == p + 4 {
        assert !www;
      }
    }
  }

  /** The host the fallback finds is the run of host characters from where
      the group of the first match starts, lower-cased. */
  lemma {:induction false} FallbackHostStart(t: string)
    ensures FallbackHost(t).Some? ==>
      exists s: nat :: s < |t| && GroupStartsAt(t, s) && FallbackHost(t).value == Lower(t[s..RunEnd(t, s)])
  {
    var p := FirstHostChar(t);
    if p < |t| {
      var k := SchemeLen(t, p);
      if k > 0 && CaptureAt(t, p + k).Some? {
        StartAfterScheme(t, p, k);
      } else {
        StartWithoutScheme(t, p);
      }
    }
  }

  /** At most one place is where the group starts. */
  lemma {:induction false} GroupStartUnique(t: string, s1: nat, s2: nat)
    requires GroupStartsAt(t, s1) && GroupStartsAt(t, s2)
    ensures s1 == s2
  {
  }

  /** `extractDomain`: null for a missing or empty website; the host of the
      parsed URL without a leading `www.`, lower-cased; and when parsing
      fails, the fallback match on the untrimmed input. */
  function ExtractDomain(website: Option<string>, parse: UrlParser): (r: Option<string>)
    ensures website.None? || website == Some("") ==> r.None?
    ensures r.Some? ==> IsLowerCase(r.value)
    ensures website.Some? && website.value != "" && parse(UrlToParse(website.value)).Some? ==>
      r == Some(Lower(StripWww(parse(UrlToParse(website.value)).value.hostname)))
    ensures website.Some? && website.value != "" && parse(UrlToParse(website.value)).None? ==>
      r == FallbackHost(website.value)
  {
    if website.None? || website.value == "" then None
    else
      match parse(UrlToParse(website.value))
      case Some(u) =>
        LowerIsLowerCase(StripWww(u.hostname));
        Some(Lower(StripWww(u.hostname)))
      case None =>
        FallbackHost(website.value)
  }

  /** `normalizeWebsite`: null for a missing or empty website, the origin
      of the parsed URL, or the scheme-prefixed trimmed text when parsing
      fails. */
  function NormalizeWebsite(website: Option<string>, parse: UrlParser): (r: Option<string>)
    ensures website.None? || website == Some("") ==> r.None?
    ensures website.Some? && website.value != "" && parse(UrlToParse(website.value)).Some? ==>
      r == Some(parse(UrlToParse(website.value)).value.origin)
    ensures website.Some? && website.value != "" && parse(UrlToParse(website.value)).None? ==>
      r == Some(UrlToParse(website.value)) && HasHttpScheme(r.value)
  {
    if website.None? || website.value == "" then None
    else
      var url := UrlToParse(website.value);
      match parse(url)
      case Some(u) => Some(u.origin)
      case None => Some(url)
  }

  /** Every character of `h` may occur in a host. */
  predicate HostText(h: string) {
    forall k :: 0 <= k < |h| ==> IsHostChar(h[k])
  }

  lemma RunEndOfHostText(pre: string, h: string)
    requires HostText(h)
    ensures RunEnd(pre + h, |pre|) == |pre + h|
    ensures (pre + h)[|pre|..] == h
  {
    var t := pre + h;
    assert forall k :: |pre| <= k < |t| ==> t[k] == h[k - |pre|];
    RunEndToEnd(t, |pre|);
  }

  lemma RunEndBefore(pre: string, h: string, rest: string)
    requires HostText(h)
    requires |rest| > 0 && !IsHostChar(rest[0])
    ensures RunEnd(pre + h + rest, |pre|) == |pre| + |h|
    ensures (pre + h + rest)[|pre|..|pre| + |h|] == h
  {
    var t := pre + h + rest;
    assert forall k :: |pre| <= k < |pre| + |h| ==> t[k] == h[k - |pre|];
    assert t[|pre| + |h|] == rest[0];
    RunEndAt(t, |pre|, |pre| + |h|);
  }

  lemma AcmeHost()
    ensures HostText("acme.com")
  {
    var h := "acme.com";
    assert forall k :: 0 <= k < |h| ==> 'a' <= h[k] <= 'z' || h[k] == '.';
  }

  lemma ShopHost()
    ensures HostText("shop.example.org")
  {
    var h := "shop.example.org";
    assert forall k :: 0 <= k < |h| ==> 'a' <= h[k] <= 'z' || h[k] == '.';
  }

  lemma AcmeUrl()
    ensures UrlToParse("https://www.acme.com/about") == "https://www.acme.com/about"
  {
    var w := "https://www.acme.com/about";
    assert IsTrimmed(w);
    TrimOfTrimmed(w);
    assert w[..8] == "https://";
    assert StartsWithCI(w, "https://");
  }

  /** A run that stops at a non-host character ends there. */
  lemma RunEndAt(t: string, i: nat, j: nat)
    requires i <= j < |t|
    requires forall k :: i <= k < j ==> IsHostChar(t[k])
    requires !IsHostChar(t[j])
    ensures RunEnd(t, i) == j
  {
  }

  lemma AcmeScheme()
    ensures SchemeLen("https://www.acme.com/about", 0) == 8
  {
    var w := "https://www.acme.com/about";
    assert w[0..][..8] == "https://";
  }

  lemma AcmeCapture()
    ensures CaptureAt("https://www.acme.com/about", 8) == Some("www.acme.com"[4..])
  {
    var w := "https://www.acme.com/about";
    assert w[8..][..4] == "www.";
    assert StartsWithCI(w[8..], "www.");
    AcmeHost();
    assert w == "https://www." + "acme.com" + "/about";
    RunEndBefore("https://www.", "acme.com", "/about");
    assert "www.acme.com"[4..] == "acme.com";
  }

  lemma AcmeStrip()
    ensures StripWww("www.acme.com") == "www.acme.com"[4..]
  {
    assert "www.acme.com"[..4] == "www.";
    assert StartsWithCI("www.acme.com", "www.");
  }

  lemma AcmeFallback()
    ensures FallbackHost("https://www.acme.com/about") == Some(Lower(StripWww("www.acme.com")))
  {
    var w := "https://www.acme.com/about";
    assert IsHostChar(w[0]);
    assert FirstHostChar(w) == 0;
    AcmeScheme();
    AcmeCapture();
    AcmeStrip();
  }

  lemma AcmeParsed()
    ensures Lower(StripWww("www.acme.com")) == "acme.com"
  {
    assert "www.acme.com"[..4] == "www.";
    assert StartsWithCI("www.acme.com", "www.");
    assert "www.acme.com"[4..] == "acme.com";
    assert Lower("acme.com") == "acme.com";
  }

  /** The first documented example: whether or not the parser accepts
      "https://www.acme.com/about", the domain is "acme.com". */
  lemma AcmeExample(parse: UrlParser)
    requires parse("https://www.acme.com/about").None?
      || parse("https://www.acme.com/about").value.hostname == "www.acme.com"
    ensures ExtractDomain(Some("https://www.acme.com/about"), parse) == Some("acme.com")
  {
    AcmeUrl();
    AcmeParsed();
    AcmeFallback();
  }

  lemma RunEndToEnd(t: string, i: nat)
    requires i <= |t|
    requires forall k :: i <= k < |t| ==> IsHostChar(t[k])
    ensures RunEnd(t, i) == |t|
  {
  }

  lemma ShopUrl()
    ensures UrlToParse("http://shop.example.org") == "http://shop.example.org"
  {
    var w := "http://shop.example.org";
    assert IsTrimmed(w);
    TrimOfTrimmed(w);
    assert w[..7] == "http://";
    assert StartsWithCI(w, "http://");
  }

  lemma ShopScheme()
    ensures SchemeLen("http://shop.example.org", 0) == 7
  {
    var w := "http://shop.example.org";
    assert w[0..][..8] == "http://s";
    assert Lower(w[0..][..8])[7] == 's' && Lower("https://")[7] == '/';
    assert !StartsWithCI(w[0..], "https://");
    assert w[0..][..7] == "http://";
  }

  lemma ShopNoWww()
    ensures !StartsWithCI("http://shop.example.org"[7..], "www.")
  {
    var w := "http://shop.example.org";
    assert w[7..][..4] == "shop";
    assert Lower("shop")[0] == 's' && Lower("www.")[0] == 'w';
  }

  lemma ShopRun()
    ensures RunEnd("http://shop.example.org", 7) == |"http://shop.example.org"|
    ensures "http://shop.example.org"[7..] == "shop.example.org"
  {
    ShopHost();
    RunEndOfHostText("http://", "shop.example.org");
    assert "http://shop.example.org" == "http://" + "shop.example.org";
  }

  lemma ShopCapture()
    ensures CaptureAt("http://shop.example.org", 7) == Some("shop.example.org")
  {
    var w := "http://shop.example.org";
    ShopNoWww();
    ShopRun();
    assert IsHostChar(w[7]);
    assert w[7..RunEnd(w, 7)] == w[7..];
  }

  lemma ShopLower()
    ensures Lower("shop.example.org") == "shop.example.org"
  {
    assert IsLowerCase("shop.example.org");
    LowerOfLowerCase("shop.example.org");
  }

  lemma {:induction false} FallbackAfterScheme(t: string, p: nat, k: nat)
    requires p == FirstHostChar(t) < |t| && k == SchemeLen(t, p) && k > 0 && CaptureAt(t, p + k).Some?
    ensures FallbackHost(t) == Some(Lower(CaptureAt(t, p + k).value))
  {
  }

  lemma ShopFallback()
    ensures FallbackHost("http://shop.example.org") == Some("shop.example.org")
  {
    var w := "http://shop.example.org";
    var h := "shop.example.org";
    assert IsHostChar(w[0]);
    var p := FirstHostChar(w);
    assert p == 0;
    ShopScheme();
    ShopCapture();
    var k := SchemeLen(w, p);
    assert k == 7;
    FallbackAfterScheme(w, p, k);
    ShopLower();
  }

  lemma ShopParsed()
    ensures Lower(StripWww("shop.example.org")) == "shop.example.org"
  {
    assert "shop.example.org"[..4] == "shop";
    assert Lower("shop")[0] == 's' && Lower("www.")[0] == 'w';
    assert !StartsWithCI("shop.example.org", "www.");
    ShopLower();
  }

  /** The second documented example, again whether or not the parser
      accepts "http://shop.example.org". */
  lemma ShopExample(parse: UrlParser)
    requires parse("http://shop.example.org").None?
      || parse("http://shop.example.org").value.hostname == "shop.example.org"
    ensures ExtractDomain(Some("http://shop.example.org"), parse) == Some("shop.example.org")
  {
    ShopUrl();
    ShopParsed();
    ShopFallback();
  }
}

=== FILE: email.dfy ===
/** Email validation: a format check, a free-mail denylist, and the cleaning
    that the import applies to every email cell. */
module Email {
  import opened Wrappers
  import opened Strings

  /** Substrings whose presence in the domain part marks a private mailbox. */
  const PrivateEmailProviders: seq<string> := [
    "gmail", "yahoo", "hotmail", "outlook", "aol", "icloud", "proton",
    "protonmail", "zoho", "yandex", "mail", "gmx", "live", "msn", "inbox",
    "rediff", "web.de", "t-online", "freenet", "googlemail"
  ]

  /** `t[lo..hi]` has no whitespace and no '@' (the class `[^\s@]`). */
  predicate Plain(t: string, lo: int, hi: int)
    requires 0 <= lo && hi <= |t|
  {
    forall i :: lo <= i < hi ==> !IsJsSpace(t[i]) && t[i] != '@'
  }

  /** The language of `/^[^\s@]+@[^\s@]+\.[^\s@]+$/`: three non-empty plain
      runs, separated by '@' and then by some '.'. */
  ghost predicate EmailRegex(t: string) {
    exists at: nat, dot: nat ::
      0 < at && at + 1 < dot < |t| - 1 && t[at] == '@' && t[dot] == '.'
      && Plain(t, 0, at) && Plain(t, at + 1, dot) && Plain(t, dot + 1, |t|)
  }

  /** The test the format check performs on a trimmed string. */
  predicate EmailShape(t: string) {
    var at := IndexOf(t, '@');
    0 < at < |t| && Plain(t, 0, at) && Plain(t, at + 1, |t|)
    && exists k :: at + 1 < k < |t| - 1 && t[k] == '.'
  }

  lemma PlainSub(t: string, lo: int, hi: int, lo2: int, hi2: int)
    requires 0 <= lo <= lo2 && hi2 <= hi <= |t|
    requires Plain(t, lo, hi)
    ensures Plain(t, lo2, hi2)
  {
  }

  lemma PlainJoin(t: string, lo: int, mid: int, hi: int)
    requires 0 <= lo <= mid < hi <= |t|
    requires Plain(t, lo, mid) && Plain(t, mid + 1, hi)
    requires !IsJsSpace(t[mid]) && t[mid] != '@'
    ensures Plain(t, lo, hi)
  {
  }

  /** With no '@' before `a` and one at `a`, the first '@' is at `a`. */
  lemma IndexOfAt(t: string, a: nat)
    requires a < |t| && t[a] == '@' && Plain(t, 0, a)
    ensures IndexOf(t, '@') == a
  {
  }

  lemma ShapeToRegex(t: string)
    requires EmailShape(t)
    ensures EmailRegex(t)
  {
    var at := IndexOf(t, '@');
    var k :| at + 1 < k < |t| - 1 && t[k] == '.';
    PlainSub(t, at + 1, |t|, at + 1, k);
    PlainSub(t, at + 1, |t|, k + 1, |t|);
    assert 0 < at && at + 1 < k < |t| - 1 && t[at] == '@' && t[k] == '.'
      && Plain(t, 0, at) && Plain(t, at + 1, k) && Plain(t, k + 1, |t|);
  }

  lemma RegexToShape(t: string)
    requires EmailRegex(t)
    ensures EmailShape(t)
  {
    var a: nat, dot: nat :| 0 < a && a + 1 < dot < |t| - 1 && t[a] == '@' && t[dot] == '.'
      && Plain(t, 0, a) && Plain(t, a + 1, dot) && Plain(t, dot + 1, |t|);
    IndexOfAt(t, a);
    PlainJoin(t, a + 1, dot, |t|);
    assert a + 1 < dot < |t| - 1 && t[dot] == '.';
  }

  lemma ShapeIsRegex(t: string)
    ensures EmailShape(t) <==> EmailRegex(t)
  {
    if EmailShape(t) { ShapeToRegex(t); }
    if EmailRegex(t) { RegexToShape(t); }
  }

  /** `isValidEmailFormat`: a non-empty input whose trimmed text matches the
      regular expression. */
  function IsValidEmailFormat(email: Option<string>): (r: bool)
    ensures r <==> email.Some? && email.value != "" && EmailRegex(Trim(email.value))
  {
    if email.None? || email.value == "" then false
    else
      ShapeIsRegex(Trim(email.value));
      EmailShape(Trim(email.value))
  }

  /** The regular expression in words: exactly one '@', not at the start,
      no whitespace, and a '.' after the '@' with a character on each side. */
  lemma {:induction false} EmailRegexIff(t: string, at: nat)
    requires at < |t| && t[at] == '@'
    ensures EmailRegex(t) <==>
      0 < at
      && (forall i :: 0 <= i < |t| ==> !IsJsSpace(t[i]))
      && (forall i :: 0 <= i < |t| && i != at ==> t[i] != '@')
      && (exists dot :: at + 1 < dot < |t| - 1 && t[dot] == '.')
  {
    ShapeIsRegex(t);
    var a := IndexOf(t, '@');
    if EmailShape(t) {
      assert a == at;
      assert forall i :: 0 <= i < |t| && i != a ==> t[i] != '@' && !IsJsSpace(t[i]);
    }
    if 0 < at && (forall i :: 0 <= i < |t| && i != at ==> t[i] != '@') {
      assert a == at;
    }
  }

  /** In a well-formed trimmed address the '@' found first is the only one. */
  lemma OnlyAt(t: string)
    requires EmailShape(t)
    ensures forall i :: 0 <= i < |t| && i != IndexOf(t, '@') ==> t[i] != '@'
  {
  }

  /** The '@' of a text that matches the regular expression. */
  lemma AtOfValid(t: string) returns (a: nat)
    requires EmailRegex(t)
    ensures a + 1 < |t| && t[a] == '@'
    ensures forall i :: 0 <= i < |t| && i != a ==> t[i] != '@'
  {
    RegexToShape(t);
    OnlyAt(t);
    a := IndexOf(t, '@');
  }

  lemma TrimAt(e: string, j: nat)
    requires TrimStart(e) <= j < TrimStop(e)
    ensures j - TrimStart(e) < |Trim(e)| && e[j] == Trim(e)[j - TrimStart(e)]
  {
  }

  /** Trimming removes only whitespace, never an '@'. */
  lemma NoAtOutsideTrim(e: string)
    ensures forall j :: 0 <= j < TrimStart(e) || TrimStop(e) <= j < |e| ==> e[j] != '@'
  {
    assert !IsJsSpace('@');
  }

  /** A well-formed address has exactly one '@' even before trimming. */
  lemma {:induction false} UniqueAt(e: string) returns (at: nat)
    requires IsValidEmailFormat(Some(e))
    ensures at < |e| && e[at] == '@' && at + 1 < |e|
    ensures forall j :: 0 <= j < |e| && j != at ==> e[j] != '@'
  {
    var t := Trim(e);
    var s, stop := TrimStart(e), TrimStop(e);
    var a := AtOfValid(t);
    at := s + a;
    assert at < stop;
    TrimAt(e, at);
    forall j | s <= j < stop && j != at ensures e[j] != '@' {
      TrimAt(e, j);
      assert j - s != a;
    }
    NoAtOutsideTrim(e);
  }

  /** The lower-cased part after the '@' as `split('@')[1]` produces it. */
  function DomainPart(e: string): Option<string> {
    var parts := Split(e, '@');
    if |parts| < 2 then None else Some(Lower(parts[1]))
  }

  /** `isBusinessEmail`: a valid address whose lower-cased part after the
      '@' of the untrimmed input contains no denylisted provider. */
  function IsBusinessEmail(email: Option<string>): (r: bool)
    ensures r ==> IsValidEmailFormat(email)
  {
    if email.None? || email.value == "" || !IsValidEmailFormat(email) then false
    else
      var domain := DomainPart(email.value);
      if domain.None? || domain.value == "" then false
      else forall p :: p in PrivateEmailProviders ==> !Contains(domain.value, p)
  }

  /** For a well-formed address, it is a business address exactly when no
      denylisted provider occurs in the lower-cased text after its '@'. */
  lemma {:induction false} BusinessIff(e: string, at: nat)
    requires IsValidEmailFormat(Some(e))
    requires at < |e| && e[at] == '@'
    ensures IsBusinessEmail(Some(e)) <==>
      forall p :: p in PrivateEmailProviders ==> !Contains(Lower(e[at + 1..]), p)
  {
    var a := UniqueAt(e);
    assert a == at;
    SplitOnce(e, '@', at);
    assert DomainPart(e) == Some(Lower(e[at + 1..]));
  }

  /** `validateEmail`: the trimmed, lower-cased input when it is a
      well-formed business address, otherwise null. */
  function ValidateEmail(email: Option<string>): (r: Option<string>)
    ensures email.None? || email == Some("") ==> r.None?
    ensures r.Some? ==> r.value == Lower(Trim(email.value))
    ensures r.Some? ==> IsBusinessEmail(r) && IsValidEmailFormat(r)
    ensures r.Some? <==>
      email.Some? && email.value != "" && IsValidEmailFormat(Some(Lower(Trim(email.value))))
      && IsBusinessEmail(Some(Lower(Trim(email.value))))
  {
    if email.None? || email.value == "" then None
    else
      var cleaned := Lower(Trim(email.value));
      if !IsValidEmailFormat(Some(cleaned)) then None
      else if !IsBusinessEmail(Some(cleaned)) then None
      else Some(cleaned)
  }

  /** Cleaning is idempotent: a cleaned address validates to itself. */
  lemma ValidateEmailIdempotent(email: Option<string>)
    requires ValidateEmail(email).Some?
    ensures ValidateEmail(ValidateEmail(email)) == ValidateEmail(email)
  {
    var r := ValidateEmail(email).value;
    var t := Trim(email.value);
    LowerKeepsTrimmed(t);
    TrimOfTrimmed(Lower(t));
    LowerIsLowerCase(t);
    LowerOfLowerCase(Lower(t));
    assert Lower(Trim(r)) == r;
  }

  /** An address whose domain part names a private provider is never kept. */
  lemma {:induction false} PrivateProviderRejected(e: string, at: nat, p: string)
    requires at < |e| && e[at] == '@'
    requires p in PrivateEmailProviders
    requires Contains(Lower(e[at + 1..]), p)
    ensures !IsBusinessEmail(Some(e))
  {
    if IsValidEmailFormat(Some(e)) {
      BusinessIff(e, at);
    }
  }
}

=== FILE: export.dfy ===
/** The CSV branch of `POST /api/companies/export`
    (`src/app/api/companies/export/route.ts`): a header line of sixteen
    column names, then one line per company with each field encoded, lines
    joined by `\n`.  Beside it, a reader for one record in the sense of
    section 2 of RFC 4180, against which the encoding is proved. */
module Export {
  import opened Wrappers
  import opened Strings
  import opened Model

  const Headers: seq<string> := [
    "name", "formatted_name", "website", "domain", "email", "phone",
    "address", "formatted_address", "country_code", "country_name",
    "description", "enriched_description", "company_type",
    "categories", "tags", "status"]

  const NoDataMessage: string := "No data to export"

  // ---------------------------------------------------------------------
  // Field encoding

  /** `s.replace(/"/g, '""')`: every double quote doubled. */
  function Double(s: string): (r: string)
    ensures '"' !in s ==> r == s
    ensures |r| >= |s|
  {
    if s == [] then ""
    else (if s[0] == '"' then "\"\"" else [s[0]]) + Double(s[1..])
  }

  /** A string field that needs quoting: it holds a comma, a double quote or
      a line feed. */
  predicate NeedsQuoting(s: string) {
    ',' in s || '"' in s || '\n' in s
  }

  /** The encoding of `company[header]` (`None` is `undefined`). */
  function EncodeField(v: Option<Value>): (f: string)
    ensures v.Some? && v.value.Str? && NeedsQuoting(v.value.s) ==> f == "\"" + Double(v.value.s) + "\""
    ensures v.Some? && v.value.Str? && !NeedsQuoting(v.value.s) ==> f == v.value.s
    ensures v.Some? && v.value.Arr? ==> f == "\"" + Join(v.value.items, "; ") + "\""
    ensures v.None? || v == Some(Null) ==> f == ""
  {
    match v
    case None => ""
    case Some(Null) => ""
    case Some(Arr(items)) => "\"" + Join(items, "; ") + "\""
    case Some(Str(s)) => if NeedsQuoting(s) then "\"" + Double(s) + "\"" else s
    case Some(Bool(b)) => if b then "true" else "false"
  }

  /** The text a field stands for: what a reader of the file should get
      back. */
  function FieldText(v: Option<Value>): string {
    match v
    case None => ""
    case Some(Null) => ""
    case Some(Arr(items)) => Join(items, "; ")
    case Some(Str(s)) => s
    case Some(Bool(b)) => if b then "true" else "false"
  }

  /** The export does not escape quotes inside array items. */
  predicate Encodable(v: Option<Value>) {
    v.Some? && v.value.Arr? ==> '"' !in Join(v.value.items, "; ")
  }

  /** `headers.map(...)`: the sixteen fields of one company, in header order. */
  function EncodeRow(row: Row): (fields: seq<string>) {
    seq(|Headers|, i requires 0 <= i < |Headers| => EncodeField(Lookup(row, Headers[i])))
  }

  /** One CSV line: the encoded fields joined by `,`. */
  function CsvLine(row: Row): string {
    Join(EncodeRow(row), ",")
  }

  function HeaderLine(): string {
    Join(Headers, ",")
  }

  /** The company lines, in query order. */
  function CsvLines(rows: seq<Row>): (lines: seq<string>)
    ensures |lines| == |rows|
  {
    if rows == [] then [] else CsvLines(rows[..|rows| - 1]) + [CsvLine(rows[|rows| - 1])]
  }

  /** Line `k` is the line of company `k`. */
  lemma {:induction false} CsvLinesAt(rows: seq<Row>, k: nat)
    requires k < |rows|
    ensures CsvLines(rows)[k] == CsvLine(rows[k])
  {
    var n := |rows| - 1;
    if k < n {
      CsvLinesAt(rows[..n], k);
    }
  }

  // ---------------------------------------------------------------------
  // Reading one record (section 2 of RFC 4180)

  /** After an opening quote: the escaped text up to the closing quote,
      with `""` read as `"`, and what follows the closing quote; `None`
      when no closing quote comes. */
  function ReadQuoted(s: string): (r: Option<(string, string)>)
    ensures r.Some? ==> |r.value.1| < |s|
    decreases |s|
  {
    if s == [] then None
    else if s[0] == '"' then
      if |s| >= 2 && s[1] == '"' then
        match ReadQuoted(s[2..])
        case None => None
        case Some((text, rest)) => Some(("\"" + text, rest))
      else Some(("", s[1..]))
    else
      match ReadQuoted(s[1..])
      case None => None
      case Some((text, rest)) => Some(([s[0]] + text, rest))
  }

  /** One more field in front of the fields of the rest of the record. */
  function Cons(field: string, rest: Option<seq<string>>): Option<seq<string>> {
    match rest
    case None => None
    case Some(fields) => Some([field] + fields)
  }

  /** The fields of one record: fields separated by `,`; a field starting
      with `"` is escaped and ends at its closing quote. */
  function ParseRecord(s: string): (r: Option<seq<string>>)
    decreases |s|
  {
    if |s| > 0 && s[0] == '"' then
      match ReadQuoted(s[1..])
      case None => None
      case Some((text, rest)) =>
        if rest == [] then Some([text])
        else if rest[0] == ',' then Cons(text, ParseRecord(rest[1..]))
        else None
    else
      var i := IndexOf(s, ',');
      if i == |s| then Some([s]) else Cons(s[..i], ParseRecord(s[i + 1..]))
  }

  /** An ordinary character is read as itself. */
  lemma ReadQuotedPlainStep(c: char, x: string, text: string, rest: string)
    requires c != '"' && ReadQuoted(x) == Some((text, rest))
    ensures ReadQuoted([c] + x) == Some(([c] + text, rest))
  {
    var t := [c] + x;
    assert t[0] == c && t[1..] == x;
  }

  /** A doubled quote is read as one quote. */
  lemma ReadQuotedPairStep(x: string, text: string, rest: string)
    requires ReadQuoted(x) == Some((text, rest))
    ensures ReadQuoted("\"\"" + x) == Some(("\"" + text, rest))
  {
    var t := "\"\"" + x;
    assert t[0] == '"' && t[1] == '"' && t[2..] == x;
  }

  /** Reading an escaped text that starts with an ordinary character. */
  lemma ReadQuotedChar(s: string, rest: string)
    requires s != [] && s[0] != '"'
    requires ReadQuoted(Double(s[1..]) + "\"" + rest) == Some((s[1..], rest))
    ensures ReadQuoted(Double(s) + "\"" + rest) == Some((s, rest))
  {
    var x := Double(s[1..]) + "\"" + rest;
    assert Double(s) == [s[0]] + Double(s[1..]);
    assert Double(s) + "\"" + rest == [s[0]] + x;
    ReadQuotedPlainStep(s[0], x, s[1..], rest);
    assert s == [s[0]] + s[1..];
  }

  /** Reading an escaped text that starts with a quote, doubled. */
  lemma ReadQuotedPair(s: string, rest: string)
    requires s != [] && s[0] == '"'
    requires ReadQuoted(Double(s[1..]) + "\"" + rest) == Some((s[1..], rest))
    ensures ReadQuoted(Double(s) + "\"" + rest) == Some((s, rest))
  {
    var x := Double(s[1..]) + "\"" + rest;
    assert Double(s) == "\"\"" + Double(s[1..]);
    assert Double(s) + "\"" + rest == "\"\"" + x;
    ReadQuotedPairStep(x, s[1..], rest);
    assert s == "\"" + s[1..];
  }

  /** An escaped field is read back to the text that was escaped. */
  lemma {:induction false} ReadQuotedDouble(s: string, rest: string)
    requires rest == [] || rest[0] != '"'
    ensures ReadQuoted(Double(s) + "\"" + rest) == Some((s, rest))
    decreases |s|
  {
    if s == [] {
      assert Double(s) + "\"" + rest == "\"" + rest;
    } else {
      ReadQuotedDouble(s[1..], rest);
      if s[0] == '"' {
        ReadQuotedPair(s, rest);
      } else {
        ReadQuotedChar(s, rest);
      }
    }
  }

  /** A field that is not quoted and holds no comma is read up to the next
      comma. */
  lemma PlainField(f: string, rest: string)
    requires ',' !in f && (f == [] || f[0] != '"')
    ensures ParseRecord(f) == Some([f])
    ensures ParseRecord(f + "," + rest) == Cons(f, ParseRecord(rest))
  {
    var s := f + "," + rest;
    assert IndexOf(f, ',') == |f|;
    assert s[|f|] == ',';
    assert IndexOf(s, ',') == |f|;
    assert s[..|f|] == f && s[|f| + 1..] == rest;
  }

  /** A quoted field is read back to the text it escapes. */
  lemma QuotedField(t: string, rest: string)
    ensures ParseRecord("\"" + Double(t) + "\"") == Some([t])
    ensures ParseRecord("\"" + Double(t) + "\"" + "," + rest) == Cons(t, ParseRecord(rest))
  {
    ReadQuotedDouble(t, "");
    var s := "\"" + Double(t) + "\"";
    assert s[1..] == Double(t) + "\"" + "";
    ReadQuotedDouble(t, "," + rest);
    var s' := "\"" + Double(t) + "\"" + "," + rest;
    assert s'[1..] == Double(t) + "\"" + ("," + rest);
    assert ("," + rest)[1..] == rest;
  }

  /** Each encoded field, alone or followed by more fields, reads back to
      the text of its value. */
  lemma FieldRoundTrip(v: Option<Value>, rest: string)
    requires Encodable(v)
    ensures ParseRecord(EncodeField(v)) == Some([FieldText(v)])
    ensures ParseRecord(EncodeField(v) + "," + rest) == Cons(FieldText(v), ParseRecord(rest))
  {
    match v
    case None => PlainField("", rest);
    case Some(Null) => PlainField("", rest);
    case Some(Bool(b)) => PlainField(if b then "true" else "false", rest);
    case Some(Str(s)) =>
      if NeedsQuoting(s) {
        QuotedField(s, rest);
      } else {
        PlainField(s, rest);
      }
    case Some(Arr(items)) =>
      QuotedField(Join(items, "; "), rest);
  }

  /** The fields of a sequence of values. */
  function EncodeAll(vs: seq<Option<Value>>): (fs: seq<string>)
    ensures |fs| == |vs|
    ensures forall k :: 0 <= k < |vs| ==> fs[k] == EncodeField(vs[k])
  {
    seq(|vs|, i requires 0 <= i < |vs| => EncodeField(vs[i]))
  }

  /** The texts of a sequence of values. */
  function TextAll(vs: seq<Option<Value>>): (ts: seq<string>)
    ensures |ts| == |vs|
    ensures forall k :: 0 <= k < |vs| ==> ts[k] == FieldText(vs[k])
  {
    seq(|vs|, i requires 0 <= i < |vs| => FieldText(vs[i]))
  }

  /** A record of encoded fields reads back to the texts of the values, in
      order, whatever commas, quotes and line feeds the strings hold. */
  lemma {:induction false} RecordRoundTrip(vs: seq<Option<Value>>)
    requires |vs| > 0
    requires forall k :: 0 <= k < |vs| ==> Encodable(vs[k])
    ensures ParseRecord(Join(EncodeAll(vs), ",")) == Some(TextAll(vs))
    decreases |vs|
  {
    if |vs| == 1 {
      FieldRoundTrip(vs[0], "");
      assert EncodeAll(vs) == [EncodeField(vs[0])];
      assert TextAll(vs) == [FieldText(vs[0])];
    } else {
      assert forall k :: 0 <= k < |vs[1..]| ==> vs[1..][k] == vs[k + 1];
      RecordRoundTrip(vs[1..]);
      RecordCons(vs);
    }
  }

  /** One more field in front of a record that reads back. */
  lemma RecordCons(vs: seq<Option<Value>>)
    requires |vs| > 1 && Encodable(vs[0])
    requires ParseRecord(Join(EncodeAll(vs[1..]), ",")) == Some(TextAll(vs[1..]))
    ensures ParseRecord(Join(EncodeAll(vs), ",")) == Some(TextAll(vs))
  {
    var fs := EncodeAll(vs);
    var tail := Join(fs[1..], ",");
    assert fs[1..] == EncodeAll(vs[1..]);
    assert Join(fs, ",") == fs[0] + "," + tail;
    FieldRoundTrip(vs[0], tail);
    assert TextAll(vs) == [FieldText(vs[0])] + TextAll(vs[1..]);
    ConsSome(ParseRecord(fs[0] + "," + tail), FieldText(vs[0]), ParseRecord(tail), TextAll(vs[1..]));
  }

  /** A field in front of a record that reads back. */
  lemma ConsSome(r: Option<seq<string>>, field: string, rest: Option<seq<string>>, texts: seq<string>)
    requires r == Cons(field, rest) && rest == Some(texts)
    ensures r == Some([field] + texts)
  {
  }

  /** Array items are joined inside quotes without escaping, so an item
      holding a quote yields a field no reader accepts. */
  lemma ArrayQuoteUnreadable()
    ensures ParseRecord(EncodeField(Some(Arr(["a\"b"])))) == None
  {
    var f := EncodeField(Some(Arr(["a\"b"])));
    assert f == "\"a\"b\"";
    assert f[1..] == "a\"b\"";
    assert "a\"b\""[1..] == "\"b\"";
    assert ReadQuoted("\"b\"") == Some(("", "b\""));
    assert ['a'] + "" == "a";
    assert ReadQuoted("a\"b\"") == Some(("a", "b\""));
  }

  /** A company line reads back to the texts of its sixteen columns, in
      header order. */
  lemma LineRoundTrip(row: Row)
    requires forall k :: 0 <= k < |Headers| ==> Encodable(Lookup(row, Headers[k]))
    ensures ParseRecord(CsvLine(row)) ==
      Some(seq(|Headers|, i requires 0 <= i < |Headers| => FieldText(Lookup(row, Headers[i]))))
  {
    var vs := seq(|Headers|, i requires 0 <= i < |Headers| => Lookup(row, Headers[i]));
    assert EncodeRow(row) == EncodeAll(vs);
    RecordRoundTrip(vs);
    assert TextAll(vs) == seq(|Headers|, i requires 0 <= i < |Headers| => FieldText(Lookup(row, Headers[i])));
  }

  // ---------------------------------------------------------------------
  // The route

  datatype Response = Failure(status: nat, error: string) | JsonFile | CsvFile(text: string)

  /** The CSV text: the header line, then one line per company, joined
      by `\n`. */
  method BuildCsv(header: string, data: seq<Row>) returns (text: string)
    ensures text == Join([header] + CsvLines(data), "\n")
  {
    var csvRows := [header];
    var i := 0;
    while i < |data|
      invariant 0 <= i <= |data|
      invariant csvRows == [header] + CsvLines(data[..i])
    {
      assert data[..i + 1][..i] == data[..i];
      assert CsvLines(data[..i + 1]) == CsvLines(data[..i]) + [CsvLine(data[i])];
      csvRows := csvRows + [CsvLine(data[i])];
      i := i + 1;
    }
    assert data[..i] == data;
    return Join(csvRows, "\n");
  }

  /** `POST`: `query` is the result of the company select (or its error),
      `format` the requested format (`csv` by default). */
  method ExportCompanies(query: Result<seq<Row>>, format: Option<string>) returns (resp: Response)
    ensures query.Err? ==> resp == Failure(500, query.msg)
    ensures query.Ok? && query.value == [] ==> resp == Failure(404, NoDataMessage)
    ensures query.Ok? && query.value != [] && format == Some("json") ==> resp == JsonFile
    ensures query.Ok? && query.value != [] && format != Some("json") ==>
      resp == CsvFile(Join([HeaderLine()] + CsvLines(query.value), "\n"))
  {
    if query.Err? {
      return Failure(500, query.msg);
    }
    if query.value == [] {
      return Failure(404, NoDataMessage);
    }
    if format == Some("json") {
      return JsonFile;
    }
    var text := BuildCsv(HeaderLine(), query.value);
    return CsvFile(text);
  }
}

=== FILE: gdrive.dfy ===
/** The Google Drive loader of the archived Python pipeline
    (`wonnda_archive/src/python/loaders/gdrive.py`): every row of a
    spreadsheet gets its source file name and load time, its keys are
    rewritten from CamelCase to snake_case and `-` cells become `None`.
    Reading the sheet, the BigQuery load and the move to the processed
    folder are left to the caller. */
module GDrive {
  import opened Strings

  const XlsxFileType: string := "application/vnd.openxmlformats-officedocument.spreadsheetml.sheet"
  const GSheetsFileType: string := "application/vnd.google-apps.spreadsheet"

  /** A cell: sheet text, the load time (a `datetime`), or `None`. */
  datatype Cell = Text(s: string) | Time(t: nat) | NoneCell

  /** One key of a row dict with its value; a row is a list of entries in
      insertion order. */
  datatype Entry = Entry(key: string, value: Cell)

  type SheetRow = seq<Entry>

  /** A cleaned row, as handed to the warehouse. */
  type LoadRow = map<string, Cell>

  // ---------------------------------------------------------------------
  // Keys

  /** Where `(?<!^)(?=\s+|[A-Z])` matches in `key`: not at the start, and
      before a whitespace character or an ASCII capital. */
  predicate Boundary(key: string, p: nat) {
    1 <= p < |key| && (IsPySpace(key[p]) || IsUpper(key[p]))
  }

  /** `key_pattern.sub("_", key)`: `_` inserted at every boundary. */
  function Underscored(key: string): (r: string)
    ensures |r| >= |key|
  {
    if key == [] then ""
    else
      var n := |key| - 1;
      Underscored(key[..n]) + (if Boundary(key, n) then "_" else "") + [key[n]]
  }

  /** The cleaned key: underscores inserted, then lower-cased. */
  function CleanKey(key: string): (r: string)
    ensures IsLowerCase(r)
    ensures |r| >= |key|
  {
    Lower(Underscored(key))
  }

  /** A key with neither capitals nor whitespace gets no underscore. */
  lemma {:induction false} UnderscoredPlain(key: string)
    requires forall i :: 0 <= i < |key| ==> !IsPySpace(key[i]) && !IsUpper(key[i])
    ensures Underscored(key) == key
  {
    if key != [] {
      var n := |key| - 1;
      UnderscoredPlain(key[..n]);
      assert key == key[..n] + [key[n]];
    }
  }

  /** A key that is already snake_case is kept as it is. */
  lemma SnakeCaseKept(key: string)
    requires forall i :: 0 <= i < |key| ==> !IsPySpace(key[i]) && !IsUpper(key[i])
    ensures CleanKey(key) == key
  {
    UnderscoredPlain(key);
    LowerOfLowerCase(key);
  }

  /** Each boundary adds exactly one underscore. */
  function Boundaries(key: string): (n: nat)
    ensures n <= |key|
  {
    if key == [] then 0 else Boundaries(key[..|key| - 1]) + (if Boundary(key, |key| - 1) then 1 else 0)
  }

  lemma {:induction false} UnderscoredLength(key: string)
    ensures |Underscored(key)| == |key| + Boundaries(key)
  {
    if key != [] {
      var n := |key| - 1;
      UnderscoredLength(key[..n]);
      assert forall p :: Boundary(key[..n], p) ==> Boundary(key, p);
    }
  }

  /** A capital or a whitespace character after the first character starts
      a new word: an underscore goes in front of it (`aB` becomes `a_b`,
      `a b` becomes `a_ b`). */
  lemma WordBoundary(key: string, b: char)
    requires key != [] && (IsPySpace(b) || IsUpper(b))
    ensures CleanKey(key + [b]) == CleanKey(key) + ['_', LowerChar(b)]
  {
    var k := key + [b];
    assert k[..|key|] == key;
    assert Boundary(k, |key|);
    assert Underscored(k) == Underscored(key) + "_" + [b];
    LowerConcat(Underscored(key), "_" + [b]);
  }

  /** Any other character is only lower-cased: no underscore goes in. */
  lemma NoWordBoundary(key: string, b: char)
    requires key == [] || (!IsPySpace(b) && !IsUpper(b))
    ensures CleanKey(key + [b]) == CleanKey(key) + [LowerChar(b)]
  {
    var k := key + [b];
    assert k[..|key|] == key;
    assert !Boundary(k, |key|);
    assert Underscored(k) == Underscored(key) + [b];
    LowerConcat(Underscored(key), [b]);
  }

  // ---------------------------------------------------------------------
  // Values and the source file name

  /** `value if value != "-" else None`. */
  function CleanValue(v: Cell): (r: Cell)
    ensures r == NoneCell <==> v == Text("-") || v == NoneCell
    ensures r != NoneCell ==> r == v
  {
    if v == Text("-") then NoneCell else v
  }

  /** `re.sub(".csv", "", name)`: left to right, every `csv` preceded by a
      character other than a line feed is removed together with that
      character. */
  function RemoveCsv(name: string): (r: string)
    ensures |r| <= |name|
  {
    if |name| >= 4 && name[0] != '\n' && name[1..4] == "csv" then RemoveCsv(name[4..])
    else if name == [] then ""
    else [name[0]] + RemoveCsv(name[1..])
  }

  /** The extension goes: a name followed by `.csv` cleans to what the
      name alone cleans to. No match of the pattern can start in the name
      and reach into the extension, since `csv` holds no `.`. */
  lemma {:induction false} DropExtension(stem: string)
    ensures RemoveCsv(stem + ".csv") == RemoveCsv(stem)
    decreases |stem|
  {
    var name := stem + ".csv";
    if stem == [] {
      assert name[1..4] == "csv" && name[4..] == [];
    } else if |stem| >= 4 && stem[0] != '\n' && stem[1..4] == "csv" {
      assert name[1..4] == stem[1..4];
      assert name[4..] == stem[4..] + ".csv";
      DropExtension(stem[4..]);
    } else {
      assert !(name[0] != '\n' && name[1..4] == "csv") by {
        if |stem| < 4 {
          assert name[1..4][|stem| - 1] == name[|stem|] == '.';
        } else {
          assert name[0] == stem[0] && name[1..4] == stem[1..4];
        }
      }
      assert name[1..] == stem[1..] + ".csv";
      DropExtension(stem[1..]);
    }
  }

  /** The `.` of the pattern is a wildcard: any character other than a line
      feed in front of `csv` is removed with it. */
  lemma AnyCharBeforeCsv(c: char, rest: string)
    requires c != '\n'
    ensures RemoveCsv([c, 'c', 's', 'v'] + rest) == RemoveCsv(rest)
  {
    var name := [c, 'c', 's', 'v'] + rest;
    assert name[1..4] == ['c', 's', 'v'] && name[4..] == rest;
  }

  // ---------------------------------------------------------------------
  // Rows

  /** `row[key] = value` on a dict: an existing key keeps its place, a new
      key goes last. */
  function SetEntry(row: SheetRow, key: string, value: Cell): (r: SheetRow)
    ensures |r| == |row| || r == row + [Entry(key, value)]
    ensures (forall i :: 0 <= i < |row| ==> row[i].key != key) ==> r == row + [Entry(key, value)]
  {
    if row == [] then [Entry(key, value)]
    else if row[0].key == key then [Entry(key, value)] + row[1..]
    else [row[0]] + SetEntry(row[1..], key, value)
  }

  /** The dict comprehension: entries are written in order, so of two keys
      that clean to the same key the later value wins. */
  function CleanRow(row: SheetRow): (r: LoadRow)
    ensures r.Keys == set i | 0 <= i < |row| :: CleanKey(row[i].key)
  {
    if row == [] then map[]
    else
      var n := |row| - 1;
      var r := CleanRow(row[..n])[CleanKey(row[n].key) := CleanValue(row[n].value)];
      assert forall i :: 0 <= i < n ==> row[..n][i] == row[i];
      r
  }

  /** The sheet row with its source file name and load time. */
  function Stamped(row: SheetRow, fileName: string, loadedAt: nat): SheetRow {
    SetEntry(SetEntry(row, "source_file", Text(RemoveCsv(fileName))), "loaded_at", Time(loadedAt))
  }

  /** What the loop body makes of a sheet row read at a time. */
  type Loader = (SheetRow, nat) -> LoadRow

  function LoaderOf(fileName: string): Loader {
    (row: SheetRow, loadedAt: nat) => CleanRow(Stamped(row, fileName, loadedAt))
  }

  /** The rows loaded from a sheet; `now(i)` is the time `datetime.now()`
      reads for row `i`. */
  function LoadRows(sheet: seq<SheetRow>, load: Loader, now: nat -> nat): (rows: seq<LoadRow>)
    ensures |rows| == |sheet|
  {
    if sheet == [] then []
    else
      var n := |sheet| - 1;
      LoadRows(sheet[..n], load, now) + [load(sheet[n], now(n))]
  }

  /** Loading one more sheet row appends its loaded row. */
  lemma LoadRowsSnoc(sheet: seq<SheetRow>, load: Loader, now: nat -> nat, i: nat)
    requires i < |sheet|
    ensures LoadRows(sheet[..i + 1], load, now) == LoadRows(sheet[..i], load, now) + [load(sheet[i], now(i))]
  {
    assert sheet[..i + 1][..i] == sheet[..i];
  }

  /** One loaded row per sheet row, in order. */
  lemma {:induction false} LoadRowsAt(sheet: seq<SheetRow>, load: Loader, now: nat -> nat, i: nat)
    requires i < |sheet|
    ensures LoadRows(sheet, load, now)[i] == load(sheet[i], now(i))
  {
    var n := |sheet| - 1;
    if i < n {
      LoadRowsAt(sheet[..n], load, now, i);
      assert sheet[..n][i] == sheet[i];
    }
  }

  /** Writing one more entry. */
  lemma CleanRowSnoc(row: SheetRow, e: Entry)
    ensures CleanRow(row + [e]) == CleanRow(row)[CleanKey(e.key) := CleanValue(e.value)]
  {
    assert (row + [e])[..|row|] == row;
  }

  /** Two new keys written last win over any sheet key that cleans to the
      same name. */
  lemma LastWritesWin(row: SheetRow, k1: string, v1: Cell, k2: string, v2: Cell)
    requires forall i :: 0 <= i < |row| ==> row[i].key != k1 && row[i].key != k2
    requires k1 != k2 && CleanKey(k1) != CleanKey(k2)
    ensures var r := CleanRow(SetEntry(SetEntry(row, k1, v1), k2, v2));
      CleanKey(k1) in r && r[CleanKey(k1)] == CleanValue(v1) && CleanKey(k2) in r && r[CleanKey(k2)] == CleanValue(v2)
  {
    var withFirst := row + [Entry(k1, v1)];
    assert SetEntry(row, k1, v1) == withFirst;
    assert forall i :: 0 <= i < |withFirst| ==> withFirst[i].key != k2;
    assert SetEntry(withFirst, k2, v2) == withFirst + [Entry(k2, v2)];
    LastTwoWin(row, Entry(k1, v1), Entry(k2, v2));
  }

  /** The last two entries written, cleaned to two different keys, both
      hold their own values. */
  lemma LastTwoWin(row: SheetRow, e1: Entry, e2: Entry)
    requires CleanKey(e1.key) != CleanKey(e2.key)
    ensures var r := CleanRow(row + [e1] + [e2]);
      CleanKey(e1.key) in r && r[CleanKey(e1.key)] == CleanValue(e1.value)
      && CleanKey(e2.key) in r && r[CleanKey(e2.key)] == CleanValue(e2.value)
  {
    CleanRowSnoc(row, e1);
    CleanRowSnoc(row + [e1], e2);
  }

  /** When the sheet has neither column, the loaded row carries the source
      file name (`None` if it is `-`) and the load time. */
  lemma StampedColumns(row: SheetRow, fileName: string, loadedAt: nat)
    requires forall i :: 0 <= i < |row| ==> row[i].key != "source_file" && row[i].key != "loaded_at"
    ensures var r := LoaderOf(fileName)(row, loadedAt);
      "source_file" in r && r["source_file"] == CleanValue(Text(RemoveCsv(fileName)))
      && "loaded_at" in r && r["loaded_at"] == Time(loadedAt)
  {
    SnakeCaseKept("source_file");
    SnakeCaseKept("loaded_at");
    LastWritesWin(row, "source_file", Text(RemoveCsv(fileName)), "loaded_at", Time(loadedAt));
  }

  // ---------------------------------------------------------------------
  // process_file

  datatype Outcome =
    | Skipped                    // unsupported MIME type: a warning, nothing loaded
    | NoSchema                   // `load_data[0]` on an empty sheet when the table must be created
    | Loaded(rows: seq<LoadRow>)

  /** One turn of the loop: the row dict gains `source_file` and
      `loaded_at`, then its keys and values are cleaned. */
  method CleanSheetRow(sheetRow: SheetRow, fileName: string, loadedAt: nat) returns (cleanRow: LoadRow)
    ensures cleanRow == LoaderOf(fileName)(sheetRow, loadedAt)
  {
    var row := SetEntry(sheetRow, "source_file", Text(RemoveCsv(fileName)));
    row := SetEntry(row, "loaded_at", Time(loadedAt));
    cleanRow := CleanRow(row);
  }

  /** `process_file` up to the load: `sheet` is the first sheet as a list of
      row dicts, `tableExists` whether the warehouse table exists. */
  method ProcessFile(fileName: string, fileType: string, sheet: seq<SheetRow>, now: nat -> nat, tableExists: bool)
    returns (out: Outcome)
    ensures fileType != XlsxFileType && fileType != GSheetsFileType ==> out == Skipped
    ensures (fileType == XlsxFileType || fileType == GSheetsFileType) && sheet == [] && !tableExists ==> out == NoSchema
    ensures (fileType == XlsxFileType || fileType == GSheetsFileType) && (sheet != [] || tableExists) ==>
      out == Loaded(LoadRows(sheet, LoaderOf(fileName), now))
  {
    if fileType != XlsxFileType && fileType != GSheetsFileType {
      return Skipped;
    }
    var loadData: seq<LoadRow> := [];
    var i := 0;
    while i < |sheet|
      invariant 0 <= i <= |sheet|
      invariant loadData == LoadRows(sheet[..i], LoaderOf(fileName), now)
    {
      var cleanRow := CleanSheetRow(sheet[i], fileName, now(i));
      LoadRowsSnoc(sheet, LoaderOf(fileName), now, i);
      loadData := loadData + [cleanRow];
      i := i + 1;
    }
    assert sheet[..i] == sheet;
    if !tableExists && loadData == [] {
      return NoSchema;
    }
    return Loaded(loadData);
  }
}

=== FILE: hash.dfy ===
/** The deduplication key of a company and the two hashes computed from it:
    a 16-hex-digit prefix of a SHA-256 digest, and a 32-bit djb2 variant.
    The SHA-256 function itself is a parameter `digest`. */
module Hash {
  import opened Wrappers
  import opened Strings

  /** A SHA-256 digest: 32 bytes. */
  type Digest = d: seq<int> | |d| == 32 && forall i :: 0 <= i < |d| ==> 0 <= d[i] < 256
    witness seq(32, _ => 0)

  /** `(domain || name).toLowerCase().trim()`. */
  function HashKey(domain: Option<string>, name: string): (key: string)
    ensures domain.Some? && domain.value != "" ==> key == Trim(Lower(domain.value))
    ensures domain.None? || domain == Some("") ==> key == Trim(Lower(name))
    ensures IsLowerCase(key) && IsTrimmed(key)
  {
    var source := if domain.Some? && domain.value != "" then domain.value else name;
    TrimLowerCommute(source);
    LowerIsLowerCase(Trim(source));
    Trim(Lower(source))
  }

  // ---------------------------------------------------------------------
  // Hexadecimal

  function HexDigit(n: nat): char
    requires n < 16
  {
    "0123456789abcdef"[n]
  }

  predicate IsHexDigit(c: char) { '0' <= c <= '9' || 'a' <= c <= 'f' }

  function HexValue(c: char): nat
    requires IsHexDigit(c)
  {
    if c <= '9' then c as nat - '0' as nat else c as nat - 'a' as nat + 10
  }

  lemma HexValueOfDigit(n: nat)
    requires n < 16
    ensures IsHexDigit(HexDigit(n)) && HexValue(HexDigit(n)) == n
  {
  }

  /** `b.toString(16).padStart(2, '0')` for a byte. */
  function HexByte(b: int): (s: string)
    requires 0 <= b < 256
    ensures |s| == 2 && IsHexDigit(s[0]) && IsHexDigit(s[1])
    ensures HexValue(s[0]) * 16 + HexValue(s[1]) == b
  {
    HexValueOfDigit(b / 16);
    HexValueOfDigit(b % 16);
    [HexDigit(b / 16), HexDigit(b % 16)]
  }

  /** The hex rendering of some digest bytes, two digits per byte. */
  function HexBytes(bytes: seq<int>): (s: string)
    requires forall i :: 0 <= i < |bytes| ==> 0 <= bytes[i] < 256
    ensures |s| == 2 * |bytes|
    ensures forall k :: 0 <= k < |s| ==> IsHexDigit(s[k])
  {
    if bytes == [] then "" else HexBytes(bytes[..|bytes| - 1]) + HexByte(bytes[|bytes| - 1])
  }

  lemma {:induction false} HexBytesAt(bytes: seq<int>, i: nat)
    requires forall k :: 0 <= k < |bytes| ==> 0 <= bytes[k] < 256
    requires i < |bytes|
    ensures HexBytes(bytes)[2 * i..2 * i + 2] == HexByte(bytes[i])
  {
    var n := |bytes| - 1;
    if i < n {
      HexBytesAt(bytes[..n], i);
      assert HexBytes(bytes) == HexBytes(bytes[..n]) + HexByte(bytes[n]);
      assert HexBytes(bytes)[2 * i..2 * i + 2] == HexBytes(bytes[..n])[2 * i..2 * i + 2];
    }
  }

  lemma HexPrefix(d: Digest)
    ensures forall i :: 0 <= i < 8 ==>
      HexValue(HexBytes(d)[..16][2 * i]) * 16 + HexValue(HexBytes(d)[..16][2 * i + 1]) == d[i]
  {
    var r := HexBytes(d)[..16];
    forall i | 0 <= i < 8
      ensures HexValue(r[2 * i]) * 16 + HexValue(r[2 * i + 1]) == d[i]
    {
      HexBytesAt(d, i);
      assert r[2 * i..2 * i + 2] == HexBytes(d)[2 * i..2 * i + 2];
      assert r[2 * i] == HexByte(d[i])[0] && r[2 * i + 1] == HexByte(d[i])[1];
    }
  }

  /** `computeCompanyHash`: the first 16 characters of the lower-case hex
      rendering of the digest of the key, so the first 8 digest bytes, each
      recoverable from its two characters. */
  function ComputeCompanyHash(domain: Option<string>, name: string, digest: string -> Digest): (r: string)
    ensures |r| == 16
    ensures forall k :: 0 <= k < 16 ==> IsHexDigit(r[k])
    ensures forall i :: 0 <= i < 8 ==>
      HexValue(r[2 * i]) * 16 + HexValue(r[2 * i + 1]) == digest(HashKey(domain, name))[i]
  {
    var d := digest(HashKey(domain, name));
    HexPrefix(d);
    HexBytes(d)[..16]
  }

  /** Two companies with the same non-empty domain get the same hash,
      whatever their names. */
  lemma SameDomainSameHash(d: string, name1: string, name2: string, digest: string -> Digest)
    requires d != ""
    ensures ComputeCompanyHash(Some(d), name1, digest) == ComputeCompanyHash(Some(d), name2, digest)
  {
  }

  // ---------------------------------------------------------------------
  // djb2 with 32-bit wrap-around

  const Two31: int := 0x8000_0000
  const Two32: int := 0x1_0000_0000

  /** JavaScript's ToInt32: the signed 32-bit integer congruent to `x`. */
  function Wrap32(x: int): (r: int)
    ensures -Two31 <= r < Two31
    ensures (r - x) % Two32 == 0
  {
    (x + Two31) % Two32 - Two31
  }

  lemma Wrap32Unique(x: int, y: int)
    requires (x - y) % Two32 == 0
    ensures Wrap32(x) == Wrap32(y)
  {
    var q := (x - y) / Two32;
    assert x + Two31 == (y + Two31) + Two32 * q;
    ModShift(y + Two31, q);
  }

  lemma ModShift(a: int, q: int)
    ensures (a + Two32 * q) % Two32 == a % Two32
  {
  }

  /** `hash = ((hash << 5) + hash) + code; hash = hash & hash` multiplies by
      33, adds the code unit and wraps to 32 bits. */
  lemma {:induction false} Djb2Step(h: int, c: int)
    requires -Two31 <= h < Two31
    ensures Wrap32(Wrap32(h * 32) + h + c) == Wrap32(h * 33 + c)
  {
    var w := Wrap32(h * 32);
    assert ((w + h + c) - (h * 33 + c)) % Two32 == 0 by {
      assert (w + h + c) - (h * 33 + c) == w - h * 32;
    }
    Wrap32Unique(w + h + c, h * 33 + c);
  }

  /** The djb2 state after some UTF-16 code units. */
  function Djb2(units: seq<int>): (h: int)
    ensures -Two31 <= h < Two31
  {
    if units == [] then 5381 else Wrap32(Djb2(units[..|units| - 1]) * 33 + units[|units| - 1])
  }

  lemma Djb2Snoc(units: seq<int>, i: nat)
    requires i < |units|
    ensures Djb2(units[..i + 1]) == Wrap32(Djb2(units[..i]) * 33 + units[i])
  {
    assert units[..i + 1][..i] == units[..i];
  }

  function Abs(x: int): nat { if x < 0 then -x else x }

  /** `n.toString(16)`: lower-case hex without leading zeros. */
  function ToHex(n: nat): (s: string)
    ensures |s| >= 1
    ensures forall k :: 0 <= k < |s| ==> IsHexDigit(s[k])
  {
    HexValueOfDigit(n % 16);
    if n < 16 then [HexDigit(n)] else ToHex(n / 16) + [HexDigit(n % 16)]
  }

  /** The value of a string of hex digits. */
  function FromHex(s: string): nat
    requires forall k :: 0 <= k < |s| ==> IsHexDigit(s[k])
  {
    if s == [] then 0 else FromHex(s[..|s| - 1]) * 16 + HexValue(s[|s| - 1])
  }

  function Pow16(k: nat): nat { if k == 0 then 1 else 16 * Pow16(k - 1) }

  lemma {:induction false} ToHexRoundTrip(n: nat)
    ensures FromHex(ToHex(n)) == n
  {
    HexValueOfDigit(n % 16);
    if n >= 16 {
      ToHexRoundTrip(n / 16);
      var s := ToHex(n);
      assert s[..|s| - 1] == ToHex(n / 16);
    }
  }

  lemma {:induction false} ToHexLength(n: nat, k: nat)
    requires n < Pow16(k)
    ensures |ToHex(n)| <= if k == 0 then 1 else k
  {
    if n >= 16 {
      assert k >= 2;
      ToHexLength(n / 16, k - 1);
    }
  }

  /** `s.padStart(width, '0')`. */
  function PadStart(s: string, width: nat): (r: string)
    ensures |s| >= width ==> r == s
    ensures |s| < width ==> |r| == width && r[width - |s|..] == s
    ensures forall k :: 0 <= k < |r| - |s| ==> r[k] == '0'
  {
    if |s| >= width then s else seq(width - |s|, _ => '0') + s
  }

  lemma {:induction false} FromHexZeros(z: nat, s: string)
    requires forall k :: 0 <= k < |s| ==> IsHexDigit(s[k])
    ensures FromHex(seq(z, _ => '0') + s) == FromHex(s)
    decreases |s|
  {
    var t := seq(z, _ => '0') + s;
    if s == [] {
      assert t == seq(z, _ => '0');
      ZerosValue(z);
    } else {
      FromHexZeros(z, s[..|s| - 1]);
      assert t[..|t| - 1] == seq(z, _ => '0') + s[..|s| - 1];
    }
  }

  lemma {:induction false} ZerosValue(z: nat)
    ensures FromHex(seq(z, _ => '0')) == 0
  {
    if z > 0 {
      ZerosValue(z - 1);
      assert seq(z, _ => '0')[..z - 1] == seq(z - 1, _ => '0');
    }
  }

  /** A value of at most 2^31 renders as exactly 8 hex digits that read
      back as the value. */
  lemma PaddedHex(a: nat)
    requires a <= Two31
    ensures |PadStart(ToHex(a), 8)| == 8
    ensures forall k :: 0 <= k < 8 ==> IsHexDigit(PadStart(ToHex(a), 8)[k])
    ensures FromHex(PadStart(ToHex(a), 8)) == a
  {
    var hex := ToHex(a);
    assert Pow16(8) == Two32;
    ToHexLength(a, 8);
    ToHexRoundTrip(a);
    FromHexZeros(8 - |hex|, hex);
  }

  /** `Math.abs(hash).toString(16).padStart(8, '0')`: exactly 8 hex digits
      that read back as the absolute value, since it is at most 2^31. */
  function HashHex(h: int): (r: string)
    requires -Two31 <= h < Two31
    ensures |r| == 8 && (forall k :: 0 <= k < 8 ==> IsHexDigit(r[k]))
    ensures FromHex(r) == Abs(h)
  {
    PaddedHex(Abs(h));
    PadStart(ToHex(Abs(h)), 8)
  }

  /** One iteration of the loop advances the djb2 state by one code unit. */
  lemma Djb2Next(units: seq<int>, i: nat, h: int)
    requires i < |units| && h == Djb2(units[..i])
    ensures Wrap32(Wrap32(h * 32) + h + units[i]) == Djb2(units[..i + 1])
  {
    Djb2Step(h, units[i]);
    Djb2Snoc(units, i);
  }

  /** `computeCompanyHashSync`: djb2 over the UTF-16 code units of the key,
      rendered as the hex of its absolute value padded to 8 digits; the
      result is always exactly 8 hex digits and reads back as |h|. */
  method ComputeCompanyHashSync(domain: Option<string>, name: string) returns (r: string)
    ensures r == HashHex(Djb2(Utf16(HashKey(domain, name))))
    ensures |r| == 8 && (forall k :: 0 <= k < 8 ==> IsHexDigit(r[k]))
    ensures FromHex(r) == Abs(Djb2(Utf16(HashKey(domain, name))))
  {
    var units := Utf16(HashKey(domain, name));
    var hash := 5381;
    var i := 0;
    while i < |units|
      invariant 0 <= i <= |units|
      invariant hash == Djb2(units[..i])
    {
      Djb2Next(units, i, hash);
      hash := Wrap32(Wrap32(hash * 32) + hash + units[i]);
      i := i + 1;
    }
    assert units[..i] == units;
    r := HashHex(hash);
  }
}

=== FILE: import.dfy ===
/** The import engine: CSV rows are mapped to company fields, each mapped
    row gets its domain, hash and cleaned email, rows are split into new
    and duplicate by hash, and the new ones are inserted in batches of 100
    with a one-by-one fallback.  The URL parser and the SHA-256 function
    are parameters; so are the database faults: a failing duplicate
    lookup, a failing import insert, and a per-row insert rejection on top
    of the unique key on `company_hash`. */
module Import {
  import opened Wrappers
  import opened Strings
  import opened Batching
  import opened Model
  import Store
  import Email
  import Domain
  import Hash

  // ---------------------------------------------------------------------
  // applyMapping

  const ListTargets: seq<string> := ["categories", "tags", "certifications", "production_types"]

  /** A list cell: split on ',', each piece trimmed, empty pieces dropped. */
  function SplitList(value: string): (items: seq<string>)
    ensures forall k :: 0 <= k < |items| ==> items[k] != "" && IsTrimmed(items[k]) && ',' !in items[k]
  {
    Pieces(Split(value, ','))
  }

  function Pieces(parts: seq<string>): (items: seq<string>)
    requires forall k :: 0 <= k < |parts| ==> ',' !in parts[k]
    ensures forall k :: 0 <= k < |items| ==> items[k] != "" && IsTrimmed(items[k]) && ',' !in items[k]
    ensures |items| <= |parts|
  {
    if parts == [] then []
    else
      var rest := Pieces(parts[..|parts| - 1]);
      var t := Trim(parts[|parts| - 1]);
      assert forall c :: c in t ==> c in parts[|parts| - 1];
      if t == "" then rest else rest + [t]
  }

  /** A cell without commas is a one-item list, or empty when it is blank. */
  lemma SplitListSingle(value: string)
    requires ',' !in value
    ensures SplitList(value) == if Trim(value) == "" then [] else [Trim(value)]
  {
    assert IndexOf(value, ',') == |value|;
    assert Split(value, ',') == [value];
    assert Pieces([value]) == Pieces([value][..0]) + (if Trim(value) == "" then [] else [Trim(value)]);
  }

  /** `accepts_startups`: 'true' or 'yes' in any case, or exactly '1'. */
  predicate Truthful(value: string) {
    Lower(value) == "true" || value == "1" || Lower(value) == "yes"
  }

  /** The value one non-empty source cell gives its target column. */
  function Coerce(target: string, value: string): FieldValue {
    if target in ListTargets then Items(SplitList(value))
    else if target == "accepts_startups" then Flag(Truthful(value))
    else Text(value)
  }

  /** A mapping whose source cell is neither null, undefined nor ''. */
  predicate Filled(row: RawRow, cm: ColumnMapping) {
    cm.sourceColumn in row && row[cm.sourceColumn] != ""
  }

  /** Mapping `j` is the last mapping onto `t` with a filled cell. */
  predicate Wins(row: RawRow, ms: seq<ColumnMapping>, t: string, j: nat) {
    j < |ms| && ms[j].targetColumn == t && Filled(row, ms[j])
    && forall k :: j < k < |ms| ==> !(ms[k].targetColumn == t && Filled(row, ms[k]))
  }

  /** Index of the last filled mapping onto `target`: the one that wins. */
  function LastFilled(row: RawRow, ms: seq<ColumnMapping>, target: string): (r: Option<nat>)
    ensures r.Some? ==> r.value < |ms| && ms[r.value].targetColumn == target && Filled(row, ms[r.value])
    ensures r.Some? ==> forall j :: r.value < j < |ms| ==> !(ms[j].targetColumn == target && Filled(row, ms[j]))
    ensures r.None? ==> forall j :: 0 <= j < |ms| ==> !(ms[j].targetColumn == target && Filled(row, ms[j]))
  {
    if ms == [] then None
    else if ms[|ms| - 1].targetColumn == target && Filled(row, ms[|ms| - 1]) then Some(|ms| - 1)
    else LastFilled(row, ms[..|ms| - 1], target)
  }

  /** The targets some mapping with a filled cell writes. */
  function FilledTargets(row: RawRow, ms: seq<ColumnMapping>): set<string> {
    set j | 0 <= j < |ms| && Filled(row, ms[j]) :: ms[j].targetColumn
  }

  /** The value the winning mapping onto `t` writes. */
  function Winner(row: RawRow, ms: seq<ColumnMapping>, t: string): FieldValue {
    match LastFilled(row, ms, t)
    case Some(j) => Coerce(t, row[ms[j].sourceColumn])
    case None => Text("")
  }

  /** The record one CSV row maps to: a target is set exactly when some
      mapping onto it has a filled cell, and the last such mapping wins. */
  function RowMapping(row: RawRow, ms: seq<ColumnMapping>): map<string, FieldValue> {
    map t | t in FilledTargets(row, ms) :: Winner(row, ms, t)
  }

  lemma FilledTargetsSnoc(row: RawRow, ms: seq<ColumnMapping>, cm: ColumnMapping)
    ensures FilledTargets(row, ms + [cm]) == FilledTargets(row, ms) + (if Filled(row, cm) then {cm.targetColumn} else {})
  {
    var ms' := ms + [cm];
    forall t | t in FilledTargets(row, ms) ensures t in FilledTargets(row, ms') {
      var j :| 0 <= j < |ms| && Filled(row, ms[j]) && ms[j].targetColumn == t;
      assert ms'[j] == ms[j];
    }
    forall t | t in FilledTargets(row, ms') && t !in FilledTargets(row, ms) ensures Filled(row, cm) && t == cm.targetColumn {
      var j :| 0 <= j < |ms'| && Filled(row, ms'[j]) && ms'[j].targetColumn == t;
    }
    if Filled(row, cm) {
      assert ms'[|ms|] == cm;
    }
  }

  lemma WinnerSnoc(row: RawRow, ms: seq<ColumnMapping>, cm: ColumnMapping, t: string)
    ensures Winner(row, ms + [cm], t) ==
      if cm.targetColumn == t && Filled(row, cm) then Coerce(t, row[cm.sourceColumn]) else Winner(row, ms, t)
  {
    assert (ms + [cm])[..|ms|] == ms;
  }

  lemma RowMappingSnoc(row: RawRow, ms: seq<ColumnMapping>, cm: ColumnMapping)
    ensures RowMapping(row, ms + [cm]) ==
      if Filled(row, cm) then RowMapping(row, ms)[cm.targetColumn := Coerce(cm.targetColumn, row[cm.sourceColumn])]
      else RowMapping(row, ms)
  {
    FilledTargetsSnoc(row, ms, cm);
    forall t ensures Winner(row, ms + [cm], t) ==
      if cm.targetColumn == t && Filled(row, cm) then Coerce(t, row[cm.sourceColumn]) else Winner(row, ms, t)
    {
      WinnerSnoc(row, ms, cm, t);
    }
  }

  /** The mapping of one row, filled in one mapping at a time. */
  method MapRow(row: RawRow, mappings: seq<ColumnMapping>) returns (m: MappedCompany)
    ensures m == RowMapping(row, mappings)
  {
    m := map[];
    var i := 0;
    while i < |mappings|
      invariant 0 <= i <= |mappings|
      invariant m == RowMapping(row, mappings[..i])
    {
      var cm := mappings[i];
      RowMappingSnoc(row, mappings[..i], cm);
      assert mappings[..i + 1] == mappings[..i] + [cm];
      if cm.sourceColumn in row && row[cm.sourceColumn] != "" {
        m := m[cm.targetColumn := Coerce(cm.targetColumn, row[cm.sourceColumn])];
      }
      i := i + 1;
    }
    assert mappings[..i] == mappings;
  }

  /** What each mapping contributes: a target is set iff some mapping onto
      it has a filled cell, and then it holds the coerced value of the last
      such cell. */
  lemma RowMappingSpec(row: RawRow, ms: seq<ColumnMapping>, t: string)
    ensures t in RowMapping(row, ms) <==> exists j :: 0 <= j < |ms| && ms[j].targetColumn == t && Filled(row, ms[j])
    ensures forall j: nat :: Wins(row, ms, t, j) ==> RowMapping(row, ms)[t] == Coerce(t, row[ms[j].sourceColumn])
  {
    if exists j :: 0 <= j < |ms| && ms[j].targetColumn == t && Filled(row, ms[j]) {
      var j :| 0 <= j < |ms| && ms[j].targetColumn == t && Filled(row, ms[j]);
      assert t in FilledTargets(row, ms);
    }
    forall j: nat | Wins(row, ms, t, j) ensures LastFilled(row, ms, t) == Some(j) {
      var r := LastFilled(row, ms, t);
      assert r.Some?;
      assert !(r.value < j) && !(j < r.value);
    }
  }

  /** `row.name` is truthy. */
  predicate HasName(m: MappedCompany) {
    "name" in m &&
    match m["name"]
    case Text(s) => s != ""
    case Items(_) => true
    case Flag(b) => b
  }

  /** `rawData.map(...)`: every row mapped, in order. */
  function MapRows(rows: seq<RawRow>, ms: seq<ColumnMapping>): (out: seq<MappedCompany>)
    ensures |out| == |rows|
  {
    if rows == [] then [] else MapRows(rows[..|rows| - 1], ms) + [RowMapping(rows[|rows| - 1], ms)]
  }

  lemma {:induction false} MapRowsAt(rows: seq<RawRow>, ms: seq<ColumnMapping>, i: nat)
    requires i < |rows|
    ensures MapRows(rows, ms)[i] == RowMapping(rows[i], ms)
  {
    var n := |rows| - 1;
    if i < n {
      MapRowsAt(rows[..n], ms, i);
      assert rows[..n][i] == rows[i];
    }
  }

  /** `.filter(row => row.name)`: the records with a name, in order. */
  function KeepNamed(xs: seq<MappedCompany>): (out: seq<MappedCompany>)
    ensures |out| <= |xs|
    ensures forall k :: 0 <= k < |out| ==> HasName(out[k])
  {
    if xs == [] then []
    else KeepNamed(xs[..|xs| - 1]) + (if HasName(xs[|xs| - 1]) then [xs[|xs| - 1]] else [])
  }

  /** `applyMapping`. */
  function MappedRows(rows: seq<RawRow>, ms: seq<ColumnMapping>): seq<MappedCompany> {
    KeepNamed(MapRows(rows, ms))
  }

  method ApplyMapping(rows: seq<RawRow>, mappings: seq<ColumnMapping>) returns (out: seq<MappedCompany>)
    ensures out == MappedRows(rows, mappings)
  {
    var mapped: seq<MappedCompany> := [];
    var i := 0;
    while i < |rows|
      invariant 0 <= i <= |rows|
      invariant mapped == MapRows(rows[..i], mappings)
    {
      var m := MapRow(rows[i], mappings);
      assert rows[..i + 1][..i] == rows[..i];
      mapped := mapped + [m];
      i := i + 1;
    }
    assert rows[..i] == rows;
    out := [];
    var k := 0;
    while k < |mapped|
      invariant 0 <= k <= |mapped|
      invariant out == KeepNamed(mapped[..k])
    {
      assert mapped[..k + 1][..k] == mapped[..k];
      if HasName(mapped[k]) {
        out := out + [mapped[k]];
      }
      k := k + 1;
    }
    assert mapped[..k] == mapped;
  }

  /** Filtering keeps the order: the filter of a concatenation is the
      concatenation of the filters. */
  lemma {:induction false} KeepNamedAppend(xs: seq<MappedCompany>, ys: seq<MappedCompany>)
    ensures KeepNamed(xs + ys) == KeepNamed(xs) + KeepNamed(ys)
    decreases |ys|
  {
    if ys != [] {
      var n := |ys| - 1;
      var all := xs + ys;
      assert all[..|all| - 1] == xs + ys[..n];
      assert all[|all| - 1] == ys[n];
      KeepNamedAppend(xs, ys[..n]);
    } else {
      assert xs + ys == xs;
    }
  }

  /** Every record with a name is kept. */
  lemma {:induction false} KeepNamedKeeps(xs: seq<MappedCompany>, i: nat)
    requires i < |xs| && HasName(xs[i])
    ensures xs[i] in KeepNamed(xs)
  {
    var n := |xs| - 1;
    if i < n {
      KeepNamedKeeps(xs[..n], i);
      assert xs[..n][i] == xs[i];
    }
  }

  /** Every kept record is one of the inputs. */
  lemma {:induction false} KeepNamedFrom(xs: seq<MappedCompany>, m: MappedCompany)
    requires m in KeepNamed(xs)
    ensures m in xs && HasName(m)
  {
    var n := |xs| - 1;
    if m in KeepNamed(xs[..n]) {
      KeepNamedFrom(xs[..n], m);
    }
  }

  /** `applyMapping` drops exactly the rows whose mapping has no name. */
  lemma MappedRowsExact(rows: seq<RawRow>, ms: seq<ColumnMapping>, i: nat)
    requires i < |rows|
    ensures RowMapping(rows[i], ms) in MappedRows(rows, ms) <==> HasName(RowMapping(rows[i], ms))
  {
    MapRowsAt(rows, ms, i);
    var xs := MapRows(rows, ms);
    if HasName(xs[i]) {
      KeepNamedKeeps(xs, i);
    }
    if xs[i] in KeepNamed(xs) {
      KeepNamedFrom(xs, xs[i]);
    }
  }

  // ---------------------------------------------------------------------
  // processCompanies

  /** `company.<key>` read as a list field. */
  function ItemsField(m: MappedCompany, key: string): Option<seq<string>> {
    if key in m && m[key].Items? then Some(m[key].xs) else None
  }

  function NameOf(m: MappedCompany): string {
    if TextField(m, "name").Some? then TextField(m, "name").value else ""
  }

  /** One mapped row with its derived fields. */
  function ProcessOne(m: MappedCompany, importId: ImportId, parse: Domain.UrlParser, digest: string -> Hash.Digest): (p: ProcessedCompany)
    ensures p.fields == m && p.status == Pending && p.importId == importId
  {
    var domain := Domain.ExtractDomain(TextField(m, "website"), parse);
    ProcessedCompany(m, Hash.ComputeCompanyHash(domain, NameOf(m), digest), domain,
      Email.ValidateEmail(TextField(m, "email")), Pending, importId)
  }

  /** Two rows whose websites yield the same domain get the same hash. */
  lemma SameWebsiteDomainSameHash(m1: MappedCompany, m2: MappedCompany, importId: ImportId, parse: Domain.UrlParser, digest: string -> Hash.Digest)
    requires Domain.ExtractDomain(TextField(m1, "website"), parse) == Domain.ExtractDomain(TextField(m2, "website"), parse)
    requires Domain.ExtractDomain(TextField(m1, "website"), parse).Some?
    requires Domain.ExtractDomain(TextField(m1, "website"), parse) != Some("")
    ensures ProcessOne(m1, importId, parse, digest).companyHash == ProcessOne(m2, importId, parse, digest).companyHash
  {
    var d := Domain.ExtractDomain(TextField(m1, "website"), parse).value;
    Hash.SameDomainSameHash(d, NameOf(m1), NameOf(m2), digest);
  }

  /** Every mapped row processed, in order. */
  function ProcessAll(cs: seq<MappedCompany>, importId: ImportId, parse: Domain.UrlParser, digest: string -> Hash.Digest): (out: seq<ProcessedCompany>)
    ensures |out| == |cs|
  {
    if cs == [] then [] else ProcessAll(cs[..|cs| - 1], importId, parse, digest) + [ProcessOne(cs[|cs| - 1], importId, parse, digest)]
  }

  lemma ProcessAllStep(cs: seq<MappedCompany>, i: nat, importId: ImportId, parse: Domain.UrlParser, digest: string -> Hash.Digest)
    requires i < |cs|
    ensures ProcessAll(cs[..i + 1], importId, parse, digest) == ProcessAll(cs[..i], importId, parse, digest) + [ProcessOne(cs[i], importId, parse, digest)]
  {
    assert cs[..i + 1][..i] == cs[..i];
  }

  /** `processCompanies`. */
  method ProcessCompanies(companies: seq<MappedCompany>, importId: ImportId, parse: Domain.UrlParser, digest: string -> Hash.Digest)
    returns (out: seq<ProcessedCompany>)
    ensures out == ProcessAll(companies, importId, parse, digest)
  {
    out := [];
    var i := 0;
    while i < |companies|
      invariant 0 <= i <= |companies|
      invariant out == ProcessAll(companies[..i], importId, parse, digest)
    {
      ProcessAllStep(companies, i, importId, parse, digest);
      out := out + [ProcessOne(companies[i], importId, parse, digest)];
      i := i + 1;
    }
    assert companies[..i] == companies;
  }

  // ---------------------------------------------------------------------
  // deduplicateCompanies

  function HashesOf(cs: seq<ProcessedCompany>): (hs: set<string>)
    ensures forall i :: 0 <= i < |cs| ==> cs[i].companyHash in hs
    ensures forall h :: h in hs ==> exists i :: 0 <= i < |cs| && cs[i].companyHash == h
  {
    set i | 0 <= i < |cs| :: cs[i].companyHash
  }

  lemma HashesOfSnoc(cs: seq<ProcessedCompany>, c: ProcessedCompany)
    ensures HashesOf(cs + [c]) == HashesOf(cs) + {c.companyHash}
  {
    var all := cs + [c];
    forall h | h in HashesOf(cs) ensures h in HashesOf(all) {
      var i :| 0 <= i < |cs| && cs[i].companyHash == h;
      assert all[i] == cs[i];
    }
    assert all[|cs|] == c;
  }

  datatype Partitioned = Partitioned(added: seq<ProcessedCompany>, duplicates: seq<ProcessedCompany>)

  /** The reference split: a company is new when its hash is neither stored
      already nor carried by an earlier company of the import. */
  function Partition(cs: seq<ProcessedCompany>, existing: set<string>): (s: Partitioned)
    ensures |s.added| + |s.duplicates| == |cs|
  {
    if cs == [] then Partitioned([], [])
    else
      var n := |cs| - 1;
      var s := Partition(cs[..n], existing);
      if cs[n].companyHash in existing || cs[n].companyHash in HashesOf(cs[..n]) then
        Partitioned(s.added, s.duplicates + [cs[n]])
      else
        Partitioned(s.added + [cs[n]], s.duplicates)
  }

  /** The loop state of `deduplicateCompanies` after `i` companies. */
  ghost predicate DedupState(cs: seq<ProcessedCompany>, existing: set<string>, i: nat,
    added: seq<ProcessedCompany>, duplicates: seq<ProcessedCompany>, seen: set<string>)
  {
    i <= |cs| && Partitioned(added, duplicates) == Partition(cs[..i], existing) && seen == HashesOf(cs[..i]) - existing
  }

  lemma DedupStep(cs: seq<ProcessedCompany>, existing: set<string>, i: nat,
    added: seq<ProcessedCompany>, duplicates: seq<ProcessedCompany>, seen: set<string>)
    requires i < |cs| && DedupState(cs, existing, i, added, duplicates, seen)
    ensures var h := cs[i].companyHash;
      if h in existing || h in seen then DedupState(cs, existing, i + 1, added, duplicates + [cs[i]], seen)
      else DedupState(cs, existing, i + 1, added + [cs[i]], duplicates, seen + {h})
  {
    assert cs[..i + 1] == cs[..i] + [cs[i]];
    HashesOfSnoc(cs[..i], cs[i]);
  }

  /** `deduplicateCompanies` with `existing` the stored hashes it looked up. */
  method DeduplicateCompanies(companies: seq<ProcessedCompany>, existing: set<string>)
    returns (added: seq<ProcessedCompany>, duplicates: seq<ProcessedCompany>)
    ensures Partitioned(added, duplicates) == Partition(companies, existing)
  {
    var seen: set<string> := {};
    added, duplicates := [], [];
    var i := 0;
    while i < |companies|
      invariant DedupState(companies, existing, i, added, duplicates, seen)
    {
      var c := companies[i];
      DedupStep(companies, existing, i, added, duplicates, seen);
      if c.companyHash in existing || c.companyHash in seen {
        duplicates := duplicates + [c];
      } else {
        seen := seen + {c.companyHash};
        added := added + [c];
      }
      i := i + 1;
    }
    assert companies[..i] == companies;
  }

  /** Every input lands in exactly one of the two lists. */
  lemma {:induction false} PartitionPermutes(cs: seq<ProcessedCompany>, existing: set<string>)
    ensures multiset(Partition(cs, existing).added) + multiset(Partition(cs, existing).duplicates) == multiset(cs)
  {
    if cs != [] {
      var n := |cs| - 1;
      PartitionPermutes(cs[..n], existing);
      assert cs == cs[..n] + [cs[n]];
    }
  }

  /** No new company's hash is stored already. */
  lemma {:induction false} PartitionNotStored(cs: seq<ProcessedCompany>, existing: set<string>)
    ensures forall k :: 0 <= k < |Partition(cs, existing).added| ==> Partition(cs, existing).added[k].companyHash !in existing
  {
    if cs != [] {
      PartitionNotStored(cs[..|cs| - 1], existing);
    }
  }

  /** The new companies' hashes are exactly the import's hashes that are
      not stored already. */
  lemma {:induction false} PartitionHashes(cs: seq<ProcessedCompany>, existing: set<string>)
    ensures HashesOf(Partition(cs, existing).added) == HashesOf(cs) - existing
  {
    if cs != [] {
      var n := |cs| - 1;
      var pre := cs[..n];
      PartitionHashes(pre, existing);
      assert cs == pre + [cs[n]];
      HashesOfSnoc(pre, cs[n]);
      var f0 := Partition(pre, existing).added;
      if cs[n].companyHash in existing || cs[n].companyHash in HashesOf(pre) {
        assert Partition(cs, existing).added == f0;
      } else {
        assert Partition(cs, existing).added == f0 + [cs[n]];
        HashesOfSnoc(f0, cs[n]);
      }
    }
  }

  /** No two new companies share a hash. */
  lemma {:induction false} PartitionDistinct(cs: seq<ProcessedCompany>, existing: set<string>)
    ensures var f := Partition(cs, existing).added;
      forall k, l :: 0 <= k < l < |f| ==> f[k].companyHash != f[l].companyHash
  {
    if cs != [] {
      var n := |cs| - 1;
      var pre := cs[..n];
      PartitionDistinct(pre, existing);
      PartitionHashes(pre, existing);
      var f0 := Partition(pre, existing).added;
      var f := Partition(cs, existing).added;
      if f != f0 {
        assert f == f0 + [cs[n]];
        forall k | 0 <= k < |f0| ensures f0[k].companyHash != cs[n].companyHash {
          assert f0[k].companyHash in HashesOf(f0);
        }
      }
    }
  }

  /** `c` is the first company of `cs` with its hash. */
  predicate FirstOf(cs: seq<ProcessedCompany>, c: ProcessedCompany) {
    exists i :: 0 <= i < |cs| && c == cs[i] && forall j :: 0 <= j < i ==> cs[j].companyHash != cs[i].companyHash
  }

  lemma FirstOfExtends(pre: seq<ProcessedCompany>, c: ProcessedCompany, x: ProcessedCompany)
    requires FirstOf(pre, c)
    ensures FirstOf(pre + [x], c)
  {
    var i :| 0 <= i < |pre| && c == pre[i] && forall j :: 0 <= j < i ==> pre[j].companyHash != pre[i].companyHash;
    var all := pre + [x];
    assert all[i] == c;
    assert forall j :: 0 <= j < i ==> all[j] == pre[j];
  }

  /** Each new company is the first company of the import with its hash. */
  lemma {:induction false} PartitionFirst(cs: seq<ProcessedCompany>, existing: set<string>)
    ensures forall c :: c in Partition(cs, existing).added ==> FirstOf(cs, c)
  {
    if cs != [] {
      var n := |cs| - 1;
      var pre := cs[..n];
      assert cs == pre + [cs[n]];
      PartitionFirst(pre, existing);
      var f0 := Partition(pre, existing).added;
      var f := Partition(cs, existing).added;
      forall c | c in f ensures FirstOf(cs, c) {
        if c in f0 {
          FirstOfExtends(pre, c, cs[n]);
        } else {
          assert c == cs[n] && cs[n].companyHash !in HashesOf(pre);
          assert forall j :: 0 <= j < n ==> cs[j] == pre[j];
          assert cs[n] == cs[n];
        }
      }
    }
  }

  // ---------------------------------------------------------------------
  // insertCompanies

  /** `x || null` on an optional string field of the mapped row. */
  function OrNull(m: MappedCompany, key: string): Option<string> {
    var v := TextField(m, key);
    if v.Some? && v.value != "" then v else None
  }

  /** The row `insertCompanies` writes for a processed company.  A false
      `accepts_startups` is written as null (`false || null`). */
  function ToRow(p: ProcessedCompany): (c: Company)
    ensures c.companyHash == p.companyHash && c.status == Pending && c.importId == p.importId
    ensures c.domain == p.domain && c.email == p.validatedEmail
    ensures c.acceptsStartups == (if "accepts_startups" in p.fields && p.fields["accepts_startups"] == Flag(true) then Some(true) else None)
  {
    var m := p.fields;
    Company(
      companyHash := p.companyHash,
      externalId := OrNull(m, "external_id"),
      name := NameOf(m),
      formattedName := None,
      website := OrNull(m, "website"),
      domain := p.domain,
      email := p.validatedEmail,
      phone := OrNull(m, "phone"),
      address := OrNull(m, "address"),
      formattedAddress := None,
      countryCode := OrNull(m, "country_code"),
      countryName := OrNull(m, "country_name"),
      description := OrNull(m, "description"),
      enrichedDescription := None,
      companyType := OrNull(m, "company_type"),
      categories := ItemsField(m, "categories"),
      tags := ItemsField(m, "tags"),
      certifications := ItemsField(m, "certifications"),
      productionTypes := ItemsField(m, "production_types"),
      acceptsStartups := if "accepts_startups" in m && m["accepts_startups"] == Flag(true) then Some(true) else None,
      status := Pending,
      importId := p.importId,
      enrichmentSources := None)
  }

  /** The rows `insertCompanies` builds for a batch, in order. */
  function InsertData(batch: seq<ProcessedCompany>): (rows: seq<Company>)
    ensures |rows| == |batch|
  {
    if batch == [] then [] else InsertData(batch[..|batch| - 1]) + [ToRow(batch[|batch| - 1])]
  }

  lemma {:induction false} InsertDataAt(batch: seq<ProcessedCompany>, k: nat)
    requires k < |batch|
    ensures InsertData(batch)[k] == ToRow(batch[k])
  {
    var n := |batch| - 1;
    if k < n {
      InsertDataAt(batch[..n], k);
      assert batch[..n][k] == batch[k];
    }
  }

  /** Message of a unique-key violation on `company_hash`. */
  const DuplicateKeyMessage: string := "duplicate key value violates unique constraint \"companies_company_hash_key\""

  /** Why the database refuses to insert `c` into `companies`, if it does:
      its hash is stored already, or the row is rejected for another
      reason (`reject`). */
  function InsertFault(companies: map<string, Company>, c: Company, reject: Company -> Option<string>): Option<string> {
    if c.companyHash in companies then Some(DuplicateKeyMessage) else reject(c)
  }

  function RowHashes(rows: seq<Company>): (hs: set<string>)
    ensures forall i :: 0 <= i < |rows| ==> rows[i].companyHash in hs
  {
    set i | 0 <= i < |rows| :: rows[i].companyHash
  }

  lemma RowHashesSnoc(rows: seq<Company>, c: Company)
    ensures RowHashes(rows + [c]) == RowHashes(rows) + {c.companyHash}
  {
    var all := rows + [c];
    forall h | h in RowHashes(rows) ensures h in RowHashes(all) {
      var i :| 0 <= i < |rows| && rows[i].companyHash == h;
      assert all[i] == rows[i];
    }
    assert all[|rows|] == c;
  }

  /** A multi-row insert is refused as a whole when any of its rows would
      be, including a row that repeats an earlier row's hash. */
  predicate BatchRefused(companies: map<string, Company>, rows: seq<Company>, reject: Company -> Option<string>) {
    if rows == [] then false
    else
      var n := |rows| - 1;
      BatchRefused(companies, rows[..n], reject)
      || InsertFault(companies, rows[n], reject).Some?
      || rows[n].companyHash in RowHashes(rows[..n])
  }

  /** In a batch the database accepts, every row is new to the table and
      to the rows before it. */
  lemma {:induction false} AcceptedRows(companies: map<string, Company>, rows: seq<Company>, k: nat, reject: Company -> Option<string>)
    requires k < |rows| && !BatchRefused(companies, rows, reject)
    ensures InsertFault(companies, rows[k], reject).None? && rows[k].companyHash !in RowHashes(rows[..k])
  {
    var n := |rows| - 1;
    if k < n {
      AcceptedRows(companies, rows[..n], k, reject);
      assert rows[..n][k] == rows[k] && rows[..n][..k] == rows[..k];
    }
  }

  datatype InsertError = InsertError(hash: string, error: string)

  /** The companies table and the counters of `insertCompanies`. */
  datatype InsertState = InsertState(companies: map<string, Company>, order: seq<string>, success: nat, errors: seq<InsertError>)

  /** One single-row insert. */
  function InsertOne(st: InsertState, c: Company, reject: Company -> Option<string>): (r: InsertState)
    ensures r.success + |r.errors| == st.success + |st.errors| + 1
  {
    match InsertFault(st.companies, c, reject)
    case Some(msg) => st.(errors := st.errors + [InsertError(c.companyHash, msg)])
    case None => InsertState(st.companies[c.companyHash := c], st.order + [c.companyHash], st.success + 1, st.errors)
  }

  /** Single-row inserts of each row in turn. */
  function InsertEach(st: InsertState, rows: seq<Company>, reject: Company -> Option<string>): (r: InsertState)
    ensures r.success + |r.errors| == st.success + |st.errors| + |rows|
  {
    if rows == [] then st
    else InsertOne(InsertEach(st, rows[..|rows| - 1], reject), rows[|rows| - 1], reject)
  }

  /** A multi-row insert the database accepts: every row is added. */
  function AddAll(st: InsertState, rows: seq<Company>): (r: InsertState)
    ensures r.success == st.success + |rows| && r.errors == st.errors
  {
    if rows == [] then st
    else
      var s := AddAll(st, rows[..|rows| - 1]);
      var c := rows[|rows| - 1];
      InsertState(s.companies[c.companyHash := c], s.order + [c.companyHash], s.success + 1, s.errors)
  }

  lemma {:induction false} AddAllKeys(st: InsertState, rows: seq<Company>)
    ensures AddAll(st, rows).companies.Keys == st.companies.Keys + RowHashes(rows)
  {
    if rows != [] {
      var n := |rows| - 1;
      AddAllKeys(st, rows[..n]);
      assert rows == rows[..n] + [rows[n]];
      RowHashesSnoc(rows[..n], rows[n]);
    }
  }

  /** One batch: all rows at once, or, when that is refused, each alone. */
  function InsertBatch(st: InsertState, rows: seq<Company>, reject: Company -> Option<string>): (r: InsertState)
    ensures r.success + |r.errors| == st.success + |st.errors| + |rows|
  {
    if BatchRefused(st.companies, rows, reject) then InsertEach(st, rows, reject) else AddAll(st, rows)
  }

  /** The first `b` batches. */
  function InsertUpTo(st: InsertState, batches: seq<seq<Company>>, b: nat, reject: Company -> Option<string>): InsertState
    requires b <= |batches|
  {
    if b == 0 then st else InsertBatch(InsertUpTo(st, batches, b - 1, reject), batches[b - 1], reject)
  }

  lemma {:induction false} InsertUpToCount(st: InsertState, batches: seq<seq<Company>>, b: nat, reject: Company -> Option<string>)
    requires b <= |batches|
    ensures var r := InsertUpTo(st, batches, b, reject);
      r.success + |r.errors| == st.success + |st.errors| + |Flatten(batches[..b])|
  {
    if b > 0 {
      InsertUpToCount(st, batches, b - 1, reject);
      assert batches[..b] == batches[..b - 1] + [batches[b - 1]];
      FlattenSnoc(batches[..b - 1], batches[b - 1]);
    }
  }

  lemma {:induction false} FlattenSnoc<T>(xss: seq<seq<T>>, xs: seq<T>)
    ensures Flatten(xss + [xs]) == Flatten(xss) + xs
  {
    if xss != [] {
      assert (xss + [xs])[1..] == xss[1..] + [xs];
      FlattenSnoc(xss[1..], xs);
    }
  }

  const InsertBatchSize: nat := 100

  /** What `insertCompanies` leaves behind: the rows of the companies in
      batches of 100. */
  function InsertAll(st: InsertState, companies: seq<ProcessedCompany>, reject: Company -> Option<string>): InsertState {
    var batches := Chunks(InsertData(companies), InsertBatchSize);
    InsertUpTo(st, batches, |batches|, reject)
  }

  /** `insertCompanies` accounts for every input: it is inserted or it has
      an error, and the empty input gives {0, []}. */
  lemma InsertAccounts(companies: map<string, Company>, order: seq<string>, cs: seq<ProcessedCompany>, reject: Company -> Option<string>)
    ensures var r := InsertAll(InsertState(companies, order, 0, []), cs, reject);
      r.success + |r.errors| == |cs| && (cs == [] ==> r.success == 0 && r.errors == [])
  {
    var rows := InsertData(cs);
    ChunksCover(rows, InsertBatchSize);
    var bs := Chunks(rows, InsertBatchSize);
    InsertUpToCount(InsertState(companies, order, 0, []), bs, |bs|, reject);
    assert bs[..|bs|] == bs;
    if cs == [] {
      ChunkCount(rows, InsertBatchSize, 0);
    }
  }

  lemma InsertEachStep(st: InsertState, rows: seq<Company>, k: nat, reject: Company -> Option<string>)
    requires k < |rows|
    ensures InsertEach(st, rows[..k + 1], reject) == InsertOne(InsertEach(st, rows[..k], reject), rows[k], reject)
  {
    assert rows[..k + 1][..k] == rows[..k];
  }

  lemma AddAllStep(st: InsertState, rows: seq<Company>, k: nat)
    requires k < |rows|
    ensures var s := AddAll(st, rows[..k]); var c := rows[k];
      AddAll(st, rows[..k + 1]) == InsertState(s.companies[c.companyHash := c], s.order + [c.companyHash], s.success + 1, s.errors)
  {
    assert rows[..k + 1][..k] == rows[..k];
  }

  /** The single-row insert of one company. */
  method InsertRow(db: Store.Store, row: Company, reject: Company -> Option<string>, success0: nat, errors0: seq<InsertError>)
    returns (success: nat, errors: seq<InsertError>)
    requires db.Valid()
    modifies db
    ensures db.Valid()
    ensures InsertState(db.companies, db.order, success, errors) == InsertOne(InsertState(old(db.companies), old(db.order), success0, errors0), row, reject)
    ensures db.imports == old(db.imports) && db.nextImportId == old(db.nextImportId) && db.logs == old(db.logs)
  {
    var fault := InsertFault(db.companies, row, reject);
    if fault.Some? {
      success, errors := success0, errors0 + [InsertError(row.companyHash, fault.value)];
    } else {
      db.Insert(row);
      success, errors := success0 + 1, errors0;
    }
  }

  /** A refused batch falls back to one insert per company. */
  method InsertSingly(db: Store.Store, rows: seq<Company>, reject: Company -> Option<string>, success0: nat, errors0: seq<InsertError>)
    returns (success: nat, errors: seq<InsertError>)
    requires db.Valid()
    modifies db
    ensures db.Valid()
    ensures InsertState(db.companies, db.order, success, errors) == InsertEach(InsertState(old(db.companies), old(db.order), success0, errors0), rows, reject)
    ensures db.imports == old(db.imports) && db.nextImportId == old(db.nextImportId) && db.logs == old(db.logs)
  {
    ghost var st0 := InsertState(db.companies, db.order, success0, errors0);
    success, errors := success0, errors0;
    var k := 0;
    while k < |rows|
      invariant 0 <= k <= |rows|
      invariant db.Valid()
      invariant InsertState(db.companies, db.order, success, errors) == InsertEach(st0, rows[..k], reject)
      invariant db.imports == old(db.imports) && db.nextImportId == old(db.nextImportId) && db.logs == old(db.logs)
    {
      InsertEachStep(st0, rows, k, reject);
      success, errors := InsertRow(db, rows[k], reject, success, errors);
      k := k + 1;
    }
    assert rows[..k] == rows;
  }

  /** Before row `k` of an accepted batch is added, its hash is not stored. */
  lemma AcceptedRowIsNew(st0: InsertState, rows: seq<Company>, k: nat, reject: Company -> Option<string>)
    requires k < |rows|
    requires !BatchRefused(st0.companies, rows, reject)
    ensures rows[k].companyHash !in AddAll(st0, rows[..k]).companies
  {
    AddAllKeys(st0, rows[..k]);
    AcceptedRows(st0.companies, rows, k, reject);
  }

  /** An accepted batch: every row is added. */
  method InsertBatchRows(db: Store.Store, rows: seq<Company>, reject: Company -> Option<string>, success0: nat, errors0: seq<InsertError>)
    returns (success: nat, errors: seq<InsertError>)
    requires db.Valid()
    requires !BatchRefused(db.companies, rows, reject)
    modifies db
    ensures db.Valid()
    ensures InsertState(db.companies, db.order, success, errors) == AddAll(InsertState(old(db.companies), old(db.order), success0, errors0), rows)
    ensures db.imports == old(db.imports) && db.nextImportId == old(db.nextImportId) && db.logs == old(db.logs)
  {
    ghost var st0 := InsertState(db.companies, db.order, success0, errors0);
    success, errors := success0, errors0;
    var k := 0;
    while k < |rows|
      invariant 0 <= k <= |rows|
      invariant db.Valid()
      invariant InsertState(db.companies, db.order, success, errors) == AddAll(st0, rows[..k])
      invariant db.imports == old(db.imports) && db.nextImportId == old(db.nextImportId) && db.logs == old(db.logs)
    {
      AddAllStep(st0, rows, k);
      AcceptedRowIsNew(st0, rows, k, reject);
      db.Insert(rows[k]);
      success := success + 1;
      k := k + 1;
    }
    assert rows[..k] == rows;
  }

  lemma InsertUpToStep(st: InsertState, batches: seq<seq<Company>>, b: nat, reject: Company -> Option<string>)
    requires b < |batches|
    ensures InsertUpTo(st, batches, b + 1, reject) == InsertBatch(InsertUpTo(st, batches, b, reject), batches[b], reject)
  {
  }

  /** One batch of `insertCompanies`. */
  method InsertOneBatch(db: Store.Store, rows: seq<Company>, reject: Company -> Option<string>, success0: nat, errors0: seq<InsertError>)
    returns (success: nat, errors: seq<InsertError>)
    requires db.Valid()
    modifies db
    ensures db.Valid()
    ensures InsertState(db.companies, db.order, success, errors) == InsertBatch(InsertState(old(db.companies), old(db.order), success0, errors0), rows, reject)
    ensures db.imports == old(db.imports) && db.nextImportId == old(db.nextImportId) && db.logs == old(db.logs)
  {
    if BatchRefused(db.companies, rows, reject) {
      success, errors := InsertSingly(db, rows, reject, success0, errors0);
    } else {
      success, errors := InsertBatchRows(db, rows, reject, success0, errors0);
    }
  }

  /** Batch `b` of `insertCompanies`: the slice of 100 rows from `i`. */
  method InsertBatchAt(db: Store.Store, rows: seq<Company>, i: nat, reject: Company -> Option<string>, success0: nat, errors0: seq<InsertError>,
    ghost st0: InsertState, ghost batches: seq<seq<Company>>, ghost b: nat)
    returns (success: nat, errors: seq<InsertError>)
    requires db.Valid()
    requires batches == Chunks(rows, InsertBatchSize) && b < |batches| && i == b * InsertBatchSize
    requires InsertState(db.companies, db.order, success0, errors0) == InsertUpTo(st0, batches, b, reject)
    modifies db
    ensures db.Valid()
    ensures InsertState(db.companies, db.order, success, errors) == InsertUpTo(st0, batches, b + 1, reject)
    ensures db.imports == old(db.imports) && db.nextImportId == old(db.nextImportId) && db.logs == old(db.logs)
  {
    ChunkAt(rows, InsertBatchSize, b);
    var insertData := rows[i..Min(i + InsertBatchSize, |rows|)];
    InsertUpToStep(st0, batches, b, reject);
    success, errors := InsertOneBatch(db, insertData, reject, success0, errors0);
  }

  /** The loop of `insertCompanies` over consecutive slices of 100 rows. */
  method InsertBatches(db: Store.Store, rows: seq<Company>, reject: Company -> Option<string>, ghost batches: seq<seq<Company>>)
    returns (success: nat, errors: seq<InsertError>)
    requires db.Valid()
    requires batches == Chunks(rows, InsertBatchSize)
    modifies db
    ensures db.Valid()
    ensures InsertState(db.companies, db.order, success, errors) == InsertUpTo(InsertState(old(db.companies), old(db.order), 0, []), batches, |batches|, reject)
    ensures db.imports == old(db.imports) && db.nextImportId == old(db.nextImportId) && db.logs == old(db.logs)
  {
    ghost var st0 := InsertState(db.companies, db.order, 0, []);
    success, errors := 0, [];
    var b := 0;
    var i := 0;
    while i < |rows|
      invariant 0 <= b <= |batches| && i == b * InsertBatchSize
      invariant db.Valid()
      invariant InsertState(db.companies, db.order, success, errors) == InsertUpTo(st0, batches, b, reject)
      invariant db.imports == old(db.imports) && db.nextImportId == old(db.nextImportId) && db.logs == old(db.logs)
    {
      ChunkCount(rows, InsertBatchSize, b);
      success, errors := InsertBatchAt(db, rows, i, reject, success, errors, st0, batches, b);
      b := b + 1;
      i := i + InsertBatchSize;
    }
    ChunkCount(rows, InsertBatchSize, b);
  }

  /** `insertCompanies`: batches of 100, each inserted whole when the
      database accepts it, else one company at a time.  The rows are built
      once for all companies; building them batch by batch gives the same
      slices. */
  method InsertCompanies(db: Store.Store, companies: seq<ProcessedCompany>, reject: Company -> Option<string>)
    returns (success: nat, errors: seq<InsertError>)
    requires db.Valid()
    modifies db
    ensures db.Valid()
    ensures InsertState(db.companies, db.order, success, errors) == InsertAll(InsertState(old(db.companies), old(db.order), 0, []), companies, reject)
    ensures success + |errors| == |companies|
    ensures db.imports == old(db.imports) && db.nextImportId == old(db.nextImportId) && db.logs == old(db.logs)
  {
    InsertAccounts(db.companies, db.order, companies, reject);
    if |companies| == 0 {
      return 0, [];
    }
    var rows := InsertData(companies);
    success, errors := InsertBatches(db, rows, reject, Chunks(rows, InsertBatchSize));
  }

  // ---------------------------------------------------------------------
  // createImport, updateImportStats, runImport

  /** `createImport`: a new import record with zero counts and status
      pending, or the failure message. */
  method CreateImport(db: Store.Store, filename: string, rowCount: nat, mappings: seq<ColumnMapping>, fault: Option<string>)
    returns (r: Result<ImportId>)
    requires db.Valid()
    modifies db
    ensures db.Valid()
    ensures fault.Some? ==> r == Err("Failed to create import: " + fault.value) && db.imports == old(db.imports)
    ensures fault.None? ==>
      r.Ok? && r.value == old(db.nextImportId) && r.value !in old(db.imports)
      && db.imports == old(db.imports)[r.value := ImportRecord(filename, rowCount, 0, 0, ImportPending, mappings)]
    ensures db.companies == old(db.companies) && db.order == old(db.order) && db.logs == old(db.logs)
  {
    if fault.Some? {
      return Err("Failed to create import: " + fault.value);
    }
    var id := db.CreateImportRecord(ImportRecord(filename, rowCount, 0, 0, ImportPending, mappings));
    return Ok(id);
  }

  /** The partial update `updateImportStats` sends: absent keys stay. */
  datatype ImportStats = ImportStats(processedCount: Option<nat>, skippedCount: Option<nat>, status: Option<ImportStatus>)

  function ApplyStats(rec: ImportRecord, stats: ImportStats): (r: ImportRecord)
    ensures r.filename == rec.filename && r.rowCount == rec.rowCount && r.mappingConfig == rec.mappingConfig
    ensures r.processedCount == (if stats.processedCount.Some? then stats.processedCount.value else rec.processedCount)
    ensures r.skippedCount == (if stats.skippedCount.Some? then stats.skippedCount.value else rec.skippedCount)
    ensures r.status == (if stats.status.Some? then stats.status.value else rec.status)
  {
    rec.(processedCount := if stats.processedCount.Some? then stats.processedCount.value else rec.processedCount,
         skippedCount := if stats.skippedCount.Some? then stats.skippedCount.value else rec.skippedCount,
         status := if stats.status.Some? then stats.status.value else rec.status)
  }

  /** An update with no keys changes nothing. */
  lemma ApplyNoStats(rec: ImportRecord)
    ensures ApplyStats(rec, ImportStats(None, None, None)) == rec
  {
  }

  /** `updateImportStats`; an unknown id matches no row. */
  method UpdateImportStats(db: Store.Store, id: ImportId, stats: ImportStats)
    requires db.Valid()
    modifies db
    ensures db.Valid()
    ensures db.imports == if id in old(db.imports) then old(db.imports)[id := ApplyStats(old(db.imports)[id], stats)] else old(db.imports)
    ensures db.companies == old(db.companies) && db.order == old(db.order) && db.logs == old(db.logs)
  {
    if id in db.imports {
      db.SetImport(id, ApplyStats(db.imports[id], stats));
    }
  }

  datatype RowError = RowError(row: nat, error: string)

  datatype ImportResult = ImportResult(importId: ImportId, totalRows: nat, processedCount: nat, skippedCount: nat,
    errorCount: nat, errors: seq<RowError>)

  /** The reported errors; `row` is the position in the error list. */
  function RowErrors(errors: seq<InsertError>): (r: seq<RowError>)
    ensures |r| == |errors| && forall i :: 0 <= i < |r| ==> r[i] == RowError(i, errors[i].error)
  {
    seq(|errors|, i requires 0 <= i < |errors| => RowError(i, errors[i].error))
  }

  /** The stored hashes the duplicate lookup returns; a failed lookup
      returns nothing. */
  function ExistingHashes(companies: map<string, Company>, processed: seq<ProcessedCompany>, lookupFails: bool): (hs: set<string>)
    ensures hs <= companies.Keys
    ensures !lookupFails ==> forall i :: 0 <= i < |processed| ==> (processed[i].companyHash in hs <==> processed[i].companyHash in companies)
  {
    if lookupFails then {} else HashesOf(processed) * companies.Keys
  }

  /** Status of an import that ran to the end. */
  function FinalStatus(errorCount: nat): ImportStatus {
    if errorCount > 0 then CompletedWithErrors else Completed
  }

  /** Every named row is inserted, skipped as a duplicate, or reported as
      an error; rows without a name are in none of the three. */
  lemma ImportAccounts(companies: map<string, Company>, order: seq<string>, rows: seq<RawRow>, mappings: seq<ColumnMapping>,
    importId: ImportId, parse: Domain.UrlParser, digest: string -> Hash.Digest, lookupFails: bool, reject: Company -> Option<string>)
    ensures
      var processed := ProcessAll(MappedRows(rows, mappings), importId, parse, digest);
      var split := Partition(processed, ExistingHashes(companies, processed, lookupFails));
      var ins := InsertAll(InsertState(companies, order, 0, []), split.added, reject);
      ins.success + |ins.errors| + |split.duplicates| == |MappedRows(rows, mappings)| <= |rows|
  {
    var processed := ProcessAll(MappedRows(rows, mappings), importId, parse, digest);
    var split := Partition(processed, ExistingHashes(companies, processed, lookupFails));
    InsertAccounts(companies, order, split.added, reject);
  }

  /** Statistics written over a record just created leave the record
      with those statistics in place of the initial ones. */
  lemma RecordStats(imports: map<ImportId, ImportRecord>, id: ImportId, rec: ImportRecord, stats: ImportStats)
    ensures imports[id := rec][id := ApplyStats(rec, stats)] == imports[id := ApplyStats(rec, stats)]
  {
  }

  /** An exception raised inside the try block of `runImport`, by where it
      arises: while hashing or creating the client of the duplicate lookup,
      when creating the client of the insert, or when creating the client
      of the closing statistics update. */
  datatype Thrown = NoThrow | BeforeLookup(msg: string) | AtInsert(msg: string) | AtStats(msg: string)

  /** Whether `thrown` actually escapes: the insert's client is created
      only when there is something to insert. */
  predicate Escapes(thrown: Thrown, added: seq<ProcessedCompany>) {
    thrown.BeforeLookup? || thrown.AtStats? || (thrown.AtInsert? && added != [])
  }

  /** What `runImport` returns and leaves once its record is created under
      `id`. */
  datatype Imported = Imported(result: Result<ImportResult>, companies: map<string, Company>, order: seq<string>,
    imports: map<ImportId, ImportRecord>)

  /** The outcome of `runImport` after the record `id` is created: an
      exception that escapes is returned with the record marked `failed`
      and the rows inserted only when the closing update threw; otherwise
      the counts, which the record then holds. */
  function ImportOutcome(companies: map<string, Company>, order: seq<string>, imports: map<ImportId, ImportRecord>, id: ImportId,
    rows: seq<RawRow>, mappings: seq<ColumnMapping>, filename: string, thrown: Thrown, lookupFails: bool,
    parse: Domain.UrlParser, digest: string -> Hash.Digest, reject: Company -> Option<string>)
    : (o: Imported)
    ensures o.imports.Keys == imports.Keys + {id}
    ensures o.imports[id].filename == filename && o.imports[id].rowCount == |rows| && o.imports[id].mappingConfig == mappings
    ensures o.result.Ok? ==> o.result.value.importId == id && o.imports[id].status == FinalStatus(o.result.value.errorCount)
    ensures o.result.Err? ==> !thrown.NoThrow? && o.result.msg == thrown.msg && o.imports[id].status == ImportFailed
    ensures thrown.NoThrow? ==> o.result.Ok?
  {
    var processed := ProcessAll(MappedRows(rows, mappings), id, parse, digest);
    var split := Partition(processed, ExistingHashes(companies, processed, lookupFails));
    var ins := InsertAll(InsertState(companies, order, 0, []), split.added, reject);
    if Escapes(thrown, split.added) then
      Imported(Err(thrown.msg), if thrown.AtStats? then ins.companies else companies, if thrown.AtStats? then ins.order else order,
        imports[id := ImportRecord(filename, |rows|, 0, 0, ImportFailed, mappings)])
    else
      Imported(Ok(ImportResult(id, |rows|, ins.success, |split.duplicates|, |ins.errors|, RowErrors(ins.errors))),
        ins.companies, ins.order,
        imports[id := ImportRecord(filename, |rows|, ins.success, |split.duplicates|, FinalStatus(|ins.errors|), mappings)])
  }

  /** `runImport`: create the import record, map, process, split off the
      duplicates, insert the rest, and record the counts; an exception
      inside the try block marks the import `failed` and is rethrown. */
  method RunImport(db: Store.Store, rows: seq<RawRow>, mappings: seq<ColumnMapping>, filename: string,
    createFault: Option<string>, thrown: Thrown, lookupFails: bool, parse: Domain.UrlParser, digest: string -> Hash.Digest,
    reject: Company -> Option<string>)
    returns (r: Result<ImportResult>)
    requires db.Valid()
    modifies db
    ensures db.Valid()
    ensures createFault.Some? ==>
      r == Err("Failed to create import: " + createFault.value) && db.companies == old(db.companies) && db.imports == old(db.imports)
    ensures createFault.None? ==> old(db.nextImportId) !in old(db.imports)
    ensures createFault.None? ==>
      var o := ImportOutcome(old(db.companies), old(db.order), old(db.imports), old(db.nextImportId), rows, mappings, filename,
        thrown, lookupFails, parse, digest, reject);
      r == o.result && db.companies == o.companies && db.order == o.order && db.imports == o.imports
    ensures r.Ok? ==> r.value.processedCount + r.value.skippedCount + r.value.errorCount == |MappedRows(rows, mappings)|
    ensures db.logs == old(db.logs)
  {
    var created := CreateImport(db, filename, |rows|, mappings, createFault);
    if created.Err? {
      return Err(created.msg);
    }
    var id := created.value;
    ghost var companies0, order0, imports0 := db.companies, db.order, db.imports;
    ghost var rec0 := ImportRecord(filename, |rows|, 0, 0, ImportPending, mappings);
    assert imports0 == old(db.imports)[id := rec0];
    var mapped := ApplyMapping(rows, mappings);
    var processed := ProcessCompanies(mapped, id, parse, digest);
    if thrown.BeforeLookup? {
      UpdateImportStats(db, id, ImportStats(None, None, Some(ImportFailed)));
      RecordStats(old(db.imports), id, rec0, ImportStats(None, None, Some(ImportFailed)));
      return Err(thrown.msg);
    }
    var existing := ExistingHashes(db.companies, processed, lookupFails);
    var added, duplicates := DeduplicateCompanies(processed, existing);
    if thrown.AtInsert? && added != [] {
      UpdateImportStats(db, id, ImportStats(None, None, Some(ImportFailed)));
      RecordStats(old(db.imports), id, rec0, ImportStats(None, None, Some(ImportFailed)));
      return Err(thrown.msg);
    }
    var success, errors := InsertCompanies(db, added, reject);
    if thrown.AtStats? {
      UpdateImportStats(db, id, ImportStats(None, None, Some(ImportFailed)));
      RecordStats(old(db.imports), id, rec0, ImportStats(None, None, Some(ImportFailed)));
      return Err(thrown.msg);
    }
    var stats := ImportStats(Some(success), Some(|duplicates|), Some(FinalStatus(|errors|)));
    UpdateImportStats(db, id, stats);
    RecordStats(old(db.imports), id, rec0, stats);
    ImportAccounts(companies0, order0, rows, mappings, id, parse, digest, lookupFails, reject);
    return Ok(ImportResult(id, |rows|, success, |duplicates|, |errors|, RowErrors(errors)));
  }
}

=== FILE: import_route.dfy ===
/** `POST /api/imports` (`src/app/api/imports/route.ts`): three guard checks
    on the request body, in order, before the import engine runs; anything
    thrown becomes a 500 response carrying its message. */
module ImportRoute {
  import opened Wrappers
  import opened Model
  import Store
  import Import
  import Domain
  import Hash

  const NoDataMessage: string := "No data provided"
  const NoMappingsMessage: string := "No column mappings provided"
  const NameRequiredMessage: string := "Name column mapping is required"
  const DefaultFilename: string := "unnamed.csv"

  /** A JSON body field that should hold an array: missing or null, some
      other JSON value, or an array. */
  datatype Payload<T> = Absent | NotAList | List(items: seq<T>)

  /** The parsed request body. */
  datatype Body = Body(data: Payload<RawRow>, mappings: Payload<ColumnMapping>, filename: Option<string>)

  datatype ResponseBody = ErrorBody(error: string) | ImportBody(result: Import.ImportResult)

  datatype Response = Response(status: nat, body: ResponseBody)

  /** `!x || !Array.isArray(x) || x.length === 0` fails. */
  predicate NonEmptyList<T>(p: Payload<T>) {
    p.List? && |p.items| > 0
  }

  /** `mappings.some(m => m.targetColumn === 'name')`. */
  predicate HasNameMapping(ms: seq<ColumnMapping>) {
    exists j :: 0 <= j < |ms| && ms[j].targetColumn == "name"
  }

  /** The message of the first guard that rejects the body, if any. */
  function Precheck(body: Body): (r: Option<string>)
    ensures r.None? <==> NonEmptyList(body.data) && NonEmptyList(body.mappings) && HasNameMapping(body.mappings.items)
    ensures r == Some(NoDataMessage) <==> !NonEmptyList(body.data)
    ensures r == Some(NoMappingsMessage) <==> NonEmptyList(body.data) && !NonEmptyList(body.mappings)
    ensures r == Some(NameRequiredMessage) <==>
      NonEmptyList(body.data) && NonEmptyList(body.mappings) && !HasNameMapping(body.mappings.items)
  {
    if !NonEmptyList(body.data) then Some(NoDataMessage)
    else if !NonEmptyList(body.mappings) then Some(NoMappingsMessage)
    else if !HasNameMapping(body.mappings.items) then Some(NameRequiredMessage)
    else None
  }

  /** `filename || 'unnamed.csv'`. */
  function FilenameOr(filename: Option<string>): (r: string)
    ensures r != ""
    ensures filename.Some? && filename.value != "" ==> r == filename.value
  {
    if filename.Some? && filename.value != "" then filename.value else DefaultFilename
  }

  /** Without a mapping onto `name` every row would be dropped by
      `applyMapping`: the third guard turns that into an error. */
  lemma {:induction false} NoNameMappingDropsAll(rows: seq<RawRow>, ms: seq<ColumnMapping>)
    requires !HasNameMapping(ms)
    ensures Import.MappedRows(rows, ms) == []
  {
    if rows != [] {
      var n := |rows| - 1;
      NoNameMappingDropsAll(rows[..n], ms);
      var xs := Import.MapRows(rows, ms);
      assert xs[..|xs| - 1] == Import.MapRows(rows[..n], ms);
      assert "name" !in Import.FilledTargets(rows[n], ms);
      assert !Import.HasName(xs[|xs| - 1]);
    }
  }

  /** `POST`: `body` is what `request.json()` yields (or the error it
      throws); the other parameters are those of the import engine. */
  method Post(db: Store.Store, body: Result<Body>, createFault: Option<string>, thrown: Import.Thrown, lookupFails: bool, parse: Domain.UrlParser,
    digest: string -> Hash.Digest, reject: Company -> Option<string>)
    returns (resp: Response)
    requires db.Valid()
    modifies db
    ensures db.Valid()
    ensures body.Err? ==> resp == Response(500, ErrorBody(body.msg))
    ensures body.Ok? && Precheck(body.value).Some? ==> resp == Response(400, ErrorBody(Precheck(body.value).value))
    ensures body.Err? || Precheck(body.value).Some? ==> db.companies == old(db.companies) && db.imports == old(db.imports)
    ensures body.Ok? && Precheck(body.value).None? && createFault.Some? ==>
      resp == Response(500, ErrorBody("Failed to create import: " + createFault.value))
    ensures body.Ok? && Precheck(body.value).None? && createFault.None? ==>
      var id := old(db.nextImportId);
      id !in old(db.imports) && id in db.imports
      && db.imports[id].filename == FilenameOr(body.value.filename)
      && db.imports[id].rowCount == |body.value.data.items|
      && db.imports[id].mappingConfig == body.value.mappings.items
      && (resp.status == 200 ==> resp.body.ImportBody? && resp.body.result.importId == id)

      && (resp.status != 200 ==>
            !thrown.NoThrow? && resp == Response(500, ErrorBody(thrown.msg)) && db.imports[id].status == ImportFailed)
    ensures body.Ok? && Precheck(body.value).None? && createFault.None? ==>
      var o := Import.ImportOutcome(old(db.companies), old(db.order), old(db.imports), old(db.nextImportId), body.value.data.items,
        body.value.mappings.items, FilenameOr(body.value.filename), thrown, lookupFails, parse, digest, reject);
      db.companies == o.companies && db.order == o.order && db.imports == o.imports
      && resp == (if o.result.Ok? then Response(200, ImportBody(o.result.value)) else Response(500, ErrorBody(o.result.msg)))
    ensures body.Ok? && Precheck(body.value).None? && createFault.None? && thrown.NoThrow? ==> resp.status == 200
    ensures body.Ok? && Precheck(body.value).None? && createFault.None? && (thrown.BeforeLookup? || thrown.AtStats?) ==>
      resp == Response(500, ErrorBody(thrown.msg))
  {
    if body.Err? {
      return Response(500, ErrorBody(body.msg));
    }
    var guard := Precheck(body.value);
    if guard.Some? {
      return Response(400, ErrorBody(guard.value));
    }
    var result := Import.RunImport(db, body.value.data.items, body.value.mappings.items, FilenameOr(body.value.filename),
      createFault, thrown, lookupFails, parse, digest, reject);
    match result
    case Err(msg) => resp := Response(500, ErrorBody(msg));
    case Ok(res) => resp := Response(200, ImportBody(res));
  }
}

=== FILE: llm_enrichment.dfy ===
/** The archived LLM enrichment loader (`loaders/llm_enrichment.py`): company
    rows are taken in chunks; a web-search model fills a missing address or
    description in place, a structured-output model reformats the chunk
    (asking again, for one company, when it returns an empty name), and the
    answers are merged back into the rows by company id before the chunk is
    written to the warehouse. */
module LlmEnrichment {
  import opened Wrappers

  /** The default number of companies per chunk. */
  const ChunkSize: nat := 25

  /** The message of the `IndexError` raised when a retry returns no company. */
  const IndexErrorMessage: string := "list index out of range"

  /** The value of a STRING column in a queried row: Python `None` or a `str`. */
  type Field = Option<string>

  /** A row as a Python dict from column name to value. */
  type Entries = map<string, Field>

  /** Python truthiness of a column value: `None` and `""` are falsy. */
  predicate Truthy(v: Field) {
    v.Some? && v.value != ""
  }

  /** The columns the loader reads from every queried row. */
  predicate Queried(m: Entries) {
    "company_id" in m && "company_name" in m && "domain" in m && "country" in m && "address" in m
    && "description" in m
  }

  /** A company row: the dict that every step updates in place. */
  class CompanyDict {
    var entries: Entries
  }

  /** No dict occurs twice: the query builds a fresh dict per row. */
  predicate Distinct(cs: seq<CompanyDict>) {
    forall i, j :: 0 <= i < j < |cs| ==> cs[i] != cs[j]
  }

  /** The current contents of the dicts, in order. */
  function EntriesOf(cs: seq<CompanyDict>): (ms: seq<Entries>)
    reads set c | c in cs
    ensures |ms| == |cs|
    ensures forall i :: 0 <= i < |cs| ==> ms[i] == cs[i].entries
  {
    if cs == [] then [] else [cs[0].entries] + EntriesOf(cs[1..])
  }

  /** `m` grew into `n`, and only the columns of `touched` may have new values. */
  predicate Untouched(m: Entries, n: Entries, touched: set<string>) {
    forall k :: k in m ==> k in n && (k !in touched ==> n[k] == m[k])
  }

  // ---------------------------------------------------------------- search

  /** `get_chat_response(prompt, search_domain_filter=...)`: the answer's
      content, or the error it raises once its own retries are spent. */
  type Chat = (string, Option<seq<string>>) -> Result<string>

  /** `template.format(**fields)`. */
  type Format = (string, Entries) -> string

  /** `[domain] if domain else None`. */
  function DomainFilter(domain: Field): (r: Option<seq<string>>)
    ensures r.Some? <==> Truthy(domain)
    ensures r.Some? ==> r.value == [domain.value]
  {
    if Truthy(domain) then Some([domain.value]) else None
  }

  function AddressPrompt(m: Entries, format: Format, template: string): string
    requires Queried(m)
  {
    format(template, map["company_name" := m["company_name"], "domain" := m["domain"], "country" := m["country"]])
  }

  function DescriptionPrompt(m: Entries, format: Format, template: string): string
    requires Queried(m)
  {
    format(template, map["company_name" := m["company_name"], "domain" := m["domain"]])
  }

  /** The row after the address step: asked for only when the address is falsy. */
  function AskAddress(m: Entries, chat: Chat, format: Format, template: string): Result<Entries>
    requires Queried(m)
  {
    if Truthy(m["address"]) then Ok(m)
    else
      match chat(AddressPrompt(m, format, template), DomainFilter(m["domain"]))
      case Err(e) => Err(e)
      case Ok(a) => Ok(m["address" := Some(a)])
  }

  /** The row after the description step: asked for only when the
      description is falsy. */
  function AskDescription(m: Entries, chat: Chat, format: Format, template: string): Result<Entries>
    requires Queried(m)
  {
    if Truthy(m["description"]) then Ok(m)
    else
      match chat(DescriptionPrompt(m, format, template), DomainFilter(m["domain"]))
      case Err(e) => Err(e)
      case Ok(d) => Ok(m["description" := Some(d)])
  }

  /** What one company's retrieval leaves in its dict, and the error it
      raised, if any. */
  datatype Outcome = Outcome(entries: Entries, error: Option<string>)

  /** `retrieve_company_address_and_description` on a row. */
  function Retrieved(m: Entries, chat: Chat, format: Format, addressTemplate: string, descriptionTemplate: string)
    : (o: Outcome)
    requires Queried(m)
    ensures Queried(o.entries)
  {
    match AskAddress(m, chat, format, addressTemplate)
    case Err(e) => Outcome(m, Some(e))
    case Ok(m1) =>
      match AskDescription(m1, chat, format, descriptionTemplate)
      case Err(e) => Outcome(m1, Some(e))
      case Ok(m2) => Outcome(m2, None)
  }

  /** A populated address or description is never asked for nor changed,
      nothing but those two columns changes, and an asked-for column holds
      the search answer to the prompt built from the row, filtered to its
      domain. */
  lemma RetrievedFillsMissing(m: Entries, chat: Chat, format: Format, addressTemplate: string,
    descriptionTemplate: string)
    requires Queried(m)
    ensures var o := Retrieved(m, chat, format, addressTemplate, descriptionTemplate);
      o.entries.Keys == m.Keys
      && Untouched(m, o.entries, {"address", "description"})
      && (Truthy(m["address"]) ==> o.entries["address"] == m["address"])
      && (Truthy(m["description"]) ==> o.entries["description"] == m["description"])
    ensures var o := Retrieved(m, chat, format, addressTemplate, descriptionTemplate);
      !Truthy(m["address"]) && o.entries["address"] != m["address"] ==>
      var answer := chat(AddressPrompt(m, format, addressTemplate), DomainFilter(m["domain"]));
      answer.Ok? && o.entries["address"] == Some(answer.value)
    ensures var o := Retrieved(m, chat, format, addressTemplate, descriptionTemplate);
      !Truthy(m["description"]) && o.error.None? ==>
      var answer := chat(DescriptionPrompt(m, format, descriptionTemplate), DomainFilter(m["domain"]));
      answer.Ok? && o.entries["description"] == Some(answer.value)
  {
  }

  /** A row whose address and description are both populated is left as it
      is and costs no search; so a retrieval that filled both with non-empty
      answers is settled. */
  lemma RetrievedIdle(m: Entries, chat: Chat, format: Format, addressTemplate: string, descriptionTemplate: string)
    requires Queried(m)
    ensures Truthy(m["address"]) && Truthy(m["description"]) ==>
      Retrieved(m, chat, format, addressTemplate, descriptionTemplate) == Outcome(m, None)
    ensures var o := Retrieved(m, chat, format, addressTemplate, descriptionTemplate);
      o.error.None? && Truthy(o.entries["address"]) && Truthy(o.entries["description"]) ==>
      Retrieved(o.entries, chat, format, addressTemplate, descriptionTemplate) == o
  {
  }

  /** `retrieve_company_address_and_description`: the dict is updated in
      place and the same dict is returned; a raised search error leaves the
      steps before it applied. */
  method RetrieveCompany(company: CompanyDict, chat: Chat, format: Format, addressTemplate: string,
    descriptionTemplate: string)
    returns (r: Result<CompanyDict>)
    requires Queried(company.entries)
    modifies company
    ensures company.entries == Retrieved(old(company.entries), chat, format, addressTemplate, descriptionTemplate).entries
    ensures r.Ok? <==> Retrieved(old(company.entries), chat, format, addressTemplate, descriptionTemplate).error.None?
    ensures r.Ok? ==> r.value == company
    ensures r.Err? ==> Retrieved(old(company.entries), chat, format, addressTemplate, descriptionTemplate).error == Some(r.msg)
  {
    var domain := company.entries["domain"];
    if !Truthy(company.entries["address"]) {
      var answer := chat(AddressPrompt(company.entries, format, addressTemplate), DomainFilter(domain));
      if answer.Err? {
        return Err(answer.msg);
      }
      company.entries := company.entries["address" := Some(answer.value)];
    }
    if !Truthy(company.entries["description"]) {
      var answer := chat(DescriptionPrompt(company.entries, format, descriptionTemplate), DomainFilter(domain));
      if answer.Err? {
        return Err(answer.msg);
      }
      company.entries := company.entries["description" := Some(answer.value)];
    }
    return Ok(company);
  }

  /** `retrieve_missing_addresses_and_descriptions`: every company of the
      chunk is submitted, so every one is attempted; the call fails when any
      of them failed, and otherwise hands back the same dicts. */
  method RetrieveMissing(companies: seq<CompanyDict>, chat: Chat, format: Format, addressTemplate: string,
    descriptionTemplate: string)
    returns (r: Result<seq<CompanyDict>>)
    requires Distinct(companies)
    requires forall k :: 0 <= k < |companies| ==> Queried(companies[k].entries)
    modifies set c | c in companies
    ensures forall k :: 0 <= k < |companies| ==>
      companies[k].entries == Retrieved(old(companies[k].entries), chat, format, addressTemplate, descriptionTemplate).entries
    ensures r.Ok? <==> forall k :: 0 <= k < |companies| ==>
      Retrieved(old(companies[k].entries), chat, format, addressTemplate, descriptionTemplate).error.None?
    ensures r.Ok? ==> r.value == companies
    ensures r.Err? ==> exists k :: (0 <= k < |companies| &&
      Retrieved(old(companies[k].entries), chat, format, addressTemplate, descriptionTemplate).error == Some(r.msg))
  {
    var failure: Option<string> := None;
    var i := 0;
    while i < |companies|
      invariant 0 <= i <= |companies|
      invariant forall k :: 0 <= k < i ==>
        companies[k].entries == Retrieved(old(companies[k].entries), chat, format, addressTemplate, descriptionTemplate).entries
      invariant forall k :: i <= k < |companies| ==> companies[k].entries == old(companies[k].entries)
      invariant failure.None? <==> forall k :: 0 <= k < i ==>
        Retrieved(old(companies[k].entries), chat, format, addressTemplate, descriptionTemplate).error.None?
      invariant failure.Some? ==> exists k :: (0 <= k < i &&
        Retrieved(old(companies[k].entries), chat, format, addressTemplate, descriptionTemplate).error == failure)
    {
      var done := RetrieveCompany(companies[i], chat, format, addressTemplate, descriptionTemplate);
      if done.Err? && failure.None? {
        failure := Some(done.msg);
      }
      i := i + 1;
    }
    if failure.Some? {
      return Err(failure.value);
    }
    return Ok(companies);
  }

  // -------------------------------------------------------------- reformat

  /** One entry of the reformatting prompt's input list. */
  datatype InputCompany = InputCompany(companyId: Field, name: Field, address: Field, description: Field)

  /** One company of the structured answer (`CompanyArray.Company`). */
  datatype Enriched = Enriched(
    companyId: string,
    formattedName: string,
    formattedAddress: string,
    companyType: string,
    description: string)

  /** `get_structured_response` for the enrichment prompt filled with these
      companies: the answer's companies, or the error it raises. */
  type Structured = seq<InputCompany> -> Result<seq<Enriched>>

  /** The `{company_id, name, address, description}` entry of a row. */
  function Project(m: Entries): InputCompany
    requires Queried(m)
  {
    InputCompany(m["company_id"], m["company_name"], m["address"], m["description"])
  }

  /** `input_companies`: one entry per row, in order. */
  function Inputs(ms: seq<Entries>): seq<InputCompany>
    requires forall i :: 0 <= i < |ms| ==> Queried(ms[i])
  {
    seq(|ms|, i requires 0 <= i < |ms| && Queried(ms[i]) => Project(ms[i]))
  }

  /** `retry_input`: the entries of the input list that carry this id, in
      order. */
  function RetryInput(input: seq<InputCompany>, id: string): (r: seq<InputCompany>)
    ensures forall c :: c in r <==> c in input && c.companyId == Some(id)
    ensures |r| <= |input|
  {
    if input == [] then []
    else (if input[0].companyId == Some(id) then [input[0]] else []) + RetryInput(input[1..], id)
  }

  /** What one row of the answer becomes: itself when it has a name;
      otherwise the first company of a retry with only its own input
      entries, and an `IndexError` when that retry returns none. */
  function Settled(e: Enriched, input: seq<InputCompany>, llm: Structured): (r: Result<Enriched>)
    ensures e.formattedName != "" ==> r == Ok(e)
    ensures e.formattedName == "" ==>
      var retry := llm(RetryInput(input, e.companyId));
      (r.Ok? <==> retry.Ok? && |retry.value| > 0)
      && (r.Ok? ==> r.value == retry.value[0])
      && (retry.Err? ==> r == Err(retry.msg))
      && (retry == Ok([]) ==> r == Err(IndexErrorMessage))
  {
    if e.formattedName != "" then Ok(e)
    else
      match llm(RetryInput(input, e.companyId))
      case Err(msg) => Err(msg)
      case Ok(cs) => if |cs| == 0 then Err(IndexErrorMessage) else Ok(cs[0])
  }

  /** The reformatting of these rows raises nothing: the structured answer
      comes back and every nameless row's retry returns a company. */
  predicate Reformats(ms: seq<Entries>, llm: Structured)
    requires forall i :: 0 <= i < |ms| ==> Queried(ms[i])
  {
    var answer := llm(Inputs(ms));
    answer.Ok? && forall i :: 0 <= i < |answer.value| ==> Settled(answer.value[i], Inputs(ms), llm).Ok?
  }

  /** The rows a reformatting that raises nothing returns. */
  function Answers(ms: seq<Entries>, llm: Structured): (es: seq<Enriched>)
    requires forall i :: 0 <= i < |ms| ==> Queried(ms[i])
    requires Reformats(ms, llm)
    ensures |es| == |llm(Inputs(ms)).value|
    ensures forall i :: 0 <= i < |es| ==> Settled(llm(Inputs(ms)).value[i], Inputs(ms), llm) == Ok(es[i])
  {
    var rows := llm(Inputs(ms)).value;
    seq(|rows|, i requires 0 <= i < |rows| => Settled(rows[i], Inputs(ms), llm).value)
  }

  /** `reformat_and_enrich_companies`: the answer's rows in order, one
      output per row, a nameless row replaced by its retry; the first
      failing row's error is raised. */
  method ReformatAndEnrich(companies: seq<Entries>, llm: Structured) returns (r: Result<seq<Enriched>>)
    requires forall i :: 0 <= i < |companies| ==> Queried(companies[i])
    ensures llm(Inputs(companies)).Err? ==> r == Err(llm(Inputs(companies)).msg)
    ensures r.Ok? ==>
      var rows := llm(Inputs(companies)).value;
      llm(Inputs(companies)).Ok? && |r.value| == |rows|
      && forall i :: 0 <= i < |rows| ==> Settled(rows[i], Inputs(companies), llm) == Ok(r.value[i])
    ensures r.Err? && llm(Inputs(companies)).Ok? ==>
      var rows := llm(Inputs(companies)).value;
      exists i :: (0 <= i < |rows| && Settled(rows[i], Inputs(companies), llm) == Err(r.msg)
        && forall j :: 0 <= j < i ==> Settled(rows[j], Inputs(companies), llm).Ok?)
    ensures r.Ok? <==> Reformats(companies, llm)
    ensures r.Ok? ==> r.value == Answers(companies, llm)
  {
    var input := Inputs(companies);
    var response := llm(input);
    if response.Err? {
      return Err(response.msg);
    }
    var rows := response.value;
    var enriched: seq<Enriched> := [];
    var i := 0;
    while i < |rows|
      invariant 0 <= i <= |rows|
      invariant |enriched| == i
      invariant forall j :: 0 <= j < i ==> Settled(rows[j], input, llm) == Ok(enriched[j])
    {
      var row := rows[i];
      if row.formattedName == "" {
        var retry := llm(RetryInput(input, row.companyId));
        if retry.Err? {
          return Err(retry.msg);
        }
        if |retry.value| == 0 {
          return Err(IndexErrorMessage);
        }
        row := retry.value[0];
      }
      enriched := enriched + [row];
      i := i + 1;
    }
    return Ok(enriched);
  }

  // ----------------------------------------------------------------- merge

  /** The keys of `model_dump()` of an answer row. */
  const EnrichedKeys: set<string> :=
    {"company_id", "formatted_company_name", "formatted_address", "determined_company_type1", "enriched_description"}

  /** `model_dump()` of an answer row. */
  function Fields(e: Enriched): (f: Entries)
    ensures f.Keys == EnrichedKeys
    ensures f["company_id"] == Some(e.companyId)
  {
    map["company_id" := Some(e.companyId), "formatted_company_name" := Some(e.formattedName),
        "formatted_address" := Some(e.formattedAddress), "determined_company_type1" := Some(e.companyType),
        "enriched_description" := Some(e.description)]
  }

  /** `company_row["company_id"] == enriched_row["company_id"]`. */
  predicate Matches(m: Entries, e: Enriched) {
    "company_id" in m && m["company_id"] == Some(e.companyId)
  }

  /** The row after the merge loop has gone over `es`: each answer row with
      the row's id overwrites every one of its keys. */
  function Merged(m: Entries, es: seq<Enriched>): Entries
    decreases |es|
  {
    if es == [] then m
    else
      var p := Merged(m, es[..|es| - 1]);
      if Matches(p, es[|es| - 1]) then p + Fields(es[|es| - 1]) else p
  }

  /** The merge keeps the row's id, adds no column beyond the answer's, and
      gives new values to the answer's columns only. */
  lemma {:induction false} MergedKeeps(m: Entries, es: seq<Enriched>)
    ensures "company_id" in m ==> "company_id" in Merged(m, es) && Merged(m, es)["company_id"] == m["company_id"]
    ensures Untouched(m, Merged(m, es), EnrichedKeys)
    ensures Merged(m, es).Keys <= m.Keys + EnrichedKeys
    decreases |es|
  {
    if es != [] {
      MergedKeeps(m, es[..|es| - 1]);
    }
  }

  /** The position of the last answer row whose id is the row's. */
  function LastMatch(m: Entries, es: seq<Enriched>): (j: Option<nat>)
    ensures j.None? <==> forall k :: 0 <= k < |es| ==> !Matches(m, es[k])
    ensures j.Some? ==> (j.value < |es| && Matches(m, es[j.value])
      && forall k :: j.value < k < |es| ==> !Matches(m, es[k]))
    decreases |es|
  {
    if es == [] then None
    else if Matches(m, es[|es| - 1]) then Some(|es| - 1)
    else LastMatch(m, es[..|es| - 1])
  }

  /** Answer rows all carry the same keys, so a later match hides an
      earlier one entirely. */
  lemma FieldsShadow(m: Entries, a: Enriched, b: Enriched)
    ensures m + Fields(a) + Fields(b) == m + Fields(b)
  {
    assert (m + Fields(a) + Fields(b)).Keys == (m + Fields(b)).Keys;
  }

  /** The merge leaves a row with no matching answer row as it was, and
      otherwise gives it exactly the fields of the last matching one. */
  lemma {:induction false} MergedIsLastMatch(m: Entries, es: seq<Enriched>)
    requires "company_id" in m
    ensures LastMatch(m, es).None? ==> Merged(m, es) == m
    ensures LastMatch(m, es).Some? ==> Merged(m, es) == m + Fields(es[LastMatch(m, es).value])
    decreases |es|
  {
    if es != [] {
      var n := |es| - 1;
      var front := es[..n];
      MergedIsLastMatch(m, front);
      MergedKeeps(m, front);
      var p := Merged(m, front);
      assert Matches(p, es[n]) <==> Matches(m, es[n]);
      if Matches(m, es[n]) {
        if LastMatch(m, front).Some? {
          FieldsShadow(m, front[LastMatch(m, front).value], es[n]);
        }
      } else {
        assert LastMatch(m, es) == LastMatch(m, front);
        if LastMatch(m, front).Some? {
          assert es[LastMatch(m, es).value] == front[LastMatch(m, front).value];
        }
      }
    }
  }

  /** The inner merge loops for one row. */
  method MergeRow(row: CompanyDict, enriched: seq<Enriched>)
    requires "company_id" in row.entries
    modifies row
    ensures row.entries == Merged(old(row.entries), enriched)
  {
    var j := 0;
    while j < |enriched|
      invariant 0 <= j <= |enriched|
      invariant row.entries == Merged(old(row.entries), enriched[..j])
    {
      assert enriched[..j + 1][..j] == enriched[..j];
      MergedKeeps(old(row.entries), enriched[..j]);
      if row.entries["company_id"] == Some(enriched[j].companyId) {
        row.entries := row.entries + Fields(enriched[j]);
      }
      j := j + 1;
    }
    assert enriched[..j] == enriched;
  }

  /** The merge loop of `process_enrichment` over one chunk. */
  method MergeEnriched(chunk: seq<CompanyDict>, enriched: seq<Enriched>)
    requires Distinct(chunk)
    requires forall k :: 0 <= k < |chunk| ==> "company_id" in chunk[k].entries
    modifies set c | c in chunk
    ensures forall k :: 0 <= k < |chunk| ==> chunk[k].entries == Merged(old(chunk[k].entries), enriched)
  {
    var i := 0;
    while i < |chunk|
      invariant 0 <= i <= |chunk|
      invariant forall k :: 0 <= k < i ==> chunk[k].entries == Merged(old(chunk[k].entries), enriched)
      invariant forall k :: i <= k < |chunk| ==> chunk[k].entries == old(chunk[k].entries)
    {
      MergeRow(chunk[i], enriched);
      i := i + 1;
    }
  }

  // --------------------------------------------------------------- process

  /** The search and structured-output services with the prompt templates. */
  datatype Services = Services(chat: Chat, format: Format, addressTemplate: string, descriptionTemplate: string,
    llm: Structured)

  predicate AllQueried(ms: seq<Entries>) {
    forall i :: 0 <= i < |ms| ==> Queried(ms[i])
  }

  /** The rows after the search step. */
  function RetrievedAll(ms: seq<Entries>, s: Services): (rs: seq<Entries>)
    requires AllQueried(ms)
    ensures |rs| == |ms| && AllQueried(rs)
    ensures forall i :: 0 <= i < |ms| ==>
      rs[i] == Retrieved(ms[i], s.chat, s.format, s.addressTemplate, s.descriptionTemplate).entries
  {
    seq(|ms|, i requires 0 <= i < |ms| && Queried(ms[i]) =>
      Retrieved(ms[i], s.chat, s.format, s.addressTemplate, s.descriptionTemplate).entries)
  }

  /** No company's retrieval raises. */
  predicate SearchSucceeds(ms: seq<Entries>, s: Services)
    requires AllQueried(ms)
  {
    forall i :: 0 <= i < |ms| ==> Retrieved(ms[i], s.chat, s.format, s.addressTemplate, s.descriptionTemplate).error.None?
  }

  /** A chunk goes through: its search step and then its reformatting raise
      nothing. */
  predicate ChunkSucceeds(ms: seq<Entries>, s: Services)
    requires AllQueried(ms)
  {
    SearchSucceeds(ms, s) && Reformats(RetrievedAll(ms, s), s.llm)
  }

  /** The rows of a chunk that went through, as they are written: each row
      after the search step, merged with the answers of the reformatting. */
  function ChunkRows(ms: seq<Entries>, s: Services): (rows: seq<Entries>)
    requires AllQueried(ms) && ChunkSucceeds(ms, s)
    ensures |rows| == |ms|
    ensures forall k :: 0 <= k < |ms| ==> rows[k] == Merged(RetrievedAll(ms, s)[k], Answers(RetrievedAll(ms, s), s.llm))
  {
    var rs := RetrievedAll(ms, s);
    var es := Answers(rs, s.llm);
    seq(|ms|, k requires 0 <= k < |ms| => Merged(rs[k], es))
  }

  /** The columns a chunk may give new values to. */
  const Touched: set<string> := {"address", "description"} + EnrichedKeys

  /** A written row is its queried row with new values in the searched and
      answered columns only; in particular it keeps its company id. */
  lemma ChunkRowsFrom(ms: seq<Entries>, s: Services)
    requires AllQueried(ms) && ChunkSucceeds(ms, s)
    ensures forall k :: 0 <= k < |ms| ==>
      Untouched(ms[k], ChunkRows(ms, s)[k], Touched) && ChunkRows(ms, s)[k]["company_id"] == ms[k]["company_id"]
  {
    var rs := RetrievedAll(ms, s);
    var es := Answers(rs, s.llm);
    forall k | 0 <= k < |ms|
      ensures Untouched(ms[k], ChunkRows(ms, s)[k], Touched) && ChunkRows(ms, s)[k]["company_id"] == ms[k]["company_id"]
    {
      RetrievedFillsMissing(ms[k], s.chat, s.format, s.addressTemplate, s.descriptionTemplate);
      MergedKeeps(rs[k], es);
    }
  }

  /** Every chunk of `ms`, `size` rows at a time, goes through. */
  predicate ChunksSucceed(ms: seq<Entries>, size: nat, s: Services)
    requires size > 0 && AllQueried(ms)
    decreases |ms|
  {
    var k := if size <= |ms| then size else |ms|;
    ms == [] || (ChunkSucceeds(ms[..k], s) && ChunksSucceed(ms[k..], size, s))
  }

  /** The rows written when every chunk goes through, chunk after chunk. */
  function ChunksRows(ms: seq<Entries>, size: nat, s: Services): (rows: seq<Entries>)
    requires size > 0 && AllQueried(ms) && ChunksSucceed(ms, size, s)
    decreases |ms|
  {
    var k := if size <= |ms| then size else |ms|;
    if ms == [] then [] else ChunkRows(ms[..k], s) + ChunksRows(ms[k..], size, s)
  }

  /** One row is written per queried row, each its queried row with new
      values in the searched and answered columns only. */
  lemma {:induction false} ChunksRowsFrom(ms: seq<Entries>, size: nat, s: Services)
    requires size > 0 && AllQueried(ms) && ChunksSucceed(ms, size, s)
    ensures |ChunksRows(ms, size, s)| == |ms|
    ensures forall k :: 0 <= k < |ms| ==>
      Untouched(ms[k], ChunksRows(ms, size, s)[k], Touched) && ChunksRows(ms, size, s)[k]["company_id"] == ms[k]["company_id"]
    decreases |ms|
  {
    if ms != [] {
      var n := if size <= |ms| then size else |ms|;
      ChunkRowsFrom(ms[..n], s);
      ChunksRowsFrom(ms[n..], size, s);
      var rows := ChunksRows(ms, size, s);
      assert rows == ChunkRows(ms[..n], s) + ChunksRows(ms[n..], size, s);
      forall k | 0 <= k < |ms|
        ensures Untouched(ms[k], rows[k], Touched) && rows[k]["company_id"] == ms[k]["company_id"]
      {
        if k < n {
          assert rows[k] == ChunkRows(ms[..n], s)[k] && ms[..n][k] == ms[k];
        } else {
          assert rows[k] == ChunksRows(ms[n..], size, s)[k - n] && ms[n..][k - n] == ms[k];
        }
      }
    }
  }

  /** The search step of a chunk. */
  method SearchChunk(chunk: seq<CompanyDict>, chat: Chat, format: Format, addressTemplate: string,
    descriptionTemplate: string)
    returns (error: Option<string>)
    requires Distinct(chunk)
    requires forall k :: 0 <= k < |chunk| ==> Queried(chunk[k].entries)
    modifies set c | c in chunk
    ensures forall k :: 0 <= k < |chunk| ==>
      chunk[k].entries == Retrieved(old(chunk[k].entries), chat, format, addressTemplate, descriptionTemplate).entries
    ensures error.None? <==> forall k :: 0 <= k < |chunk| ==>
      Retrieved(old(chunk[k].entries), chat, format, addressTemplate, descriptionTemplate).error.None?
    ensures error.Some? ==> exists k :: (0 <= k < |chunk| &&
      Retrieved(old(chunk[k].entries), chat, format, addressTemplate, descriptionTemplate).error == error)
  {
    var retrieved := RetrieveMissing(chunk, chat, format, addressTemplate, descriptionTemplate);
    error := if retrieved.Err? then Some(retrieved.msg) else None;
  }

  /** The reformatting and merge steps of a chunk; the answer rows are
      returned. */
  method EnrichChunk(chunk: seq<CompanyDict>, llm: Structured) returns (error: Option<string>, enriched: seq<Enriched>)
    requires Distinct(chunk)
    requires forall k :: 0 <= k < |chunk| ==> Queried(chunk[k].entries)
    modifies set c | c in chunk
    ensures error.None? <==> Reformats(old(EntriesOf(chunk)), llm)
    ensures error.None? ==> enriched == Answers(old(EntriesOf(chunk)), llm)
    ensures error.None? ==> forall k :: 0 <= k < |chunk| ==> chunk[k].entries == Merged(old(chunk[k].entries), enriched)
    ensures error.Some? ==> forall k :: 0 <= k < |chunk| ==> chunk[k].entries == old(chunk[k].entries)
  {
    enriched := [];
    var answer := ReformatAndEnrich(EntriesOf(chunk), llm);
    if answer.Err? {
      return Some(answer.msg), [];
    }
    enriched := answer.value;
    MergeEnriched(chunk, enriched);
    error := None;
  }

  /** The search, reformatting and merge steps of a chunk: the chunk raises
      exactly when its search or its reformatting raises, and otherwise its
      rows are the rows `ChunkRows` describes. */
  method ChunkSteps(chunk: seq<CompanyDict>, chat: Chat, format: Format, addressTemplate: string,
    descriptionTemplate: string, llm: Structured)
    returns (error: Option<string>, enriched: seq<Enriched>)
    requires Distinct(chunk)
    requires forall k :: 0 <= k < |chunk| ==> Queried(chunk[k].entries)
    modifies set c | c in chunk
    ensures AllQueried(old(EntriesOf(chunk)))
    ensures error.None? <==>
      ChunkSucceeds(old(EntriesOf(chunk)), Services(chat, format, addressTemplate, descriptionTemplate, llm))
    ensures error.None? ==>
      var s := Services(chat, format, addressTemplate, descriptionTemplate, llm);
      enriched == Answers(RetrievedAll(old(EntriesOf(chunk)), s), llm)
      && EntriesOf(chunk) == ChunkRows(old(EntriesOf(chunk)), s)
    ensures error.None? ==> forall k :: 0 <= k < |chunk| ==>
      chunk[k].entries == Merged(Retrieved(old(chunk[k].entries), chat, format, addressTemplate, descriptionTemplate).entries, enriched)
  {
    ghost var s := Services(chat, format, addressTemplate, descriptionTemplate, llm);
    ghost var before := EntriesOf(chunk);
    enriched := [];
    error := SearchChunk(chunk, chat, format, addressTemplate, descriptionTemplate);
    assert error.None? <==> SearchSucceeds(before, s);
    if error.None? {
      ghost var middle := EntriesOf(chunk);
      assert middle == RetrievedAll(before, s);
      error, enriched := EnrichChunk(chunk, llm);
      if error.None? {
        assert EntriesOf(chunk) == ChunkRows(before, s);
      }
    }
  }

  /** One chunk of `process_enrichment`, the rows `lo` to `hi` of
      `companies`: missing fields are filled, the chunk is reformatted, and
      the answers are merged into the rows by company id, which the call
      returns with the chunk's rows as they are written. The chunk raises
      exactly when its search or its reformatting raises. The other rows
      are left alone. */
  method ProcessChunk(companies: seq<CompanyDict>, lo: nat, hi: nat, chat: Chat, format: Format,
    addressTemplate: string, descriptionTemplate: string, llm: Structured, ghost ms: seq<Entries>)
    returns (error: Option<string>, enriched: seq<Enriched>, rows: seq<Entries>)
    requires lo <= hi <= |companies| && hi <= |ms|
    requires Distinct(companies)
    requires forall k :: lo <= k < hi ==> companies[k].entries == ms[k] && Queried(ms[k])
    modifies set c | c in companies[lo..hi]
    ensures AllQueried(ms[lo..hi])
    ensures error.None? <==> ChunkSucceeds(ms[lo..hi], Services(chat, format, addressTemplate, descriptionTemplate, llm))
    ensures error.None? ==>
      var s := Services(chat, format, addressTemplate, descriptionTemplate, llm);
      enriched == Answers(RetrievedAll(ms[lo..hi], s), llm) && rows == ChunkRows(ms[lo..hi], s)
    ensures error.None? ==> forall k :: lo <= k < hi ==>
      companies[k].entries
      == Merged(Retrieved(old(companies[k].entries), chat, format, addressTemplate, descriptionTemplate).entries, enriched)
    ensures forall k :: 0 <= k < |companies| && !(lo <= k < hi) ==> companies[k].entries == old(companies[k].entries)
    ensures |rows| == hi - lo
    ensures forall k :: lo <= k < hi ==> rows[k - lo] == companies[k].entries
  {
    var chunk := companies[lo..hi];
    forall k | 0 <= k < |companies| && !(lo <= k < hi)
      ensures companies[k] !in chunk
    {
      forall j | 0 <= j < |chunk|
        ensures chunk[j] != companies[k]
      {
        assert chunk[j] == companies[lo + j];
      }
    }
    assert forall j :: 0 <= j < |chunk| ==> chunk[j] == companies[lo + j];
    assert EntriesOf(chunk) == ms[lo..hi];
    error, enriched := ChunkSteps(chunk, chat, format, addressTemplate, descriptionTemplate, llm);
    if error.None? {
      forall k | lo <= k < hi
        ensures companies[k].entries
          == Merged(Retrieved(old(companies[k].entries), chat, format, addressTemplate, descriptionTemplate).entries,
                    enriched)
      {
        assert chunk[k - lo] == companies[k];
      }
    }
    rows := EntriesOf(chunk);
    forall k | lo <= k < hi
      ensures rows[k - lo] == companies[k].entries
    {
      assert chunk[k - lo] == companies[k];
    }
  }

  /** The chunks from row `i` on are the chunk from `i` to `hi` followed by
      the chunks from `hi` on. */
  lemma ChunksStep(ms: seq<Entries>, i: nat, hi: nat, size: nat, s: Services)
    requires size > 0 && i < hi <= |ms| && AllQueried(ms)
    requires hi == if i + size <= |ms| then i + size else |ms|
    ensures AllQueried(ms[i..]) && AllQueried(ms[i..hi]) && AllQueried(ms[hi..])
    ensures ChunksSucceed(ms[i..], size, s) <==> ChunkSucceeds(ms[i..hi], s) && ChunksSucceed(ms[hi..], size, s)
    ensures ChunksSucceed(ms[i..], size, s) ==>
      ChunksRows(ms[i..], size, s) == ChunkRows(ms[i..hi], s) + ChunksRows(ms[hi..], size, s)
  {
    var t := ms[i..];
    var k := if size <= |t| then size else |t|;
    assert t[..k] == ms[i..hi];
    assert t[k..] == ms[hi..];
  }

  /** Once the chunk from `i` to `hi` went through, what was to be written
      from `i` on is its rows followed by what is to be written from `hi` on. */
  lemma ChunksAdvance(ms: seq<Entries>, i: nat, hi: nat, size: nat, s: Services, written: seq<Entries>, rows: seq<Entries>)
    requires size > 0 && i < hi <= |ms| && AllQueried(ms)
    requires hi == if i + size <= |ms| then i + size else |ms|
    requires AllQueried(ms[i..hi]) && ChunkSucceeds(ms[i..hi], s) && rows == ChunkRows(ms[i..hi], s)
    requires ChunksSucceed(ms, size, s) <==> ChunksSucceed(ms[i..], size, s)
    requires ChunksSucceed(ms, size, s) ==> ChunksRows(ms, size, s) == written + ChunksRows(ms[i..], size, s)
    ensures ChunksSucceed(ms, size, s) <==> ChunksSucceed(ms[hi..], size, s)
    ensures ChunksSucceed(ms, size, s) ==> ChunksRows(ms, size, s) == (written + rows) + ChunksRows(ms[hi..], size, s)
  {
    ChunksStep(ms, i, hi, size, s);
  }

  /** One turn of the chunk loop of `process_enrichment`: the chunk from
      `i` to `hi` is processed, and `written` followed by its rows is what
      is to be written up to `hi`. */
  method ChunkTurn(companies: seq<CompanyDict>, i: nat, hi: nat, chat: Chat, format: Format,
    addressTemplate: string, descriptionTemplate: string, llm: Structured, written: seq<Entries>,
    ghost ms: seq<Entries>, ghost size: nat)
    returns (error: Option<string>, rows: seq<Entries>)
    requires size > 0 && i < hi <= |companies| == |ms| && AllQueried(ms)
    requires hi == if i + size <= |ms| then i + size else |ms|
    requires Distinct(companies)
    requires forall k :: i <= k < |companies| ==> companies[k].entries == ms[k]
    requires |written| == i && forall k :: 0 <= k < i ==> written[k] == companies[k].entries
    requires var s := Services(chat, format, addressTemplate, descriptionTemplate, llm);
      (ChunksSucceed(ms, size, s) <==> ChunksSucceed(ms[i..], size, s))
      && (ChunksSucceed(ms, size, s) ==> ChunksRows(ms, size, s) == written + ChunksRows(ms[i..], size, s))
    modifies set c | c in companies[i..hi]
    ensures var s := Services(chat, format, addressTemplate, descriptionTemplate, llm);
      error.Some? ==> !ChunksSucceed(ms, size, s)
    ensures var s := Services(chat, format, addressTemplate, descriptionTemplate, llm);
      error.None? ==>
        (ChunksSucceed(ms, size, s) <==> ChunksSucceed(ms[hi..], size, s))
        && (ChunksSucceed(ms, size, s) ==> ChunksRows(ms, size, s) == (written + rows) + ChunksRows(ms[hi..], size, s))
    ensures |written + rows| == hi && forall k :: 0 <= k < hi ==> (written + rows)[k] == companies[k].entries
    ensures forall k :: 0 <= k < |companies| && !(i <= k < hi) ==> companies[k].entries == old(companies[k].entries)
  {
    ghost var s := Services(chat, format, addressTemplate, descriptionTemplate, llm);
    var enriched;
    error, enriched, rows := ProcessChunk(companies, i, hi, chat, format, addressTemplate, descriptionTemplate, llm, ms);
    if error.Some? {
      ChunksStep(ms, i, hi, size, s);
    } else {
      ChunksAdvance(ms, i, hi, size, s, written, rows);
    }
    forall k | 0 <= k < hi
      ensures (written + rows)[k] == companies[k].entries
    {
      if k >= i {
        assert (written + rows)[k] == rows[k - i];
      }
    }
  }

  /** `process_enrichment` after the query: `companies` are the rows to
      process and `tableExists` whether the processed table already exists.
      Returns the error raised (if any), the rows written to the table in
      order, the final `processed_count`, and the row the table schema was
      taken from when the table had to be created.  `chunkSize` defaults to
      `ChunkSize`. */
  method ProcessEnrichment(companies: seq<CompanyDict>, tableExists: bool, chat: Chat, format: Format,
    addressTemplate: string, descriptionTemplate: string, llm: Structured, chunkSize: nat := ChunkSize)
    returns (error: Option<string>, written: seq<Entries>, processed: nat, schemaRow: Option<Entries>)
    requires chunkSize > 0
    requires Distinct(companies)
    requires forall k :: 0 <= k < |companies| ==> Queried(companies[k].entries)
    modifies set c | c in companies
    ensures |written| <= processed <= |companies|
    ensures forall k :: 0 <= k < |written| ==> written[k] == companies[k].entries
    ensures error.None? ==> processed == |companies| && |written| == |companies|
    ensures AllQueried(old(EntriesOf(companies)))
    ensures error.None? <==>
      ChunksSucceed(old(EntriesOf(companies)), chunkSize, Services(chat, format, addressTemplate, descriptionTemplate, llm))
    ensures error.None? ==>
      written == ChunksRows(old(EntriesOf(companies)), chunkSize, Services(chat, format, addressTemplate, descriptionTemplate, llm))
    ensures schemaRow.Some? <==> !tableExists && |written| > 0
    ensures schemaRow.Some? ==> schemaRow.value == written[0]
  {
    ghost var s := Services(chat, format, addressTemplate, descriptionTemplate, llm);
    ghost var ms := EntriesOf(companies);
    assert AllQueried(ms);
    error, written, processed, schemaRow := None, [], 0, None;
    if |companies| == 0 {
      assert ms == [];
      return;
    }
    assert ms[0..] == ms;
    var created := tableExists;
    var i := 0;
    while i < |companies|
      invariant 0 <= i <= |companies| && processed == i && |written| == i && error.None?
      invariant forall k :: 0 <= k < i ==> written[k] == companies[k].entries
      invariant forall k :: i <= k < |companies| ==> companies[k].entries == ms[k]
      invariant created == (tableExists || i > 0)
      invariant schemaRow.Some? <==> !tableExists && i > 0
      invariant schemaRow.Some? ==> schemaRow.value == written[0]
      invariant ChunksSucceed(ms, chunkSize, s) <==> ChunksSucceed(ms[i..], chunkSize, s)
      invariant ChunksSucceed(ms, chunkSize, s) ==> ChunksRows(ms, chunkSize, s) == written + ChunksRows(ms[i..], chunkSize, s)
    {
      var hi := if i + chunkSize <= |companies| then i + chunkSize else |companies|;
      processed := processed + (hi - i);
      var rows;
      error, rows := ChunkTurn(companies, i, hi, chat, format, addressTemplate, descriptionTemplate, llm, written, ms, chunkSize);
      if error.Some? {
        return;
      }
      written := written + rows;
      if !created {
        schemaRow := Some(companies[i].entries);
        created := true;
      }
      i := hi;
    }
    assert ms[i..] == [];
  }
}

=== FILE: model.dfy ===
/** The entities of the supplier tool: column mappings, mapped and processed
    rows, the persisted company and import records, and the JSON view of a
    company row that the rule engine and the CSV export read by column name. */
module Model {
  import opened Wrappers
  import Strings

  /** Identifier of an import record (a database-generated key). */
  type ImportId = nat

  /** Pipeline status of a company: every value the database type declares
      plus `cleaned` and `researched`, which the stage runners write although
      the declared union lacks them. */
  datatype CompanyStatus =
    | Pending | Cleaning | Cleaned | Researching | Researched | Validating | Validated | Failed

  function StatusName(s: CompanyStatus): string {
    match s
    case Pending => "pending"
    case Cleaning => "cleaning"
    case Cleaned => "cleaned"
    case Researching => "researching"
    case Researched => "researched"
    case Validating => "validating"
    case Validated => "validated"
    case Failed => "failed"
  }

  /** Position of a status along the pipeline. */
  function Rank(s: CompanyStatus): nat {
    match s
    case Pending => 0
    case Cleaning => 1
    case Cleaned => 2
    case Researching => 3
    case Researched => 4
    case Validating => 5
    case Validated => 6
    case Failed => 6
  }

  /** The transition table of the stage runners: a status is kept, or it
      moves one stage forward along pending -> cleaned -> researched ->
      validated, and a cleaned company may skip research. */
  predicate Advances(from: CompanyStatus, to: CompanyStatus) {
    from == to
    || (from == Pending && to == Cleaned)
    || (from == Cleaned && to == Researched)
    || ((from == Cleaned || from == Researched) && to == Validated)
  }

  lemma AdvancesRaisesRank(from: CompanyStatus, to: CompanyStatus)
    requires Advances(from, to)
    ensures Rank(from) <= Rank(to)
    ensures from == Validated ==> to == Validated
  {
  }

  /** Status of an import record: every value the database type declares
      plus `completed_with_errors`, which the code writes although the
      declared union lacks it. */
  datatype ImportStatus =
    | ImportPending | Mapping | Processing | Completed | CompletedWithErrors | ImportFailed

  /** One column mapping chosen by the user. */
  datatype ColumnMapping = ColumnMapping(sourceColumn: string, targetColumn: string)

  /** A parsed CSV row: column name to cell text. A column whose cell is
      `null` or `undefined` is absent from the map. */
  type RawRow = map<string, string>

  /** A coerced field of a mapped row. */
  datatype FieldValue = Text(s: string) | Items(xs: seq<string>) | Flag(b: bool)

  /** The record `applyMapping` builds: target column to coerced value. */
  type MappedCompany = map<string, FieldValue>

  /** `company.<key>` read as a string field of a mapped row. */
  function TextField(m: MappedCompany, key: string): Option<string> {
    if key in m && m[key].Text? then Some(m[key].s) else None
  }

  /** A mapped row plus the fields `processCompanies` derives. */
  datatype ProcessedCompany = ProcessedCompany(
    fields: MappedCompany,
    companyHash: string,
    domain: Option<string>,
    validatedEmail: Option<string>,
    status: CompanyStatus,
    importId: ImportId)

  /** A row of the `companies` table (system timestamps left out). */
  datatype Company = Company(
    companyHash: string,
    externalId: Option<string>,
    name: string,
    formattedName: Option<string>,
    website: Option<string>,
    domain: Option<string>,
    email: Option<string>,
    phone: Option<string>,
    address: Option<string>,
    formattedAddress: Option<string>,
    countryCode: Option<string>,
    countryName: Option<string>,
    description: Option<string>,
    enrichedDescription: Option<string>,
    companyType: Option<string>,
    categories: Option<seq<string>>,
    tags: Option<seq<string>>,
    certifications: Option<seq<string>>,
    productionTypes: Option<seq<string>>,
    acceptsStartups: Option<bool>,
    status: CompanyStatus,
    importId: ImportId,
    enrichmentSources: Option<seq<string>>)

  /** A row of the `imports` table. */
  datatype ImportRecord = ImportRecord(
    filename: string,
    rowCount: nat,
    processedCount: nat,
    skippedCount: nat,
    status: ImportStatus,
    mappingConfig: seq<ColumnMapping>)

  /** One violated column rule. */
  datatype ValidationError = ValidationError(column: string, rule: string, message: string)

  /** A row of `processing_logs` as the validate step writes it. */
  datatype LogEntry = LogEntry(companyHash: string, importId: ImportId, step: string, errors: seq<ValidationError>)

  /** A column value as the database client returns it in JSON. */
  datatype Value = Null | Str(s: string) | Bool(b: bool) | Arr(items: seq<string>)

  /** JavaScript truthiness of a column value (`undefined` is `None`). */
  predicate Truthy(v: Option<Value>) {
    match v
    case None => false
    case Some(Null) => false
    case Some(Str(s)) => s != ""
    case Some(Bool(b)) => b
    case Some(Arr(_)) => true
  }

  function OptStr(o: Option<string>): Value {
    if o.Some? then Str(o.value) else Null
  }

  function OptArr(o: Option<seq<string>>): Value {
    if o.Some? then Arr(o.value) else Null
  }

  /** The columns of a stored company row that the database fills in
      itself: the row key and the two timestamps. */
  datatype SystemColumns = SystemColumns(id: string, createdAt: string, updatedAt: string)

  /** The text under which an import is referred to in a company row. */
  function ImportIdText(importId: ImportId): (s: string)
    ensures s != []
  {
    Strings.NatToString(importId)
  }

  /** A company row seen as a column-name to value map (`select('*')`),
      with the database-filled columns taken from `sys`. */
  function Columns(c: Company, sys: SystemColumns): map<string, Value> {
    map[
      "id" := Str(sys.id),
      "import_id" := Str(ImportIdText(c.importId)),
      "created_at" := Str(sys.createdAt),
      "updated_at" := Str(sys.updatedAt),
      "company_hash" := Str(c.companyHash),
      "external_id" := OptStr(c.externalId),
      "name" := Str(c.name),
      "formatted_name" := OptStr(c.formattedName),
      "website" := OptStr(c.website),
      "domain" := OptStr(c.domain),
      "email" := OptStr(c.email),
      "phone" := OptStr(c.phone),
      "address" := OptStr(c.address),
      "formatted_address" := OptStr(c.formattedAddress),
      "country_code" := OptStr(c.countryCode),
      "country_name" := OptStr(c.countryName),
      "description" := OptStr(c.description),
      "enriched_description" := OptStr(c.enrichedDescription),
      "company_type" := OptStr(c.companyType),
      "categories" := OptArr(c.categories),
      "tags" := OptArr(c.tags),
      "certifications" := OptArr(c.certifications),
      "production_types" := OptArr(c.productionTypes),
      "accepts_startups" := (if c.acceptsStartups.Some? then Bool(c.acceptsStartups.value) else Null),
      "status" := Str(StatusName(c.status)),
      "enrichment_sources" := OptArr(c.enrichmentSources)
    ]
  }

  /** A row as a column-name to value map. */
  type Row = map<string, Value>

  /** `row[column]`: `None` stands for `undefined`. */
  function Lookup(row: Row, column: string): Option<Value> {
    if column in row then Some(row[column]) else None
  }

  /** What `runCleanStep` and `runResearchStep` return. */
  datatype StepResult = StepResult(processed: nat, errors: seq<string>)

  /** Prefix of the error a stage runner throws when its select fails. */
  const FetchFailedPrefix: string := "Failed to fetch companies: "
}

=== FILE: perplexity.dfy ===
/** The web-search client of `src/lib/llm/perplexity.ts`: prompt templates
    filled at the first occurrence of each placeholder, and the filters that
    turn a hedging or too-short answer into the empty string. */
module Perplexity {
  import opened Wrappers
  import opened Strings

  /** Phrases that make an address answer count as "not found". */
  const AddressHedges: seq<string> := ["couldn't find", "could not find", "unable to find", "no address", "not available"]

  /** Phrases that make a description answer count as "not found". */
  const DescriptionHedges: seq<string> :=
    ["couldn't find", "could not find", "unable to find", "no information", "not available"]

  /** A description answer shorter than this (in UTF-16 units, before
      trimming) is too short to be meaningful. */
  const MinDescriptionLength: nat := 50

  /** The chat completion: the user prompt to the first choice's content, or
      the error `callPerplexity` throws. */
  type Search = string -> Result<string>

  /** Some phrase of `phrases` occurs in `s`, ASCII letters compared
      case-insensitively. */
  predicate Hedges(s: string, phrases: seq<string>) {
    exists i :: 0 <= i < |phrases| && Contains(Lower(s), phrases[i])
  }

  /** A phrase absent from an answer stays absent once the answer is
      trimmed. */
  lemma HedgeFreeTrimmed(s: string, phrases: seq<string>)
    requires !Hedges(s, phrases)
    ensures !Hedges(Trim(s), phrases)
  {
    forall i | 0 <= i < |phrases| ensures !Contains(Lower(Trim(s)), phrases[i]) {
      AbsentFromTrimmed(s, phrases[i]);
    }
  }

  /** The address prompt: the first `{company_name}`, then the first
      `{domain}`, then the first `{country}` are replaced. */
  function AddressPrompt(template: string, name: string, domain: string, country: string): string {
    ReplaceFirst(ReplaceFirst(ReplaceFirst(template, "{company_name}", name), "{domain}", domain), "{country}", country)
  }

  /** The description prompt: the first `{company_name}`, then the first
      `{domain}` are replaced. */
  function DescriptionPrompt(template: string, name: string, domain: string): string {
    ReplaceFirst(ReplaceFirst(template, "{company_name}", name), "{domain}", domain)
  }

  /** `replace` with a plain replacement fills the first occurrence of the
      placeholder and keeps everything before and after it, later
      occurrences included. */
  lemma OnlyFirstReplaced(s: string, pat: string, rep: string)
    requires '$' !in rep && Contains(s, pat)
    ensures var i := Find(s, pat).value;
      ReplaceFirst(s, pat, rep) == s[..i] + rep + s[i + |pat|..]
      && forall j :: 0 <= j < i ==> !(pat <= s[j..])
  {
    var i := Find(s, pat).value;
    SubstitutePlain(rep, s, i, |pat|);
  }

  /** The cleaned address answer. */
  function AddressAnswer(response: string): (r: string)
    ensures r != "" ==> r == Trim(response) && !Hedges(r, AddressHedges)
    ensures r == "" <==> Hedges(response, AddressHedges) || Trim(response) == ""
  {
    if Hedges(response, AddressHedges) then ""
    else
      HedgeFreeTrimmed(response, AddressHedges);
      Trim(response)
  }

  /** The cleaned description answer. */
  function DescriptionAnswer(response: string): (r: string)
    ensures r != "" ==> r == Trim(response) && !Hedges(r, DescriptionHedges) && JsLength(response) >= MinDescriptionLength
    ensures r == "" <==> Hedges(response, DescriptionHedges) || JsLength(response) < MinDescriptionLength || Trim(response) == ""
  {
    if Hedges(response, DescriptionHedges) || JsLength(response) < MinDescriptionLength then ""
    else
      HedgeFreeTrimmed(response, DescriptionHedges);
      Trim(response)
  }

  /** Cleaning an address answer twice changes nothing more. */
  lemma AddressAnswerIdempotent(response: string)
    ensures AddressAnswer(AddressAnswer(response)) == AddressAnswer(response)
  {
    var r := AddressAnswer(response);
    if r != "" {
      TrimOfTrimmed(r);
    }
  }

  /** Cleaning a description answer twice changes nothing more, unless
      trimming brought it below the length bound: the bound applies to the
      untrimmed answer. */
  lemma DescriptionAnswerIdempotent(response: string)
    requires JsLength(Trim(response)) >= MinDescriptionLength
    ensures DescriptionAnswer(DescriptionAnswer(response)) == DescriptionAnswer(response)
  {
    var r := DescriptionAnswer(response);
    if r != "" {
      TrimOfTrimmed(r);
    }
  }

  /** `researchCompanyAddress`: a thrown search error propagates; otherwise
      the answer is cleaned. */
  function ResearchCompanyAddress(name: string, domain: string, country: string, template: string, search: Search)
    : (r: Result<string>)
    ensures r.Err? <==> search(AddressPrompt(template, name, domain, country)).Err?
    ensures r.Err? ==> r.msg == search(AddressPrompt(template, name, domain, country)).msg
    ensures r.Ok? ==> r.value == AddressAnswer(search(AddressPrompt(template, name, domain, country)).value)
    ensures r.Ok? && r.value != "" ==> !Hedges(r.value, AddressHedges) && IsTrimmed(r.value)
  {
    match search(AddressPrompt(template, name, domain, country))
    case Err(msg) => Err(msg)
    case Ok(response) => Ok(AddressAnswer(response))
  }

  /** `researchCompanyDescription`: a thrown search error propagates;
      otherwise the answer is cleaned. */
  function ResearchCompanyDescription(name: string, domain: string, template: string, search: Search): (r: Result<string>)
    ensures r.Err? <==> search(DescriptionPrompt(template, name, domain)).Err?
    ensures r.Err? ==> r.msg == search(DescriptionPrompt(template, name, domain)).msg
    ensures r.Ok? ==> r.value == DescriptionAnswer(search(DescriptionPrompt(template, name, domain)).value)
    ensures r.Ok? && r.value != "" ==>
      !Hedges(r.value, DescriptionHedges) && IsTrimmed(r.value)
      && JsLength(search(DescriptionPrompt(template, name, domain)).value) >= MinDescriptionLength
  {
    match search(DescriptionPrompt(template, name, domain))
    case Err(msg) => Err(msg)
    case Ok(response) => Ok(DescriptionAnswer(response))
  }
}

=== FILE: research.dfy ===
/** The RESEARCH step: every cleaned company of an import that still lacks
    a formatted address or an enriched description is looked up with the
    Perplexity web search, restricted to the company's own domain.  An
    answer that is too short or says that nothing was found is discarded;
    accepted answers and their citations are written back and the company
    moves from `cleaned` to `researched`.  The prompt table, the API token,
    the search service and the database's update outcomes are parameters. */
module Research {
  import opened Wrappers
  import opened Strings
  import opened Model
  import Store
  import Perplexity

  const NoResearchMessage: string := "No companies need research"
  const MissingTokenMessage: string := "PERPLEXITY_TOKEN not configured"
  const ApiErrorPrefix: string := "Perplexity API error: "
  const UnknownErrorMessage: string := "Unknown error"
  const MinAddressLength: nat := 10
  const MinDescriptionLength: nat := 30

  /** A JavaScript-truthy optional string: present and non-empty. */
  predicate Filled(o: Option<string>) {
    o.Some? && o.value != ""
  }

  // ---------------------------------------------------------------------
  // Prompts

  datatype Prompts = Prompts(address: string, description: string)

  /** `getResearchPrompts`: each argument is the template of the active
      prompt of that step (`None` when the query fails or finds none); an
      absent or empty template falls back to the built-in default. */
  function GetResearchPrompts(address: Option<string>, description: Option<string>, defaults: Prompts): (r: Prompts)
    ensures Filled(address) ==> r.address == address.value
    ensures !Filled(address) ==> r.address == defaults.address
    ensures Filled(description) ==> r.description == description.value
    ensures !Filled(description) ==> r.description == defaults.description
  {
    Prompts(if Filled(address) then address.value else defaults.address,
            if Filled(description) then description.value else defaults.description)
  }

  /** The address prompt, filled as the search client fills it; a missing
      or empty country reads `unknown`. */
  function AddressPrompt(template: string, name: string, domain: string, country: Option<string>): string {
    Perplexity.AddressPrompt(template, name, domain, if Filled(country) then country.value else "unknown")
  }

  // ---------------------------------------------------------------------
  // The search call

  /** What the HTTP exchange yields: a rejected request (network failure
      or a body that is not JSON), a non-2xx response with its body, or a
      2xx response with the first choice's content and the citations
      (`None`: missing or null). */
  datatype ApiResponse =
    | Rejected(msg: string)
    | HttpError(body: string)
    | HttpOk(content: Option<string>, citations: Option<seq<string>>)

  /** The search service, as a function of the prompt and the optional
      `search_domain_filter` entry. */
  type Api = (string, Option<string>) -> ApiResponse

  datatype Answer = Answer(content: string, sources: seq<string>)

  /** `callPerplexity`: fails without a token or on an HTTP error, and
      otherwise returns the trimmed content and the citations.  The domain
      filter is sent only when it is non-empty. */
  function CallPerplexity(token: Option<string>, api: Api, prompt: string, domainFilter: string): (r: Result<Answer>)
    ensures !Filled(token) ==> r == Err(MissingTokenMessage)
    ensures Filled(token) && api(prompt, if domainFilter != "" then Some(domainFilter) else None).HttpError? ==>
      r == Err(ApiErrorPrefix + api(prompt, if domainFilter != "" then Some(domainFilter) else None).body)
    ensures r.Ok? <==> Filled(token) && api(prompt, if domainFilter != "" then Some(domainFilter) else None).HttpOk?
    ensures r.Ok? ==> IsTrimmed(r.value.content)
    ensures Filled(token) ==>
      var resp := api(prompt, if domainFilter != "" then Some(domainFilter) else None);
      (resp.Rejected? ==> r == Err(resp.msg))
      && (resp.HttpOk? ==>
            r == Ok(Answer(Trim(if Filled(resp.content) then resp.content.value else ""),
                           if resp.citations.Some? then resp.citations.value else [])))
  {
    if !Filled(token) then Err(MissingTokenMessage)
    else
      match api(prompt, if domainFilter != "" then Some(domainFilter) else None)
      case Rejected(msg) => Err(msg)
      case HttpError(body) => Err(ApiErrorPrefix + body)
      case HttpOk(content, citations) =>
        var text := if Filled(content) then content.value else "";
        Ok(Answer(Trim(text), if citations.Some? then citations.value else []))
  }

  // ---------------------------------------------------------------------
  // Plausibility filters

  /** An address answer is kept when it is non-empty, at least 10 UTF-16
      units long, and mentions none of the not-found phrases, compared
      lower-cased. */
  predicate AddressAccepted(content: string) {
    content != "" && JsLength(content) >= MinAddressLength
    && !Contains(Lower(content), "not found")
    && !Contains(Lower(content), "could not find")
    && !Contains(Lower(content), "no address")
  }

  /** A description answer is kept when it is at least 30 UTF-16 units long. */
  predicate DescriptionAccepted(content: string) {
    content != "" && JsLength(content) >= MinDescriptionLength
  }

  /** A researched value with the citations that came with it. */
  datatype Finding = Finding(value: Option<string>, sources: seq<string>)

  /** `researchAddress`: no domain means no call; a failed call or a
      rejected answer yields nothing, and the error goes no further. */
  function ResearchAddress(c: Company, template: string, token: Option<string>, api: Api): (r: Finding)
    ensures !Filled(c.domain) ==> r == Finding(None, [])
    ensures r.value.None? ==> r.sources == []
    ensures r.value.Some? ==> AddressAccepted(r.value.value)
  {
    if !Filled(c.domain) then Finding(None, [])
    else
      match CallPerplexity(token, api, AddressPrompt(template, c.name, c.domain.value, c.countryName), c.domain.value)
      case Err(_) => Finding(None, [])
      case Ok(answer) =>
        if AddressAccepted(answer.content) then Finding(Some(answer.content), answer.sources) else Finding(None, [])
  }

  /** An address is found exactly when the domain is set, the call succeeds
      and the answer passes the filter; it is the answer with its
      citations.  A found address is at least 10 units long and mentions no
      not-found phrase. */
  lemma ResearchAddressOutcome(c: Company, template: string, token: Option<string>, api: Api)
    ensures var r := ResearchAddress(c, template, token, api);
      (r.value.Some? <==>
        Filled(c.domain)
        && var answer := CallPerplexity(token, api, AddressPrompt(template, c.name, c.domain.value, c.countryName), c.domain.value);
        answer.Ok? && AddressAccepted(answer.value.content))
      && (r.value.Some? ==>
        var answer := CallPerplexity(token, api, AddressPrompt(template, c.name, c.domain.value, c.countryName), c.domain.value);
        r == Finding(Some(answer.value.content), answer.value.sources))
      && (r.value.Some? ==>
        JsLength(r.value.value) >= MinAddressLength
        && !Contains(Lower(r.value.value), "not found")
        && !Contains(Lower(r.value.value), "could not find")
        && !Contains(Lower(r.value.value), "no address"))
  {
  }

  /** `researchDescription`: as `researchAddress`, with the length filter only. */
  function ResearchDescription(c: Company, template: string, token: Option<string>, api: Api): (r: Finding)
    ensures !Filled(c.domain) ==> r == Finding(None, [])
    ensures r.value.None? ==> r.sources == []
    ensures r.value.Some? ==> DescriptionAccepted(r.value.value)
  {
    if !Filled(c.domain) then Finding(None, [])
    else
      match CallPerplexity(token, api, Perplexity.DescriptionPrompt(template, c.name, c.domain.value), c.domain.value)
      case Err(_) => Finding(None, [])
      case Ok(answer) =>
        if DescriptionAccepted(answer.content) then Finding(Some(answer.content), answer.sources) else Finding(None, [])
  }

  lemma ResearchDescriptionOutcome(c: Company, template: string, token: Option<string>, api: Api)
    ensures var r := ResearchDescription(c, template, token, api);
      (r.value.Some? <==>
        Filled(c.domain)
        && var answer := CallPerplexity(token, api, Perplexity.DescriptionPrompt(template, c.name, c.domain.value), c.domain.value);
        answer.Ok? && DescriptionAccepted(answer.value.content))
      && (r.value.Some? ==>
        var answer := CallPerplexity(token, api, Perplexity.DescriptionPrompt(template, c.name, c.domain.value), c.domain.value);
        r == Finding(Some(answer.value.content), answer.value.sources))
      && (r.value.Some? ==> JsLength(r.value.value) >= MinDescriptionLength)
  {
  }

  /** Without a token every search fails, so nothing is found. */
  lemma NoTokenFindsNothing(c: Company, prompts: Prompts, token: Option<string>, api: Api)
    requires !Filled(token)
    ensures ResearchAddress(c, prompts.address, token, api) == Finding(None, [])
    ensures ResearchDescription(c, prompts.description, token, api) == Finding(None, [])
  {
  }

  // ---------------------------------------------------------------------
  // One company

  /** The `updates` object and `allSources` of one company. */
  datatype Updates = Updates(address: Option<string>, description: Option<string>, sources: seq<string>)

  /** `updates` is non-empty or some source was collected. */
  predicate HasUpdates(u: Updates) {
    u.address.Some? || u.description.Some? || |u.sources| > 0
  }

  /** The research of one company: the address is looked up only when it is
      missing, the description only when it is missing, and the sources of
      each accepted answer are collected in that order. */
  function Findings(c: Company, prompts: Prompts, token: Option<string>, api: Api): (u: Updates)
    ensures Filled(c.formattedAddress) ==> u.address.None?
    ensures Filled(c.enrichedDescription) ==> u.description.None?
    ensures u.address.Some? ==> AddressAccepted(u.address.value)
    ensures u.description.Some? ==> DescriptionAccepted(u.description.value)
    ensures u.sources != [] ==> u.address.Some? || u.description.Some?
  {
    var a := if Filled(c.formattedAddress) then Finding(None, []) else ResearchAddress(c, prompts.address, token, api);
    var d := if Filled(c.enrichedDescription) then Finding(None, []) else ResearchDescription(c, prompts.description, token, api);
    Updates(a.value, d.value, a.sources + d.sources)
  }

  /** A missing field gets what its research found; the sources are those
      of the accepted answers, address first. */
  lemma FindingsOutcome(c: Company, prompts: Prompts, token: Option<string>, api: Api)
    ensures var u := Findings(c, prompts, token, api);
      var a := ResearchAddress(c, prompts.address, token, api);
      var d := ResearchDescription(c, prompts.description, token, api);
      (!Filled(c.formattedAddress) ==> u.address == a.value)
      && (!Filled(c.enrichedDescription) ==> u.description == d.value)
      && u.sources == (if u.address.Some? then a.sources else []) + (if u.description.Some? then d.sources else [])
  {
  }

  /** What `Findings` guarantees of one company's updates: populated
      fields are not researched, found values passed their filters, and
      sources come only with a found value. */
  predicate Plausible(c: Company, u: Updates) {
    (Filled(c.formattedAddress) ==> u.address.None?)
    && (Filled(c.enrichedDescription) ==> u.description.None?)
    && (u.address.Some? ==> AddressAccepted(u.address.value))
    && (u.description.Some? ==> DescriptionAccepted(u.description.value))
    && (u.sources != [] ==> u.address.Some? || u.description.Some?)
  }

  /** The research of every company, as the loop sees it. */
  type Finder = Company -> Updates

  function FinderOf(prompts: Prompts, token: Option<string>, api: Api): (find: Finder)
  {
    c => Findings(c, prompts, token, api)
  }

  /** The row the update writes: the found values, the sources when there
      are any, and status `researched`. */
  function ResearchedRow(current: Company, u: Updates): Company {
    current.(
      formattedAddress := if u.address.Some? then u.address else current.formattedAddress,
      enrichedDescription := if u.description.Some? then u.description else current.enrichedDescription,
      enrichmentSources := if |u.sources| > 0 then Some(u.sources) else current.enrichmentSources,
      status := Researched)
  }

  /** Only the researched columns and the status differ from the row before. */
  predicate KeepsOtherColumns(a: Company, b: Company) {
    b == a.(formattedAddress := b.formattedAddress, enrichedDescription := b.enrichedDescription,
      enrichmentSources := b.enrichmentSources, status := b.status)
  }

  /** Status `researched`; a found value replaces the stored one and a
      missing one keeps it; `enrichment_sources` is written only when some
      source was collected. */
  lemma ResearchedRowFields(current: Company, u: Updates)
    ensures var row := ResearchedRow(current, u);
      row.status == Researched && KeepsOtherColumns(current, row) && row.companyHash == current.companyHash
      && (u.address.Some? ==> row.formattedAddress == u.address)
      && (u.address.None? ==> row.formattedAddress == current.formattedAddress)
      && (u.description.Some? ==> row.enrichedDescription == u.description)
      && (u.description.None? ==> row.enrichedDescription == current.enrichedDescription)
      && (u.sources != [] ==> row.enrichmentSources == Some(u.sources))
      && (u.sources == [] ==> row.enrichmentSources == current.enrichmentSources)
  {
  }

  /** What the database does with one update: write it, return an error,
      or throw (`None`: a thrown value that is not an `Error`). */
  datatype UpdateOutcome = Updated | UpdateFailed(msg: string) | UpdateThrew(thrown: Option<string>)

  /** The update outcome of the database for each row written. */
  type Writer = Company -> UpdateOutcome

  datatype ResearchState = ResearchState(companies: map<string, Company>, processed: nat, errors: seq<string>)

  function ResearchFailed(name: string, msg: Option<string>): string {
    "Research failed for " + name + ": " + (if msg.Some? then msg.value else UnknownErrorMessage)
  }

  /** One iteration of the loop of `runResearchStep`, given what the
      research of `c` found.  An update error is reported only when there
      was something to write; a row that is not stored any more matches no
      row and counts as processed. */
  function ResearchOne(st: ResearchState, c: Company, u: Updates, write: Writer): (r: ResearchState)
    ensures r.companies.Keys == st.companies.Keys
    ensures r.processed + |r.errors| == st.processed + |st.errors| + 1
  {
    var h := c.companyHash;
    if h !in st.companies then st.(processed := st.processed + 1)
    else
      var row := ResearchedRow(st.companies[h], u);
      match write(row)
      case UpdateThrew(msg) => st.(errors := st.errors + [ResearchFailed(c.name, msg)])
      case UpdateFailed(msg) =>
        if HasUpdates(u) then st.(errors := st.errors + ["Failed to update " + c.name + ": " + msg])
        else st.(processed := st.processed + 1)
      case Updated => ResearchState(st.companies[h := row], st.processed + 1, st.errors)
  }

  /** The loop over the selected companies, in select order. */
  function ResearchAll(st: ResearchState, sel: seq<Company>, find: Finder, write: Writer): (r: ResearchState)
    ensures r.companies.Keys == st.companies.Keys
    ensures r.processed + |r.errors| == st.processed + |st.errors| + |sel|
  {
    if sel == [] then st
    else
      var c := sel[|sel| - 1];
      ResearchOne(ResearchAll(st, sel[..|sel| - 1], find, write), c, find(c), write)
  }

  /** The select of `runResearchStep`: this import's cleaned companies with
      a null formatted address or a null enriched description, in select
      order. */
  function ResearchSelection(rows: seq<Company>, importId: ImportId): (sel: seq<Company>)
    ensures forall c :: c in sel <==>
      c in rows && c.importId == importId && c.status == Cleaned && (c.formattedAddress.None? || c.enrichedDescription.None?)
    ensures |sel| <= |rows|
  {
    if rows == [] then []
    else
      var rest := ResearchSelection(rows[..|rows| - 1], importId);
      var c := rows[|rows| - 1];
      if c.importId == importId && c.status == Cleaned && (c.formattedAddress.None? || c.enrichedDescription.None?)
      then rest + [c] else rest
  }

  /** `runResearchStep` after a successful select. */
  function ResearchStep(companies: map<string, Company>, sel: seq<Company>, find: Finder, write: Writer): (r: ResearchState)
    ensures r.companies.Keys == companies.Keys
    ensures sel == [] ==> r == ResearchState(companies, 0, [NoResearchMessage])
    ensures sel != [] ==> r.processed + |r.errors| == |sel|
  {
    if sel == [] then ResearchState(companies, 0, [NoResearchMessage])
    else ResearchAll(ResearchState(companies, 0, []), sel, find, write)
  }

  // ---------------------------------------------------------------------
  // Only selected companies change, and only forward

  /** `sel` lists companies stored as they are in `c0`, each a cleaned
      company of the import. */
  ghost predicate Selected(c0: map<string, Company>, sel: seq<Company>, importId: ImportId) {
    forall c :: c in sel ==> c.companyHash in c0 && c0[c.companyHash] == c && c.status == Cleaned && c.importId == importId
  }

  /** `b` is `a`, or `a` was a cleaned company of the import and `b` is it
      researched: a populated address or description is kept, a changed
      one passed its filter, and sources are written only when there are
      some. */
  predicate ResearchedFrom(a: Company, b: Company, importId: ImportId) {
    b == a
    || (a.status == Cleaned && a.importId == importId && b.status == Researched && KeepsOtherColumns(a, b)
        && (Filled(a.formattedAddress) ==> b.formattedAddress == a.formattedAddress)
        && (Filled(a.enrichedDescription) ==> b.enrichedDescription == a.enrichedDescription)
        && (b.formattedAddress != a.formattedAddress ==> b.formattedAddress.Some? && AddressAccepted(b.formattedAddress.value))
        && (b.enrichedDescription != a.enrichedDescription ==>
              b.enrichedDescription.Some? && DescriptionAccepted(b.enrichedDescription.value))
        && (b.enrichmentSources != a.enrichmentSources ==> b.enrichmentSources.Some? && |b.enrichmentSources.value| > 0))
  }

  ghost predicate OnlyResearched(c0: map<string, Company>, c1: map<string, Company>, importId: ImportId) {
    forall h :: h in c0 ==> h in c1 && ResearchedFrom(c0[h], c1[h], importId)
  }

  /** One iteration keeps `ResearchedFrom` for the company stored under `h`. */
  lemma ResearchOneFrom(st: ResearchState, c: Company, u: Updates, write: Writer, h: string, a: Company, importId: ImportId)
    requires h in st.companies && ResearchedFrom(a, st.companies[h], importId)
    requires c.companyHash == h ==> c == a && a.status == Cleaned && a.importId == importId
    requires Plausible(c, u)
    ensures var r := ResearchOne(st, c, u, write);
      h in r.companies && ResearchedFrom(a, r.companies[h], importId)
  {
    var r := ResearchOne(st, c, u, write);
    if c.companyHash == h {
      var row := ResearchedRow(st.companies[h], u);
      if r.companies[h] == row {
        var b := st.companies[h];
        assert row.formattedAddress != b.formattedAddress ==> u.address.Some?;
        assert row.enrichedDescription != b.enrichedDescription ==> u.description.Some?;
      }
    }
  }

  // ---------------------------------------------------------------------
  // The step as it runs against the store

  lemma ResearchAllStep(st: ResearchState, sel: seq<Company>, k: nat, find: Finder, write: Writer)
    requires k < |sel|
    ensures ResearchAll(st, sel[..k + 1], find, write) == ResearchOne(ResearchAll(st, sel[..k], find, write), sel[k], find(sel[k]), write)
  {
    assert sel[..k + 1][..k] == sel[..k];
  }

  /** One company: write the row for what its research found. */
  method ResearchOneTo(db: Store.Store, c: Company, u: Updates, write: Writer, processed0: nat, errors0: seq<string>)
    returns (processed: nat, errors: seq<string>)
    requires db.Valid()
    modifies db
    ensures db.Valid()
    ensures ResearchState(db.companies, processed, errors) == ResearchOne(ResearchState(old(db.companies), processed0, errors0), c, u, write)
    ensures db.order == old(db.order) && db.imports == old(db.imports) && db.nextImportId == old(db.nextImportId) && db.logs == old(db.logs)
  {
    processed, errors := processed0, errors0;
    var h := c.companyHash;
    if h !in db.companies {
      processed := processed + 1;
      return;
    }
    var row := ResearchedRow(db.companies[h], u);
    match write(row)
    case UpdateThrew(msg) =>
      errors := errors + [ResearchFailed(c.name, msg)];
    case UpdateFailed(msg) =>
      if HasUpdates(u) {
        errors := errors + ["Failed to update " + c.name + ": " + msg];
      } else {
        processed := processed + 1;
      }
    case Updated =>
      db.Update(row);
      processed := processed + 1;
  }

  /** Iteration `k` of the loop: research `sel[k]` and write its row.
      Only a selected company changes, and only forward. */
  method ResearchAt(db: Store.Store, sel: seq<Company>, k: nat, prompts: Prompts, token: Option<string>, api: Api, write: Writer,
    processed0: nat, errors0: seq<string>, ghost c0: map<string, Company>, ghost importId: ImportId)
    returns (processed: nat, errors: seq<string>)
    requires db.Valid() && k < |sel|
    requires Selected(c0, sel, importId) && OnlyResearched(c0, db.companies, importId)
    modifies db
    ensures db.Valid()
    ensures ResearchState(db.companies, processed, errors)
      == ResearchOne(ResearchState(old(db.companies), processed0, errors0), sel[k], FinderOf(prompts, token, api)(sel[k]), write)
    ensures OnlyResearched(c0, db.companies, importId)
    ensures db.order == old(db.order) && db.imports == old(db.imports) && db.nextImportId == old(db.nextImportId) && db.logs == old(db.logs)
  {
    var c := sel[k];
    var u := Findings(c, prompts, token, api);
    ghost var st := ResearchState(db.companies, processed0, errors0);
    processed, errors := ResearchOneTo(db, c, u, write, processed0, errors0);
    forall h | h in c0 ensures h in db.companies && ResearchedFrom(c0[h], db.companies[h], importId) {
      ResearchOneFrom(st, c, u, write, h, c0[h], importId);
    }
  }

  /** The loop of `runResearchStep`: one company at a time, in order. */
  method ResearchCompanies(db: Store.Store, sel: seq<Company>, prompts: Prompts, token: Option<string>, api: Api, write: Writer,
    ghost importId: ImportId)
    returns (processed: nat, errors: seq<string>)
    requires db.Valid()
    requires Selected(db.companies, sel, importId)
    modifies db
    ensures db.Valid()
    ensures ResearchState(db.companies, processed, errors)
      == ResearchAll(ResearchState(old(db.companies), 0, []), sel, FinderOf(prompts, token, api), write)
    ensures OnlyResearched(old(db.companies), db.companies, importId)
    ensures db.order == old(db.order) && db.imports == old(db.imports) && db.nextImportId == old(db.nextImportId) && db.logs == old(db.logs)
  {
    ghost var c0 := db.companies;
    ghost var st0 := ResearchState(db.companies, 0, []);
    processed, errors := 0, [];
    var k := 0;
    while k < |sel|
      invariant 0 <= k <= |sel|
      invariant db.Valid()
      invariant ResearchState(db.companies, processed, errors) == ResearchAll(st0, sel[..k], FinderOf(prompts, token, api), write)
      invariant OnlyResearched(c0, db.companies, importId)
      invariant db.order == old(db.order) && db.imports == old(db.imports) && db.nextImportId == old(db.nextImportId) && db.logs == old(db.logs)
    {
      ResearchAllStep(st0, sel, k, FinderOf(prompts, token, api), write);
      processed, errors := ResearchAt(db, sel, k, prompts, token, api, write, processed, errors, c0, importId);
      k := k + 1;
    }
    assert sel[..k] == sel;
  }

  /** `runResearchStep`: a failed select throws; an empty selection is
      reported; otherwise each selected company is researched in turn, and
      only they change.  `defaults` are the two built-in prompts. */
  method RunResearchStep(db: Store.Store, importId: ImportId, fetchFault: Option<string>,
    addressTemplate: Option<string>, descriptionTemplate: Option<string>, defaults: Prompts,
    token: Option<string>, api: Api, write: Writer)
    returns (r: Result<StepResult>)
    requires db.Valid()
    modifies db
    ensures db.Valid()
    ensures fetchFault.Some? ==> r == Err(FetchFailedPrefix + fetchFault.value) && db.companies == old(db.companies)
    ensures fetchFault.None? ==> r.Ok?
    ensures r.Ok? ==>
      ResearchState(db.companies, r.value.processed, r.value.errors)
      == ResearchStep(old(db.companies), ResearchSelection(old(db.Rows()), importId),
           FinderOf(GetResearchPrompts(addressTemplate, descriptionTemplate, defaults), token, api), write)
    ensures r.Ok? && ResearchSelection(old(db.Rows()), importId) != [] ==>
      r.value.processed + |r.value.errors| == |ResearchSelection(old(db.Rows()), importId)|
    ensures db.companies.Keys == old(db.companies).Keys
    ensures OnlyResearched(old(db.companies), db.companies, importId)
    ensures db.order == old(db.order) && db.imports == old(db.imports) && db.nextImportId == old(db.nextImportId) && db.logs == old(db.logs)
  {
    if fetchFault.Some? {
      return Err(FetchFailedPrefix + fetchFault.value);
    }
    var companies := ResearchSelection(db.Rows(), importId);
    if |companies| == 0 {
      return Ok(StepResult(0, [NoResearchMessage]));
    }
    var prompts := GetResearchPrompts(addressTemplate, descriptionTemplate, defaults);
    var processed, errors := ResearchCompanies(db, companies, prompts, token, api, write, importId);
    return Ok(StepResult(processed, errors));
  }
}

=== FILE: runner.dfy ===
/** The pipeline runner: the three stage runners in order (clean, research,
    validate) with the import record moved to `processing` first and to
    `completed`, `completed_with_errors` or `failed` last; the single-step
    dispatcher; and the status report of an import. */
module Runner {
  import opened Wrappers
  import opened Strings
  import opened Model
  import Store
  import Clean
  import Research
  import Validate

  const ImportNotFoundMessage: string := "Import not found"

  /** What the clean step depends on besides the store. */
  datatype CleanEnv = CleanEnv(fetchFault: Option<string>, template: Option<string>, llm: Clean.Llm,
    fault: Company -> Option<string>)

  /** What the research step depends on besides the store. */
  datatype ResearchEnv = ResearchEnv(fetchFault: Option<string>, addressTemplate: Option<string>,
    descriptionTemplate: Option<string>, defaults: Research.Prompts, token: Option<string>, api: Research.Api,
    write: Research.Writer)

  /** What the validate step depends on besides the store. */
  datatype ValidateEnv = ValidateEnv(ruleTable: Result<seq<Validate.ColumnRule>>, matches: Validate.Matcher,
    system: Company -> SystemColumns, bulkFault: Option<string>, countFails: bool, fetchFault: Option<string>, fault: Company -> Option<string>,
    logRejected: LogEntry -> bool)

  datatype Env = Env(clean: CleanEnv, research: ResearchEnv, validate: ValidateEnv)

  /** `PipelineResult` of a run that did not throw. */
  datatype PipelineResult = PipelineResult(clean: StepResult, research: StepResult, validate: Validate.ValidateResult,
    totalProcessed: nat, totalErrors: nat)

  /** The final import status for a number of errors. */
  function FinalStatus(totalErrors: nat): (s: ImportStatus)
    ensures s == CompletedWithErrors <==> totalErrors > 0
    ensures s == Completed <==> totalErrors == 0
  {
    if totalErrors > 0 then CompletedWithErrors else Completed
  }

  /** A company after a run: untouched, or a company of the import moved
      strictly forward along the pipeline and never to `failed`. */
  predicate Progressed(a: Company, d: Company, importId: ImportId) {
    d == a
    || (a.importId == importId && d.importId == importId && d.companyHash == a.companyHash
        && Rank(a.status) < Rank(d.status) && d.status != Failed)
  }

  /** The three stages compose to progress. */
  lemma ChainProgress(a: Company, b: Company, c: Company, d: Company, importId: ImportId)
    requires Clean.CleanedFrom(a, b, importId)
    requires Research.ResearchedFrom(b, c, importId)
    requires Validate.ValidatedFrom(c, d, importId)
    ensures Progressed(a, d, importId)
    ensures a.status == Validated ==> d == a
  {
  }

  /** Every company of `c0` is still there in `c1` and has progressed. */
  ghost predicate AllProgressed(c0: map<string, Company>, c1: map<string, Company>, importId: ImportId) {
    forall h :: h in c0 ==> h in c1 && Progressed(c0[h], c1[h], importId)
  }

  /** The three stages, each run over the whole store, compose to progress. */
  lemma ChainAll(c0: map<string, Company>, c1: map<string, Company>, c2: map<string, Company>, c3: map<string, Company>,
    importId: ImportId)
    requires Clean.OnlyPendingCleaned(c0, c1, importId)
    requires Research.OnlyResearched(c1, c2, importId)
    requires Validate.OnlyValidated(c2, c3, importId)
    ensures AllProgressed(c0, c3, importId)
  {
    forall h | h in c0 ensures h in c3 && Progressed(c0[h], c3[h], importId) {
      ChainProgress(c0[h], c1[h], c2[h], c3[h], importId);
    }
  }

  /** `update({status: s}).eq('id', importId)` on `imports`; the error is
      ignored. */
  method MarkImport(db: Store.Store, importId: ImportId, s: ImportStatus)
    requires db.Valid()
    modifies db
    ensures db.Valid()
    ensures importId in old(db.imports) ==> db.imports == old(db.imports)[importId := old(db.imports)[importId].(status := s)]
    ensures importId !in old(db.imports) ==> db.imports == old(db.imports)
    ensures db.companies == old(db.companies) && db.order == old(db.order) && db.logs == old(db.logs)
    ensures db.nextImportId == old(db.nextImportId)
  {
    if importId in db.imports {
      db.SetImport(importId, db.imports[importId].(status := s));
    }
  }

  /** The validate step, run over these rows, throws neither for its rule
      select, nor for its company select, nor for a pattern. */
  predicate ValidateSucceedsOn(env: ValidateEnv, rows: seq<Company>, importId: ImportId) {
    env.ruleTable.Ok?
    && (Validate.ActiveRules(env.ruleTable.value) == []
        || (env.fetchFault.None?
            && Validate.LoopCompletes(rows, importId, Validate.ActiveRules(env.ruleTable.value), env.matches, env.system)))
  }

  /** The validate step throws for no rows: both selects succeed and every
      pattern compiles. */
  predicate ValidateSucceeds(env: ValidateEnv) {
    env.ruleTable.Ok?
    && (Validate.ActiveRules(env.ruleTable.value) == []
        || (env.fetchFault.None? && Validate.PatternsCompile(Validate.ActiveRules(env.ruleTable.value), env.matches)))
  }

  /** What throws for no rows throws for none of these. */
  lemma {:induction false} SucceedsAnywhere(env: ValidateEnv, rows: seq<Company>, importId: ImportId)
    requires ValidateSucceeds(env)
    ensures ValidateSucceedsOn(env, rows, importId)
  {
    if Validate.ActiveRules(env.ruleTable.value) != [] {
      Validate.CompiledCompletes(rows, importId, Validate.ActiveRules(env.ruleTable.value), env.matches, env.system);
    }
  }

  /** A step's result together with the companies table and the log it
      leaves behind. */
  datatype Outcome<T> = Outcome(result: Result<T>, companies: map<string, Company>, logs: seq<LogEntry>)

  /** Every listed hash is stored. */
  ghost predicate Listed(c: map<string, Company>, order: seq<string>) {
    forall i :: 0 <= i < |order| ==> order[i] in c
  }

  /** A table with the same keys lists the same hashes. */
  lemma ListedKeys(c: map<string, Company>, c1: map<string, Company>, order: seq<string>)
    requires Listed(c, order) && c1.Keys == c.Keys
    ensures Listed(c1, order)
  {
  }

  /** What `runCleanStep` returns and leaves, from the table, its row order
      and the log. */
  function CleanOutcome(c: map<string, Company>, order: seq<string>, logs: seq<LogEntry>, importId: ImportId, env: CleanEnv)
    : (o: Outcome<StepResult>)
    requires Listed(c, order)
    ensures o.companies.Keys == c.Keys && o.logs == logs
    ensures env.fetchFault.Some? ==> o == Outcome(Err(FetchFailedPrefix + env.fetchFault.value), c, logs)
    ensures env.fetchFault.None? ==> o.result.Ok?
  {
    if env.fetchFault.Some? then Outcome(Err(FetchFailedPrefix + env.fetchFault.value), c, logs)
    else
      var st := Clean.CleanStep(c, Clean.Selection(Store.RowsOf(c, order), importId), env.template, env.llm, env.fault);
      Outcome(Ok(StepResult(st.processed, st.errors)), st.companies, logs)
  }

  /** What `runResearchStep` returns and leaves. */
  function ResearchOutcome(c: map<string, Company>, order: seq<string>, logs: seq<LogEntry>, importId: ImportId, env: ResearchEnv)
    : (o: Outcome<StepResult>)
    requires Listed(c, order)
    ensures o.companies.Keys == c.Keys && o.logs == logs
    ensures env.fetchFault.Some? ==> o == Outcome(Err(FetchFailedPrefix + env.fetchFault.value), c, logs)
    ensures env.fetchFault.None? ==> o.result.Ok?
  {
    if env.fetchFault.Some? then Outcome(Err(FetchFailedPrefix + env.fetchFault.value), c, logs)
    else
      var find := Research.FinderOf(Research.GetResearchPrompts(env.addressTemplate, env.descriptionTemplate, env.defaults),
        env.token, env.api);
      var st := Research.ResearchStep(c, Research.ResearchSelection(Store.RowsOf(c, order), importId), find, env.write);
      Outcome(Ok(StepResult(st.processed, st.errors)), st.companies, logs)
  }

  /** What `runValidateStep` returns and leaves: the rule select's error,
      the bulk update when no rule is active, the company select's error,
      the empty-selection message, or the loop run up to the first company
      whose check throws. */
  function ValidateOutcome(c: map<string, Company>, order: seq<string>, logs: seq<LogEntry>, importId: ImportId, env: ValidateEnv)
    : (o: Outcome<Validate.ValidateResult>)
    requires Listed(c, order)
    ensures o.companies.Keys == c.Keys
  {
    if env.ruleTable.Err? then Outcome(Err(Validate.RulesFailedPrefix + env.ruleTable.msg), c, logs)
    else
      var rules := Validate.ActiveRules(env.ruleTable.value);
      if rules == [] then
        if env.bulkFault.Some? then Outcome(Ok(Validate.ValidateResult(0, 0, 0, [env.bulkFault.value])), c, logs)
        else
          var c1 := Store.SetStatusWhere(c, importId, {Cleaned, Researched}, Validated);
          var n := if env.countFails then 0 else |Store.WithStatus(Store.RowsOf(c1, order), importId, Validated)|;
          Outcome(Ok(Validate.ValidateResult(n, n, 0, [])), c1, logs)
      else if env.fetchFault.Some? then Outcome(Err(FetchFailedPrefix + env.fetchFault.value), c, logs)
      else
        var sel := Validate.ValidateSelection(Store.RowsOf(c, order), importId);
        if sel == [] then Outcome(Ok(Validate.ValidateResult(0, 0, 0, [Validate.NoCompaniesMessage])), c, logs)
        else
          var thrower := Validate.ThrowerOf(rules, env.matches, env.system);
          var k := Validate.ThrowAt(sel, thrower);
          var st := Validate.ValidateAll(Validate.ValidateState(c, logs, Validate.ValidateResult(0, 0, 0, [])), sel[..k],
            Validate.CheckerOf(rules, env.matches, env.system), importId, env.fault, env.logRejected);
          if k < |sel| then Outcome(Err(thrower(sel[k]).value), st.companies, st.logs)
          else Outcome(Ok(st.result), st.companies, st.logs)
  }

  /** The validate step throws exactly when its rule select fails, or when
      rules are active and its company select fails or a company's check
      throws. */
  lemma ValidateOutcomeOk(c: map<string, Company>, order: seq<string>, logs: seq<LogEntry>, importId: ImportId, env: ValidateEnv)
    requires Listed(c, order)
    ensures ValidateOutcome(c, order, logs, importId, env).result.Ok? <==> ValidateSucceedsOn(env, Store.RowsOf(c, order), importId)
  {
  }

  /** Three step outcomes chained: the first that threw ends the run with
      its message and what it left behind; otherwise the totals are summed
      over the steps. */
  function Chain(cl: Outcome<StepResult>, rs: Outcome<StepResult>, vd: Outcome<Validate.ValidateResult>)
    : Outcome<PipelineResult>
  {
    if cl.result.Err? then Outcome(Err(cl.result.msg), cl.companies, cl.logs)
    else if rs.result.Err? then Outcome(Err(rs.result.msg), rs.companies, rs.logs)
    else if vd.result.Err? then Outcome(Err(vd.result.msg), vd.companies, vd.logs)
    else
      var cr, rr, vr := cl.result.value, rs.result.value, vd.result.value;
      Outcome(Ok(PipelineResult(cr, rr, vr, cr.processed + rr.processed, |cr.errors| + |rr.errors| + |vr.errors|)),
        vd.companies, vd.logs)
  }

  /** The try block of `runFullPipeline` up to the final status write: the
      clean step on the table, the research step on what the clean step
      left, the validate step on what the research step left, stopping at
      the first step that throws, the totals summed over the steps. */
  function Steps(c: map<string, Company>, order: seq<string>, logs: seq<LogEntry>, importId: ImportId, env: Env)
    : (o: Outcome<PipelineResult>)
    requires Listed(c, order)
    ensures o.companies.Keys == c.Keys
  {
    var cl := CleanOutcome(c, order, logs, importId, env.clean);
    ListedKeys(c, cl.companies, order);
    var rs := if cl.result.Err? then cl else ResearchOutcome(cl.companies, order, cl.logs, importId, env.research);
    ListedKeys(c, rs.companies, order);
    var vd := if cl.result.Err? || rs.result.Err? then Outcome(Err(""), rs.companies, rs.logs)
              else ValidateOutcome(rs.companies, order, rs.logs, importId, env.validate);
    Chain(cl, rs, vd)
  }

  /** When no step throws, the chain reports each step's result. */
  lemma ChainOk(cl: Outcome<StepResult>, rs: Outcome<StepResult>, vd: Outcome<Validate.ValidateResult>)
    requires cl.result.Ok? && rs.result.Ok? && vd.result.Ok?
    ensures Chain(cl, rs, vd) == Outcome(Ok(PipelineResult(cl.result.value, rs.result.value, vd.result.value,
      cl.result.value.processed + rs.result.value.processed,
      |cl.result.value.errors| + |rs.result.value.errors| + |vd.result.value.errors|)), vd.companies, vd.logs)
  {
  }

  /** `Steps` from the outcomes of the steps that ran. */
  lemma StepsOf(c: map<string, Company>, order: seq<string>, logs: seq<LogEntry>, importId: ImportId, env: Env,
    cl: Outcome<StepResult>, rs: Outcome<StepResult>, vd: Outcome<Validate.ValidateResult>)
    requires Listed(c, order)
    requires cl == CleanOutcome(c, order, logs, importId, env.clean)
    requires cl.result.Ok? ==> rs == ResearchOutcome(cl.companies, order, cl.logs, importId, env.research)
    requires cl.result.Ok? && rs.result.Ok? ==> vd == ValidateOutcome(rs.companies, order, rs.logs, importId, env.validate)
    ensures Steps(c, order, logs, importId, env) == Chain(cl, rs, vd)
  {
  }

  /** The table the research step runs on, and the one the validate step
      runs on. */
  function AfterClean(c: map<string, Company>, order: seq<string>, logs: seq<LogEntry>, importId: ImportId, env: Env)
    : (c1: map<string, Company>)
    requires Listed(c, order)
    ensures c1.Keys == c.Keys
  {
    CleanOutcome(c, order, logs, importId, env.clean).companies
  }

  function AfterResearch(c: map<string, Company>, order: seq<string>, logs: seq<LogEntry>, importId: ImportId, env: Env)
    : (c2: map<string, Company>)
    requires Listed(c, order)
    ensures c2.Keys == c.Keys
  {
    ResearchOutcome(AfterClean(c, order, logs, importId, env), order, logs, importId, env.research).companies
  }

  /** The run succeeds exactly when neither select of the clean and
      research steps fails and the validate step, run over the rows the
      research step left, does not throw; it then reports each step's own
      result, in order, with the totals. */
  lemma {:induction false} StepsOk(c: map<string, Company>, order: seq<string>, logs: seq<LogEntry>, importId: ImportId, env: Env)
    requires Listed(c, order)
    ensures var o := Steps(c, order, logs, importId, env);
      o.result.Ok? <==>
        env.clean.fetchFault.None? && env.research.fetchFault.None?
        && ValidateSucceedsOn(env.validate, Store.RowsOf(AfterResearch(c, order, logs, importId, env), order), importId)
    ensures var o := Steps(c, order, logs, importId, env);
      o.result.Ok? ==>
        var c1 := AfterClean(c, order, logs, importId, env);
        var c2 := AfterResearch(c, order, logs, importId, env);
        Ok(o.result.value.clean) == CleanOutcome(c, order, logs, importId, env.clean).result
        && Ok(o.result.value.research) == ResearchOutcome(c1, order, logs, importId, env.research).result
        && Ok(o.result.value.validate) == ValidateOutcome(c2, order, logs, importId, env.validate).result
        && o.companies == ValidateOutcome(c2, order, logs, importId, env.validate).companies
        && o.result.value.totalProcessed == o.result.value.clean.processed + o.result.value.research.processed
        && o.result.value.totalErrors
           == |o.result.value.clean.errors| + |o.result.value.research.errors| + |o.result.value.validate.errors|
  {
    var c1 := AfterClean(c, order, logs, importId, env);
    if env.clean.fetchFault.None? {
      ValidateOutcomeOk(AfterResearch(c, order, logs, importId, env), order, logs, importId, env.validate);
    }
  }

  /** The clean step as the runner sees it: it throws exactly when its
      select fails, and only pending companies of the import change. */
  method CleanPhase(db: Store.Store, importId: ImportId, env: CleanEnv) returns (r: Result<StepResult>)
    requires db.Valid()
    modifies db
    ensures db.Valid()
    ensures Outcome(r, db.companies, db.logs) == CleanOutcome(old(db.companies), old(db.order), old(db.logs), importId, env)
    ensures Clean.OnlyPendingCleaned(old(db.companies), db.companies, importId)
    ensures db.order == old(db.order) && db.imports == old(db.imports) && db.nextImportId == old(db.nextImportId)
  {
    r := Clean.RunCleanStep(db, importId, env.fetchFault, env.template, env.llm, env.fault);
  }

  /** The research step as the runner sees it. */
  method ResearchPhase(db: Store.Store, importId: ImportId, env: ResearchEnv) returns (r: Result<StepResult>)
    requires db.Valid()
    modifies db
    ensures db.Valid()
    ensures Outcome(r, db.companies, db.logs) == ResearchOutcome(old(db.companies), old(db.order), old(db.logs), importId, env)
    ensures Research.OnlyResearched(old(db.companies), db.companies, importId)
    ensures db.order == old(db.order) && db.imports == old(db.imports) && db.nextImportId == old(db.nextImportId)
  {
    r := Research.RunResearchStep(db, importId, env.fetchFault, env.addressTemplate, env.descriptionTemplate, env.defaults,
      env.token, env.api, env.write);
  }

  /** The validate step as the runner sees it. */
  method ValidatePhase(db: Store.Store, importId: ImportId, env: ValidateEnv) returns (r: Result<Validate.ValidateResult>)
    requires db.Valid()
    modifies db
    ensures db.Valid()
    ensures Outcome(r, db.companies, db.logs) == ValidateOutcome(old(db.companies), old(db.order), old(db.logs), importId, env)
    ensures r.Ok? <==> ValidateSucceedsOn(env, old(db.Rows()), importId)
    ensures ValidateSucceeds(env) ==> r.Ok?
    ensures Validate.OnlyValidated(old(db.companies), db.companies, importId)
    ensures db.order == old(db.order) && db.imports == old(db.imports) && db.nextImportId == old(db.nextImportId)
  {
    if ValidateSucceeds(env) {
      SucceedsAnywhere(env, db.Rows(), importId);
    }
    r := Validate.RunValidateStep(db, importId, env.ruleTable, env.matches, env.system, env.bulkFault, env.countFails, env.fetchFault,
      env.fault, env.logRejected);
  }

  /** The try block of `runFullPipeline` up to the final status write:
      clean, research and validate in order, stopping at the first step
      that throws; every company only moves forward. */
  method RunSteps(db: Store.Store, importId: ImportId, env: Env) returns (r: Result<PipelineResult>)
    requires db.Valid()
    modifies db
    ensures db.Valid()
    ensures Outcome(r, db.companies, db.logs) == Steps(old(db.companies), old(db.order), old(db.logs), importId, env)
    ensures AllProgressed(old(db.companies), db.companies, importId)
    ensures db.order == old(db.order) && db.imports == old(db.imports) && db.nextImportId == old(db.nextImportId)
  {
    ghost var c0, l0 := db.companies, db.logs;
    var cleaned := CleanPhase(db, importId, env.clean);
    ghost var c1, cl := db.companies, Outcome(cleaned, db.companies, db.logs);
    if cleaned.Err? {
      ChainAll(c0, c1, c1, c1, importId);
      StepsOf(c0, db.order, l0, importId, env, cl, cl, Outcome(Err(""), c1, db.logs));
      return Err(cleaned.msg);
    }
    var researched := ResearchPhase(db, importId, env.research);
    ghost var c2, rs := db.companies, Outcome(researched, db.companies, db.logs);
    if researched.Err? {
      ChainAll(c0, c1, c2, c2, importId);
      StepsOf(c0, db.order, l0, importId, env, cl, rs, Outcome(Err(""), c2, db.logs));
      return Err(researched.msg);
    }
    var validated := ValidatePhase(db, importId, env.validate);
    ChainAll(c0, c1, c2, db.companies, importId);
    StepsOf(c0, db.order, l0, importId, env, cl, rs, Outcome(validated, db.companies, db.logs));
    if validated.Err? {
      return Err(validated.msg);
    }
    var totalProcessed := cleaned.value.processed + researched.value.processed;
    var totalErrors := |cleaned.value.errors| + |researched.value.errors| + |validated.value.errors|;
    r := Ok(PipelineResult(cleaned.value, researched.value, validated.value, totalProcessed, totalErrors));
    ghost var vd := Outcome(validated, db.companies, db.logs);
    ChainOk(cl, rs, vd);
    assert Chain(cl, rs, vd).result.value == r.value;
  }

  /** `runFullPipeline`.  `writes` lists the statuses written to the
      import record, in order: `processing` first, then the final status,
      or `failed` when a step threw. */
  method RunFullPipeline(db: Store.Store, importId: ImportId, env: Env) returns (r: Result<PipelineResult>, writes: seq<ImportStatus>)
    requires db.Valid()
    modifies db
    ensures db.Valid()
    ensures |writes| == 2 && writes[0] == Processing
    ensures r.Ok? ==> writes[1] == FinalStatus(r.value.totalErrors)
    ensures r.Err? ==> writes[1] == ImportFailed
    ensures importId in old(db.imports) ==> db.imports == old(db.imports)[importId := old(db.imports)[importId].(status := writes[1])]
    ensures importId !in old(db.imports) ==> db.imports == old(db.imports)
    ensures Outcome(r, db.companies, db.logs) == Steps(old(db.companies), old(db.order), old(db.logs), importId, env)
    ensures AllProgressed(old(db.companies), db.companies, importId)
  {
    ghost var c0, l0, i0 := db.companies, db.logs, db.imports;
    MarkImport(db, importId, Processing);
    ghost var i1 := db.imports;
    r := RunSteps(db, importId, env);
    ghost var c3, l3 := db.companies, db.logs;
    assert Outcome(r, c3, l3) == Steps(c0, db.order, l0, importId, env);
    var status := if r.Ok? then FinalStatus(r.value.totalErrors) else ImportFailed;
    MarkImport(db, importId, status);
    assert importId in i0 ==> db.imports == i0[importId := i0[importId].(status := status)] by {
      if importId in i0 {
        assert i1 == i0[importId := i0[importId].(status := Processing)];
        assert i1[importId := i1[importId].(status := status)] == i0[importId := i0[importId].(status := status)];
      }
    }
    writes := [Processing, status];
  }

  /** The `{processed, errors}` part of a validate result. */
  function AsStep(v: Result<Validate.ValidateResult>): (r: Result<StepResult>)
    ensures r.Ok? <==> v.Ok?
    ensures v.Err? ==> r.msg == v.msg
    ensures v.Ok? ==> r.value.processed == v.value.processed && r.value.errors == v.value.errors
  {
    match v
    case Ok(res) => Ok(StepResult(res.processed, res.errors))
    case Err(msg) => Err(msg)
  }

  /** `runPipelineStep`: dispatch by step name; for `validate` only the
      processed count and the errors are returned. */
  method RunPipelineStep(db: Store.Store, importId: ImportId, step: string, env: Env) returns (r: Result<StepResult>)
    requires db.Valid()
    modifies db
    ensures db.Valid()
    ensures step !in {"clean", "research", "validate"} ==>
      r == Err("Unknown step: " + step) && db.companies == old(db.companies) && db.logs == old(db.logs)
    ensures step == "clean" ==>
      Outcome(r, db.companies, db.logs) == CleanOutcome(old(db.companies), old(db.order), old(db.logs), importId, env.clean)
    ensures step == "research" ==>
      Outcome(r, db.companies, db.logs) == ResearchOutcome(old(db.companies), old(db.order), old(db.logs), importId, env.research)
    ensures step == "validate" ==>
      var o := ValidateOutcome(old(db.companies), old(db.order), old(db.logs), importId, env.validate);
      r == AsStep(o.result) && db.companies == o.companies && db.logs == o.logs
    ensures step == "clean" ==> Clean.OnlyPendingCleaned(old(db.companies), db.companies, importId)
    ensures step == "research" ==> Research.OnlyResearched(old(db.companies), db.companies, importId)
    ensures step == "validate" ==> Validate.OnlyValidated(old(db.companies), db.companies, importId)
    ensures db.order == old(db.order) && db.imports == old(db.imports)
  {
    if step == "clean" {
      r := CleanPhase(db, importId, env.clean);
    } else if step == "research" {
      r := ResearchPhase(db, importId, env.research);
    } else if step == "validate" {
      var v := ValidatePhase(db, importId, env.validate);
      r := AsStep(v);
    } else {
      r := Err("Unknown step: " + step);
    }
  }

  // ---------------------------------------------------------------------
  // Status report

  /** One of the five count queries of `getPipelineStatus`. */
  datatype CountQuery = Total | OfStatus(status: CompanyStatus)

  datatype PipelineStatus = PipelineStatus(status: ImportStatus, filename: string, rowCount: nat,
    total: nat, pending: nat, cleaned: nat, researched: nat, validated: nat)

  /** `count || 0`: a failed count query reads as zero. */
  function CountOr0(fails: bool, n: nat): nat {
    if fails then 0 else n
  }

  /** `getPipelineStatus` over the import records and the company rows;
      `fails` says which count queries return no count. */
  function PipelineStatusOf(imports: map<ImportId, ImportRecord>, rows: seq<Company>, importId: ImportId,
    fails: CountQuery -> bool): (r: Result<PipelineStatus>)
    ensures r.Err? <==> importId !in imports
    ensures r.Err? ==> r.msg == ImportNotFoundMessage
    ensures r.Ok? ==>
      var rec := imports[importId];
      r.value.status == rec.status && r.value.filename == rec.filename && r.value.rowCount == rec.rowCount
      && r.value.total == (if fails(Total) then 0 else Store.CountImport(rows, importId))
      && r.value.pending == (if fails(OfStatus(Pending)) then 0 else |Store.WithStatus(rows, importId, Pending)|)
      && r.value.cleaned == (if fails(OfStatus(Cleaned)) then 0 else |Store.WithStatus(rows, importId, Cleaned)|)
      && r.value.researched == (if fails(OfStatus(Researched)) then 0 else |Store.WithStatus(rows, importId, Researched)|)
      && r.value.validated == (if fails(OfStatus(Validated)) then 0 else |Store.WithStatus(rows, importId, Validated)|)
  {
    if importId !in imports then Err(ImportNotFoundMessage)
    else
      var rec := imports[importId];
      Ok(PipelineStatus(rec.status, rec.filename, rec.rowCount,
        CountOr0(fails(Total), Store.CountImport(rows, importId)),
        CountOr0(fails(OfStatus(Pending)), |Store.WithStatus(rows, importId, Pending)|),
        CountOr0(fails(OfStatus(Cleaned)), |Store.WithStatus(rows, importId, Cleaned)|),
        CountOr0(fails(OfStatus(Researched)), |Store.WithStatus(rows, importId, Researched)|),
        CountOr0(fails(OfStatus(Validated)), |Store.WithStatus(rows, importId, Validated)|)))
  }

  /** The four status counts of an import never exceed its total. */
  lemma {:induction false} StatusCountsBounded(rows: seq<Company>, importId: ImportId)
    ensures |Store.WithStatus(rows, importId, Pending)| + |Store.WithStatus(rows, importId, Cleaned)|
      + |Store.WithStatus(rows, importId, Researched)| + |Store.WithStatus(rows, importId, Validated)|
      <= Store.CountImport(rows, importId)
  {
    if rows != [] {
      StatusCountsBounded(rows[..|rows| - 1], importId);
    }
  }

  /** When every count query succeeds the report's counts add up to at most
      the total. */
  lemma ReportConsistent(imports: map<ImportId, ImportRecord>, rows: seq<Company>, importId: ImportId, fails: CountQuery -> bool)
    requires importId in imports
    requires !fails(Total)
    ensures var r := PipelineStatusOf(imports, rows, importId, fails);
      r.Ok? && r.value.pending + r.value.cleaned + r.value.researched + r.value.validated <= r.value.total
  {
    StatusCountsBounded(rows, importId);
  }
}

=== FILE: store.dfy ===
/** The persistence layer as an in-memory store: the `companies` table keyed
    by `company_hash` (its unique key, which stands in for the row id), the
    `imports` table keyed by a generated id, and `processing_logs`.  Select
    queries return rows in insertion order. */
module Store {
  import opened Wrappers
  import opened Model

  /** Rows of `companies` as a select returns them. */
  function RowsOf(companies: map<string, Company>, order: seq<string>): (rows: seq<Company>)
    requires forall i :: 0 <= i < |order| ==> order[i] in companies
    ensures |rows| == |order|
    ensures forall i :: 0 <= i < |order| ==> rows[i] == companies[order[i]]
  {
    if order == [] then [] else RowsOf(companies, order[..|order| - 1]) + [companies[order[|order| - 1]]]
  }

  /** `.eq('import_id', id).eq('status', s)` over rows in select order. */
  function WithStatus(rows: seq<Company>, importId: ImportId, s: CompanyStatus): (sel: seq<Company>)
    ensures forall c :: c in sel <==> c in rows && c.importId == importId && c.status == s
    ensures |sel| <= |rows|
  {
    if rows == [] then []
    else
      var rest := WithStatus(rows[..|rows| - 1], importId, s);
      var c := rows[|rows| - 1];
      if c.importId == importId && c.status == s then rest + [c] else rest
  }

  /** `.eq('import_id', id)` counted. */
  function CountImport(rows: seq<Company>, importId: ImportId): (n: nat)
    ensures n <= |rows|
  {
    if rows == [] then 0
    else CountImport(rows[..|rows| - 1], importId) + (if rows[|rows| - 1].importId == importId then 1 else 0)
  }

  /** `update({status: to}).eq('import_id', id).in('status', from)`: one
      bulk update of the matching rows. */
  function SetStatusWhere(companies: map<string, Company>, importId: ImportId, from: set<CompanyStatus>, to: CompanyStatus)
    : (r: map<string, Company>)
    ensures r.Keys == companies.Keys
  {
    map h | h in companies :: if companies[h].importId == importId && companies[h].status in from then companies[h].(status := to) else companies[h]
  }

  class Store {
    var companies: map<string, Company>
    var order: seq<string>
    var imports: map<ImportId, ImportRecord>
    var nextImportId: ImportId
    var logs: seq<LogEntry>

    /** Hashes are listed once each in insertion order, every company is
        stored under its own hash, and import ids are handed out in order. */
    ghost predicate Valid()
      reads this
    {
      (forall i, j :: 0 <= i < j < |order| ==> order[i] != order[j])
      && (forall i :: 0 <= i < |order| ==> order[i] in companies)
      && (forall h :: h in companies ==> h in order)
      && (forall h :: h in companies ==> companies[h].companyHash == h)
      && (forall id :: id in imports ==> id < nextImportId)
    }

    /** The companies table as a select returns it. */
    function Rows(): (rows: seq<Company>)
      reads this
      requires Valid()
      ensures |rows| == |order|
      ensures forall c: Company :: c in rows <==> c.companyHash in companies && companies[c.companyHash] == c
    {
      var rows := RowsOf(companies, order);
      assert forall c: Company :: c.companyHash in companies && companies[c.companyHash] == c ==> c in rows by {
        forall c: Company | c.companyHash in companies && companies[c.companyHash] == c ensures c in rows {
          var i :| 0 <= i < |order| && order[i] == c.companyHash;
          assert rows[i] == c;
        }
      }
      rows
    }

    constructor ()
      ensures Valid()
      ensures companies == map[] && order == [] && imports == map[] && logs == []
    {
      companies := map[];
      order := [];
      imports := map[];
      nextImportId := 0;
      logs := [];
    }

    /** `insert` of one row whose hash is not yet stored. */
    method Insert(c: Company)
      requires Valid()
      requires c.companyHash !in companies
      modifies this
      ensures Valid()
      ensures companies == old(companies)[c.companyHash := c]
      ensures order == old(order) + [c.companyHash]
      ensures imports == old(imports) && nextImportId == old(nextImportId) && logs == old(logs)
    {
      companies := companies[c.companyHash := c];
      order := order + [c.companyHash];
    }

    /** `update(...).eq('id', …)` of one stored row. */
    method Update(c: Company)
      requires Valid()
      requires c.companyHash in companies
      modifies this
      ensures Valid()
      ensures companies == old(companies)[c.companyHash := c]
      ensures order == old(order) && imports == old(imports) && nextImportId == old(nextImportId) && logs == old(logs)
    {
      companies := companies[c.companyHash := c];
    }

    /** A bulk status update of the rows of one import whose status is in
        `from`. */
    method UpdateStatusWhere(importId: ImportId, from: set<CompanyStatus>, to: CompanyStatus)
      requires Valid()
      modifies this
      ensures Valid()
      ensures companies == SetStatusWhere(old(companies), importId, from, to)
      ensures order == old(order) && imports == old(imports) && nextImportId == old(nextImportId) && logs == old(logs)
    {
      companies := SetStatusWhere(companies, importId, from, to);
    }

    /** `insert` into `imports` returning the generated id. */
    method CreateImportRecord(rec: ImportRecord) returns (id: ImportId)
      requires Valid()
      modifies this
      ensures Valid()
      ensures id == old(nextImportId) && id !in old(imports)
      ensures imports == old(imports)[id := rec]
      ensures companies == old(companies) && order == old(order) && logs == old(logs)
    {
      id := nextImportId;
      imports := imports[id := rec];
      nextImportId := nextImportId + 1;
    }

    /** `update(...).eq('id', id)` on `imports`: a no-op for an unknown id. */
    method SetImport(id: ImportId, rec: ImportRecord)
      requires Valid()
      modifies this
      ensures Valid()
      ensures imports == if id in old(imports) then old(imports)[id := rec] else old(imports)
      ensures companies == old(companies) && order == old(order) && nextImportId == old(nextImportId) && logs == old(logs)
    {
      if id in imports {
        imports := imports[id := rec];
      }
    }

    /** `insert` into `processing_logs`. */
    method AppendLog(e: LogEntry)
      requires Valid()
      modifies this
      ensures Valid()
      ensures logs == old(logs) + [e]
      ensures companies == old(companies) && order == old(order) && imports == old(imports) && nextImportId == old(nextImportId)
    {
      logs := logs + [e];
    }
  }
}

=== FILE: strings.dfy ===
/** The string primitives of JavaScript and Python that the core relies on:
    trimming, ASCII lower-casing, substring search, `split`/`join`,
    `String.prototype.replace` with a string pattern, and UTF-16 length. */
module Strings {
  import opened Wrappers

  /** `\s` of a JavaScript regular expression, and what `trim()` removes:
      the WhiteSpace and LineTerminator code points of ECMA-262. */
  predicate IsJsSpace(c: char) {
    c == '\t' || c == '\n' || c == '\U{B}' || c == '\U{C}' || c == '\r' || c == ' '
    || c == '\U{A0}' || c == '\U{1680}' || ('\U{2000}' <= c <= '\U{200A}')
    || c == '\U{2028}' || c == '\U{2029}' || c == '\U{202F}' || c == '\U{205F}'
    || c == '\U{3000}' || c == '\U{FEFF}'
  }

  /** `\s` of a Python `str` pattern (the code points for which `str.isspace` holds). */
  predicate IsPySpace(c: char) {
    ('\t' <= c <= '\r') || ('\U{1C}' <= c <= ' ') || c == '\U{85}' || c == '\U{A0}'
    || c == '\U{1680}' || ('\U{2000}' <= c <= '\U{200A}') || c == '\U{2028}'
    || c == '\U{2029}' || c == '\U{202F}' || c == '\U{205F}' || c == '\U{3000}'
  }

  predicate IsUpper(c: char) { 'A' <= c <= 'Z' }

  /** Lower-casing of one character; only ASCII letters are mapped. */
  function LowerChar(c: char): (r: char)
    ensures !IsUpper(r)
    ensures IsJsSpace(r) == IsJsSpace(c) && IsPySpace(r) == IsPySpace(c)
  {
    if IsUpper(c) then (c as int + 32) as char else c
  }

  /** `toLowerCase()` / `str.lower()` restricted to ASCII letters. */
  function Lower(s: string): (r: string)
    ensures |r| == |s|
    ensures forall i :: 0 <= i < |s| ==> r[i] == LowerChar(s[i])
  {
    seq(|s|, i requires 0 <= i < |s| => LowerChar(s[i]))
  }

  /** No ASCII upper-case letter occurs in `s`. */
  predicate IsLowerCase(s: string) {
    forall i :: 0 <= i < |s| ==> !IsUpper(s[i])
  }

  lemma LowerIsLowerCase(s: string)
    ensures IsLowerCase(Lower(s))
  {
  }

  lemma LowerOfLowerCase(s: string)
    requires IsLowerCase(s)
    ensures Lower(s) == s
  {
  }

  lemma LowerSlice(s: string, a: nat, b: nat)
    requires a <= b <= |s|
    ensures Lower(s[a..b]) == Lower(s)[a..b]
  {
  }

  lemma LowerConcat(s: string, t: string)
    ensures Lower(s + t) == Lower(s) + Lower(t)
  {
  }

  // ---------------------------------------------------------------------
  // trim()

  /** Index of the first character that is not JavaScript whitespace. */
  function TrimStart(s: string): (n: nat)
    ensures n <= |s|
    ensures forall i :: 0 <= i < n ==> IsJsSpace(s[i])
    ensures n < |s| ==> !IsJsSpace(s[n])
  {
    if |s| == 0 || !IsJsSpace(s[0]) then 0 else 1 + TrimStart(s[1..])
  }

  /** One past the index of the last character that is not JavaScript whitespace. */
  function TrimEnd(s: string): (e: nat)
    ensures e <= |s|
    ensures forall i :: e <= i < |s| ==> IsJsSpace(s[i])
    ensures e > 0 ==> !IsJsSpace(s[e - 1])
  {
    if |s| == 0 || !IsJsSpace(s[|s| - 1]) then |s| else TrimEnd(s[..|s| - 1])
  }

  /** Where the trimmed text stops: never before it starts. */
  function TrimStop(s: string): (e: nat)
    ensures TrimStart(s) <= e <= |s|
    ensures forall i :: e <= i < |s| ==> IsJsSpace(s[i])
  {
    if TrimStart(s) == |s| then |s| else TrimEnd(s)
  }

  predicate IsTrimmed(s: string) {
    |s| == 0 || (!IsJsSpace(s[0]) && !IsJsSpace(s[|s| - 1]))
  }

  /** `String.prototype.trim`: the slice of `s` left once the whitespace at
      both ends is cut off. */
  function Trim(s: string): (r: string)
    ensures r == s[TrimStart(s)..TrimStop(s)]
    ensures IsTrimmed(r)
  {
    s[TrimStart(s)..TrimStop(s)]
  }

  lemma {:induction false} TrimStartOfTrimmed(s: string)
    requires IsTrimmed(s)
    ensures TrimStart(s) == 0 && TrimStop(s) == |s|
  {
  }

  /** Trimming is idempotent. */
  lemma TrimOfTrimmed(s: string)
    requires IsTrimmed(s)
    ensures Trim(s) == s
  {
    TrimStartOfTrimmed(s);
  }

  lemma LowerKeepsTrimmed(s: string)
    requires IsTrimmed(s)
    ensures IsTrimmed(Lower(s))
  {
  }

  lemma {:induction false} TrimStartOfLower(s: string)
    ensures TrimStart(Lower(s)) == TrimStart(s)
    decreases |s|
  {
    if |s| > 0 && IsJsSpace(s[0]) {
      assert Lower(s)[1..] == Lower(s[1..]);
      TrimStartOfLower(s[1..]);
    }
  }

  lemma {:induction false} TrimEndOfLower(s: string)
    ensures TrimEnd(Lower(s)) == TrimEnd(s)
    decreases |s|
  {
    if |s| > 0 && IsJsSpace(s[|s| - 1]) {
      assert Lower(s)[..|s| - 1] == Lower(s[..|s| - 1]);
      TrimEndOfLower(s[..|s| - 1]);
    }
  }

  /** Lower-casing and trimming commute. */
  lemma TrimLowerCommute(s: string)
    ensures Trim(Lower(s)) == Lower(Trim(s))
  {
    TrimStartOfLower(s);
    TrimEndOfLower(s);
    LowerSlice(s, TrimStart(s), TrimStop(s));
  }

  // ---------------------------------------------------------------------
  // Substring search

  /** Index of the first occurrence of `p` in `s` (`indexOf`), if any. */
  function Find(s: string, p: string): (r: Option<nat>)
    ensures r.Some? ==> r.value + |p| <= |s| && s[r.value..r.value + |p|] == p
    ensures r.Some? ==> forall j :: 0 <= j < r.value ==> !(p <= s[j..])
    ensures r.None? ==> forall j :: 0 <= j <= |s| ==> !(p <= s[j..])
    decreases |s|
  {
    if p <= s then Some(0)
    else if |s| == 0 then None
    else
      var rest := Find(s[1..], p);
      assert forall j :: 1 <= j <= |s| ==> s[j..] == s[1..][j - 1..];
      match rest
      case Some(i) => Some(i + 1)
      case None => None
  }

  /** `s.includes(p)` / Python's `p in s`. */
  predicate Contains(s: string, p: string) {
    Find(s, p).Some?
  }

  lemma ContainsAt(s: string, p: string, i: nat)
    requires i + |p| <= |s| && s[i..i + |p|] == p
    ensures Contains(s, p)
  {
    assert p <= s[i..];
  }

  /** An occurrence in a slice is an occurrence in the whole string. */
  lemma ContainsInSlice(s: string, a: nat, b: nat, p: string)
    requires a <= b <= |s|
    requires Contains(s[a..b], p)
    ensures Contains(s, p)
  {
    var t := s[a..b];
    var i := Find(t, p).value;
    assert t[i..i + |p|] == p;
    forall k | 0 <= k < |p| ensures s[a + i..a + i + |p|][k] == p[k] {
      assert s[a + i..a + i + |p|][k] == t[i + k] == t[i..i + |p|][k];
    }
    assert s[a + i..a + i + |p|] == p;
    ContainsAt(s, p, a + i);
  }

  /** A phrase absent from the lower-cased text is absent from its trimmed
      lower-cased text too. */
  lemma AbsentFromTrimmed(s: string, p: string)
    requires !Contains(Lower(s), p)
    ensures !Contains(Lower(Trim(s)), p)
  {
    LowerSlice(s, TrimStart(s), TrimStop(s));
    if Contains(Lower(Trim(s)), p) {
      ContainsInSlice(Lower(s), TrimStart(s), TrimStop(s), p);
    }
  }

  /** `s` starts with `p`, ASCII letters compared case-insensitively
      (an anchored `/^p/i`). */
  predicate StartsWithCI(s: string, p: string) {
    |p| <= |s| && Lower(s[..|p|]) == Lower(p)
  }

  // ---------------------------------------------------------------------
  // split / join

  /** Index of the first `c` in `s`, or `|s|` when there is none. */
  function IndexOf(s: string, c: char): (i: nat)
    ensures i <= |s|
    ensures i < |s| ==> s[i] == c
    ensures forall j :: 0 <= j < i ==> s[j] != c
  {
    if |s| == 0 || s[0] == c then 0 else 1 + IndexOf(s[1..], c)
  }

  /** `s.split(sep)` for a one-character separator. */
  function Split(s: string, sep: char): (parts: seq<string>)
    ensures |parts| >= 1
    ensures forall k :: 0 <= k < |parts| ==> sep !in parts[k]
    decreases |s|
  {
    var i := IndexOf(s, sep);
    if i == |s| then [s] else [s[..i]] + Split(s[i + 1..], sep)
  }

  /** `parts.join(sep)`. */
  function Join(parts: seq<string>, sep: string): string {
    if |parts| == 0 then ""
    else if |parts| == 1 then parts[0]
    else parts[0] + sep + Join(parts[1..], sep)
  }

  /** Splitting and joining back with the same separator gives the input. */
  lemma {:induction false} SplitJoin(s: string, sep: char)
    ensures Join(Split(s, sep), [sep]) == s
    decreases |s|
  {
    var i := IndexOf(s, sep);
    var parts := Split(s, sep);
    if i < |s| {
      var rest := Split(s[i + 1..], sep);
      assert parts == [s[..i]] + rest;
      assert parts[0] == s[..i] && parts[1..] == rest && |parts| >= 2;
      assert Join(parts, [sep]) == s[..i] + [sep] + Join(rest, [sep]);
      SplitJoin(s[i + 1..], sep);
      assert s == s[..i] + [sep] + s[i + 1..];
    } else {
      assert parts == [s];
    }
  }

  /** When `c` occurs exactly once, at `at`, `split(c)` yields the two sides. */
  lemma SplitOnce(s: string, c: char, at: nat)
    requires at < |s| && s[at] == c
    requires forall j :: 0 <= j < |s| && j != at ==> s[j] != c
    ensures Split(s, c) == [s[..at], s[at + 1..]]
  {
    assert IndexOf(s, c) == at;
    assert IndexOf(s[at + 1..], c) == |s[at + 1..]|;
  }

  // ---------------------------------------------------------------------
  // String.prototype.replace(string, string)

  /** GetSubstitution of ECMA-262 for a pattern without capture groups: the
      replacement text with `$$`, `$&`, `` $` `` and `$'` expanded. */
  function Substitute(rep: string, s: string, pos: nat, len: nat): string
    requires pos + len <= |s|
    decreases |rep|
  {
    if |rep| == 0 then ""
    else if rep[0] == '$' && |rep| >= 2 && rep[1] == '$' then "$" + Substitute(rep[2..], s, pos, len)
    else if rep[0] == '$' && |rep| >= 2 && rep[1] == '&' then s[pos..pos + len] + Substitute(rep[2..], s, pos, len)
    else if rep[0] == '$' && |rep| >= 2 && rep[1] == '`' then s[..pos] + Substitute(rep[2..], s, pos, len)
    else if rep[0] == '$' && |rep| >= 2 && rep[1] == '\'' then s[pos + len..] + Substitute(rep[2..], s, pos, len)
    else [rep[0]] + Substitute(rep[1..], s, pos, len)
  }

  /** A replacement without `$` is inserted verbatim. */
  lemma {:induction false} SubstitutePlain(rep: string, s: string, pos: nat, len: nat)
    requires pos + len <= |s|
    requires '$' !in rep
    ensures Substitute(rep, s, pos, len) == rep
    decreases |rep|
  {
    if |rep| > 0 {
      assert '$' !in rep[1..];
      SubstitutePlain(rep[1..], s, pos, len);
    }
  }

  /** `s.replace(pat, rep)`: only the first occurrence of `pat` is replaced. */
  function ReplaceFirst(s: string, pat: string, rep: string): string {
    match Find(s, pat)
    case None => s
    case Some(i) => s[..i] + Substitute(rep, s, i, |pat|) + s[i + |pat|..]
  }

  // ---------------------------------------------------------------------
  // Lengths and numbers

  /** The UTF-16 code units of `s` (what `charCodeAt` enumerates). */
  function Utf16(s: string): (units: seq<int>)
    ensures |units| >= |s|
    ensures forall k :: 0 <= k < |units| ==> 0 <= units[k] < 0x1_0000
  {
    if |s| == 0 then []
    else
      var c := s[0] as int;
      (if c < 0x1_0000 then [c]
       else [0xD800 + (c - 0x1_0000) / 0x400, 0xDC00 + (c - 0x1_0000) % 0x400])
      + Utf16(s[1..])
  }

  /** JavaScript's `s.length`: the number of UTF-16 code units. */
  function JsLength(s: string): nat {
    |Utf16(s)|
  }

  function DigitChar(d: nat): char
    requires d < 10
  {
    "0123456789"[d]
  }

  /** `String(n)` for a natural number. */
  function NatToString(n: nat): string {
    if n < 10 then [DigitChar(n)] else NatToString(n / 10) + [DigitChar(n % 10)]
  }
}

=== FILE: validate.dfy ===
/** The VALIDATE step: the active column rules are checked against every
    cleaned or researched company of an import.  A company that passes all
    of them becomes `validated`; a company that fails some keeps its status,
    gets one processing-log entry and one error line.  A format rule whose
    pattern does not compile throws out of the step, leaving the companies
    before it checked.  Without active rules every such company is
    validated by one bulk update.  The rule table, the regular-expression
    engine, the database-filled columns and the database's failures are
    parameters. */
module Validate {
  import opened Wrappers
  import opened Strings
  import opened Model
  import Store

  const NoCompaniesMessage: string := "No companies to validate"
  const RulesFailedPrefix: string := "Failed to fetch rules: "
  const ValidateStepName: string := "validate"

  // ---------------------------------------------------------------------
  // Rules

  /** `rule_type`; a value outside the declared five (such as `custom`)
      is kept by name. */
  datatype RuleType = Required | Format | Enum | MinLength | MaxLength | OtherRule(name: string)

  function RuleName(t: RuleType): string {
    match t
    case Required => "required"
    case Format => "format"
    case Enum => "enum"
    case MinLength => "min_length"
    case MaxLength => "max_length"
    case OtherRule(name) => name
  }

  /** The keys of `rule_config` the checks read (`None`: absent or null). */
  datatype RuleConfig = RuleConfig(pattern: Option<string>, values: Option<seq<string>>, min: Option<int>, max: Option<int>)

  /** A row of `column_rules`. */
  datatype ColumnRule = ColumnRule(columnName: string, ruleType: RuleType, config: RuleConfig, errorMessage: string, isActive: bool)

  /** The regular-expression engine: `invalid(p)` is the message of the
      `SyntaxError` that `new RegExp(p)` throws, if it throws, and
      `test(p, s)` is `new RegExp(p).test(s)` for a pattern that compiles. */
  datatype Matcher = Matcher(invalid: string -> Option<string>, test: (string, string) -> bool)

  /** The value is a non-empty string (`value && typeof value === 'string'`). */
  predicate NonEmptyText(value: Option<Value>) {
    value.Some? && value.value.Str? && value.value.s != ""
  }

  /** A truthy number of the config. */
  predicate SetNumber(n: Option<int>) {
    n.Some? && n.value != 0
  }

  /** `validateValue`: the error of one rule on one value, if it fails. */
  function ValidateValue(value: Option<Value>, rule: ColumnRule, matches: Matcher): (r: Option<ValidationError>)
    ensures r.Some? ==> r.value == ValidationError(rule.columnName, RuleName(rule.ruleType), rule.errorMessage)
    ensures rule.ruleType.OtherRule? ==> r.None?
    ensures rule.ruleType == Required ==> (r.Some? <==> value.None? || value == Some(Null) || value == Some(Str("")))
    ensures rule.ruleType == Format && r.Some? ==> NonEmptyText(value) && rule.config.pattern.Some? && rule.config.pattern.value != ""
    ensures rule.ruleType == Enum && r.Some? ==> Truthy(value) && rule.config.values.Some?
    ensures rule.ruleType == Enum && value.Some? && value.value.Str? && rule.config.values.Some? && value.value.s in rule.config.values.value ==> r.None?
    ensures (rule.ruleType == MinLength || rule.ruleType == MaxLength) && r.Some? ==> NonEmptyText(value)
    ensures rule.ruleType == MinLength && r.Some? ==> SetNumber(rule.config.min) && JsLength(value.value.s) < rule.config.min.value
    ensures rule.ruleType == MaxLength && r.Some? ==> SetNumber(rule.config.max) && JsLength(value.value.s) > rule.config.max.value
  {
    var err := Some(ValidationError(rule.columnName, RuleName(rule.ruleType), rule.errorMessage));
    match rule.ruleType
    case Required =>
      if value.None? || value == Some(Null) || value == Some(Str("")) then err else None
    case Format =>
      var pattern := rule.config.pattern;
      if NonEmptyText(value) && pattern.Some? && pattern.value != "" && !matches.test(pattern.value, value.value.s) then err else None
    case Enum =>
      var allowed := rule.config.values;
      if Truthy(value) && allowed.Some? && !(value.value.Str? && value.value.s in allowed.value) then err else None
    case MinLength =>
      if NonEmptyText(value) && SetNumber(rule.config.min) && JsLength(value.value.s) < rule.config.min.value then err else None
    case MaxLength =>
      if NonEmptyText(value) && SetNumber(rule.config.max) && JsLength(value.value.s) > rule.config.max.value then err else None
    case OtherRule(_) => None
  }

  /** The converse directions: a format rule fails on a non-empty string the
      pattern does not match; an enum rule fails on a truthy value outside
      the list; a length rule fails on a non-empty string of the wrong
      length. */
  lemma ValidateValueFails(value: Option<Value>, rule: ColumnRule, matches: Matcher)
    ensures (rule.ruleType == Format && NonEmptyText(value) && rule.config.pattern.Some? && rule.config.pattern.value != ""
             && !matches.test(rule.config.pattern.value, value.value.s))
            ==> ValidateValue(value, rule, matches).Some?
    ensures (rule.ruleType == Enum && Truthy(value) && rule.config.values.Some?
             && !(value.value.Str? && value.value.s in rule.config.values.value))
            ==> ValidateValue(value, rule, matches).Some?
    ensures (rule.ruleType == MinLength && NonEmptyText(value) && SetNumber(rule.config.min)
             && JsLength(value.value.s) < rule.config.min.value)
            ==> ValidateValue(value, rule, matches).Some?
    ensures (rule.ruleType == MaxLength && NonEmptyText(value) && SetNumber(rule.config.max)
             && JsLength(value.value.s) > rule.config.max.value)
            ==> ValidateValue(value, rule, matches).Some?
  {
  }

  /** `required` accepts a string of blanks, and a length rule with a zero
      bound never fails. */
  lemma RuleQuirks(rule: ColumnRule, matches: Matcher, s: string)
    ensures rule.ruleType == Required ==> ValidateValue(Some(Str(" ")), rule, matches).None?
    ensures rule.ruleType == MinLength && rule.config.min == Some(0) ==> ValidateValue(Some(Str(s)), rule, matches).None?
    ensures rule.ruleType == MaxLength && rule.config.max == Some(0) ==> ValidateValue(Some(Str(s)), rule, matches).None?
  {
  }

  /** The `SyntaxError` that checking `rule` against `value` throws: the
      pattern of a format rule is compiled only when the value is a
      non-empty string and the pattern is non-empty. */
  function PatternError(value: Option<Value>, rule: ColumnRule, matches: Matcher): (r: Option<string>)
    ensures r.Some? ==>
      rule.ruleType == Format && NonEmptyText(value) && rule.config.pattern.Some? && r == matches.invalid(rule.config.pattern.value)
    ensures rule.ruleType == Format && NonEmptyText(value) && rule.config.pattern.Some? && rule.config.pattern.value != ""
      ==> r == matches.invalid(rule.config.pattern.value)
  {
    if rule.ruleType == Format && NonEmptyText(value) && rule.config.pattern.Some? && rule.config.pattern.value != "" then
      matches.invalid(rule.config.pattern.value)
    else None
  }

  /** Every non-empty pattern of a format rule compiles. */
  predicate PatternsCompile(rules: seq<ColumnRule>, matches: Matcher) {
    forall i :: 0 <= i < |rules| && rules[i].ruleType == Format && rules[i].config.pattern.Some? && rules[i].config.pattern.value != ""
      ==> matches.invalid(rules[i].config.pattern.value).None?
  }

  // ---------------------------------------------------------------------
  // One company

  /** The errors of `validateCompany`: one per failing rule, in rule order. */
  function CompanyErrors(row: Row, rules: seq<ColumnRule>, matches: Matcher): (errs: seq<ValidationError>)
    ensures |errs| <= |rules|
  {
    if rules == [] then []
    else
      var rest := CompanyErrors(row, rules[..|rules| - 1], matches);
      var last := rules[|rules| - 1];
      match ValidateValue(Lookup(row, last.columnName), last, matches)
      case Some(e) => rest + [e]
      case None => rest
  }

  /** Every error comes from a failing rule, every failing rule gives an
      error, and the list is empty exactly when every rule passes. */
  lemma {:induction false} CompanyErrorsSpec(row: Row, rules: seq<ColumnRule>, matches: Matcher)
    ensures var errs := CompanyErrors(row, rules, matches);
      (errs == [] <==> forall i :: 0 <= i < |rules| ==> ValidateValue(Lookup(row, rules[i].columnName), rules[i], matches).None?)
      && (forall e :: e in errs ==> exists i :: 0 <= i < |rules| && ValidateValue(Lookup(row, rules[i].columnName), rules[i], matches) == Some(e))
      && (forall i :: 0 <= i < |rules| && ValidateValue(Lookup(row, rules[i].columnName), rules[i], matches).Some? ==>
            ValidateValue(Lookup(row, rules[i].columnName), rules[i], matches).value in errs)
  {
    if rules != [] {
      var init := rules[..|rules| - 1];
      CompanyErrorsSpec(row, init, matches);
      assert forall i :: 0 <= i < |init| ==> init[i] == rules[i];
    }
  }

  /** The exception `validateCompany` throws: that of the first rule, in
      rule order, whose pattern does not compile. */
  function CompanyThrow(row: Row, rules: seq<ColumnRule>, matches: Matcher): Option<string> {
    if rules == [] then None
    else
      var first := CompanyThrow(row, rules[..|rules| - 1], matches);
      var last := rules[|rules| - 1];
      if first.Some? then first else PatternError(Lookup(row, last.columnName), last, matches)
  }

  /** A company's check throws exactly when some rule's pattern does not
      compile, and then with the error of the first such rule. */
  lemma {:induction false} CompanyThrowSpec(row: Row, rules: seq<ColumnRule>, matches: Matcher)
    ensures CompanyThrow(row, rules, matches).None? <==>
      forall i :: 0 <= i < |rules| ==> PatternError(Lookup(row, rules[i].columnName), rules[i], matches).None?
    ensures CompanyThrow(row, rules, matches).Some? ==>
      exists i :: 0 <= i < |rules| && CompanyThrow(row, rules, matches) == PatternError(Lookup(row, rules[i].columnName), rules[i], matches)
        && forall j :: 0 <= j < i ==> PatternError(Lookup(row, rules[j].columnName), rules[j], matches).None?
  {
    if rules != [] {
      var init := rules[..|rules| - 1];
      CompanyThrowSpec(row, init, matches);
      assert forall i :: 0 <= i < |init| ==> init[i] == rules[i];
    }
  }

  /** With every pattern compiling, no company's check throws. */
  lemma {:induction false} CompiledNeverThrows(row: Row, rules: seq<ColumnRule>, matches: Matcher)
    requires PatternsCompile(rules, matches)
    ensures CompanyThrow(row, rules, matches).None?
  {
    CompanyThrowSpec(row, rules, matches);
  }

  /** Once a prefix of the rules throws, the whole list throws the same. */
  lemma {:induction false} CompanyThrowPrefix(row: Row, rules: seq<ColumnRule>, k: nat, matches: Matcher)
    requires k <= |rules| && CompanyThrow(row, rules[..k], matches).Some?
    ensures CompanyThrow(row, rules, matches) == CompanyThrow(row, rules[..k], matches)
  {
    if k < |rules| {
      assert rules[..|rules| - 1][..k] == rules[..k];
      CompanyThrowPrefix(row, rules[..|rules| - 1], k, matches);
    } else {
      assert rules[..k] == rules;
    }
  }

  /** `validateCompany`: the rules are checked in order; the first pattern
      that does not compile throws. */
  method ValidateCompany(row: Row, rules: seq<ColumnRule>, matches: Matcher) returns (r: Result<seq<ValidationError>>)
    ensures CompanyThrow(row, rules, matches).Some? ==> r == Err(CompanyThrow(row, rules, matches).value)
    ensures CompanyThrow(row, rules, matches).None? ==> r == Ok(CompanyErrors(row, rules, matches))
  {
    var errs := [];
    var k := 0;
    while k < |rules|
      invariant 0 <= k <= |rules|
      invariant CompanyThrow(row, rules[..k], matches).None?
      invariant errs == CompanyErrors(row, rules[..k], matches)
    {
      assert rules[..k + 1][..k] == rules[..k];
      var rule := rules[k];
      var value := Lookup(row, rule.columnName);
      var thrown := PatternError(value, rule, matches);
      if thrown.Some? {
        CompanyThrowPrefix(row, rules, k + 1, matches);
        return Err(thrown.value);
      }
      var e := ValidateValue(value, rule, matches);
      if e.Some? {
        errs := errs + [e.value];
      }
      k := k + 1;
    }
    assert rules[..k] == rules;
    return Ok(errs);
  }

  /** The messages of a list of errors, in order. */
  function Messages(errs: seq<ValidationError>): (ms: seq<string>)
    ensures |ms| == |errs|
    ensures forall i :: 0 <= i < |errs| ==> ms[i] == errs[i].message
  {
    if errs == [] then [] else Messages(errs[..|errs| - 1]) + [errs[|errs| - 1].message]
  }

  /** The error line of a company that fails: its name, then the messages
      joined by `, `. */
  function InvalidLine(name: string, errs: seq<ValidationError>): string {
    name + ": " + Join(Messages(errs), ", ")
  }

  // ---------------------------------------------------------------------
  // The step

  /** The active rules of the rule table (`.eq('is_active', true)`). */
  function ActiveRules(table: seq<ColumnRule>): (rules: seq<ColumnRule>)
    ensures forall r :: r in rules <==> r in table && r.isActive
    ensures |rules| <= |table|
  {
    if table == [] then []
    else
      var rest := ActiveRules(table[..|table| - 1]);
      var r := table[|table| - 1];
      if r.isActive then rest + [r] else rest
  }

  /** The select of `runValidateStep`: this import's cleaned or researched
      companies, in select order. */
  function ValidateSelection(rows: seq<Company>, importId: ImportId): (sel: seq<Company>)
    ensures forall c :: c in sel <==> c in rows && c.importId == importId && (c.status == Cleaned || c.status == Researched)
    ensures |sel| <= |rows|
  {
    if rows == [] then []
    else
      var rest := ValidateSelection(rows[..|rows| - 1], importId);
      var c := rows[|rows| - 1];
      if c.importId == importId && (c.status == Cleaned || c.status == Researched) then rest + [c] else rest
  }

  /** What `runValidateStep` returns. */
  datatype ValidateResult = ValidateResult(processed: nat, valid: nat, invalid: nat, errors: seq<string>)

  datatype ValidateState = ValidateState(companies: map<string, Company>, logs: seq<LogEntry>, result: ValidateResult)

  /** The errors of each company, as the loop sees them. */
  type Checker = Company -> seq<ValidationError>

  function CheckerOf(rules: seq<ColumnRule>, matches: Matcher, system: Company -> SystemColumns): Checker {
    c => CompanyErrors(Columns(c, system(c)), rules, matches)
  }

  /** The exception the check of each company throws, if any. */
  type Thrower = Company -> Option<string>

  function ThrowerOf(rules: seq<ColumnRule>, matches: Matcher, system: Company -> SystemColumns): Thrower {
    c => CompanyThrow(Columns(c, system(c)), rules, matches)
  }

  /** Index of the first company of `sel` whose check throws, or `|sel|`
      when none does. */
  function ThrowAt(sel: seq<Company>, thrower: Thrower): (k: nat)
    ensures k <= |sel|
    ensures forall i :: 0 <= i < k ==> thrower(sel[i]).None?
    ensures k < |sel| ==> thrower(sel[k]).Some?
  {
    if sel == [] then 0
    else if thrower(sel[0]).Some? then 0
    else 1 + ThrowAt(sel[1..], thrower)
  }

  /** The company loop over the select of these rows runs to the end. */
  predicate LoopCompletes(rows: seq<Company>, importId: ImportId, rules: seq<ColumnRule>, matches: Matcher,
    system: Company -> SystemColumns)
  {
    var sel := ValidateSelection(rows, importId);
    ThrowAt(sel, ThrowerOf(rules, matches, system)) == |sel|
  }

  /** With every pattern compiling the loop runs to the end, whatever the
      rows. */
  lemma {:induction false} CompiledCompletes(rows: seq<Company>, importId: ImportId, rules: seq<ColumnRule>, matches: Matcher,
    system: Company -> SystemColumns)
    requires PatternsCompile(rules, matches)
    ensures LoopCompletes(rows, importId, rules, matches, system)
  {
    var sel := ValidateSelection(rows, importId);
    var k := ThrowAt(sel, ThrowerOf(rules, matches, system));
    if k < |sel| {
      CompiledNeverThrows(Columns(sel[k], system(sel[k])), rules, matches);
    }
  }

  /** The database fills in `import_id` for every stored company, so a
      `required` rule on it never fails; the same holds for `id` when the
      key is non-empty. */
  lemma RequiredSystemColumnsPass(c: Company, sys: SystemColumns, rule: ColumnRule, matches: Matcher)
    requires rule.ruleType == Required
    ensures rule.columnName == "import_id" ==> ValidateValue(Lookup(Columns(c, sys), rule.columnName), rule, matches).None?
    ensures rule.columnName == "id" && sys.id != "" ==> ValidateValue(Lookup(Columns(c, sys), rule.columnName), rule, matches).None?
  {
  }

  /** One iteration of the loop, given the errors of `c`.  A company that
      passes is updated to `validated` (an update error is reported and it
      is not counted valid); a company that fails keeps its status, is
      counted invalid, gets a log entry (unless the insert is rejected)
      and an error line.  Every company is counted processed. */
  function ValidateOne(st: ValidateState, c: Company, errs: seq<ValidationError>, importId: ImportId,
    fault: Company -> Option<string>, logRejected: LogEntry -> bool): (r: ValidateState)
    ensures r.companies.Keys == st.companies.Keys
    ensures r.result.processed == st.result.processed + 1
    ensures r.result.valid + |r.result.errors| == st.result.valid + |st.result.errors| + 1
    ensures r.result.invalid == st.result.invalid + (if errs == [] then 0 else 1)
    ensures |st.logs| <= |r.logs| <= |st.logs| + (if errs == [] then 0 else 1)
  {
    var res := st.result;
    var h := c.companyHash;
    if errs == [] then
      if h !in st.companies then st.(result := res.(processed := res.processed + 1, valid := res.valid + 1))
      else
        var row := st.companies[h].(status := Validated);
        match fault(row)
        case Some(msg) =>
          st.(result := res.(processed := res.processed + 1, errors := res.errors + ["Failed to update " + c.name + ": " + msg]))
        case None =>
          ValidateState(st.companies[h := row], st.logs, res.(processed := res.processed + 1, valid := res.valid + 1))
    else
      var entry := LogEntry(h, importId, ValidateStepName, errs);
      ValidateState(st.companies, if logRejected(entry) then st.logs else st.logs + [entry],
        res.(processed := res.processed + 1, invalid := res.invalid + 1, errors := res.errors + [InvalidLine(c.name, errs)]))
  }

  /** The loop over the selected companies, in select order. */
  function ValidateAll(st: ValidateState, sel: seq<Company>, check: Checker, importId: ImportId,
    fault: Company -> Option<string>, logRejected: LogEntry -> bool): (r: ValidateState)
    ensures r.companies.Keys == st.companies.Keys
    ensures r.result.processed == st.result.processed + |sel|
    ensures r.result.valid + |r.result.errors| == st.result.valid + |st.result.errors| + |sel|
    ensures st.result.invalid <= r.result.invalid <= st.result.invalid + |sel|
  {
    if sel == [] then st
    else
      var c := sel[|sel| - 1];
      ValidateOne(ValidateAll(st, sel[..|sel| - 1], check, importId, fault, logRejected), c, check(c), importId, fault, logRejected)
  }

  // ---------------------------------------------------------------------
  // Only selected companies change, and only to `validated`

  /** `b` is `a`, or `a` was a cleaned or researched company of the import
      and `b` is it validated; nothing is ever marked failed. */
  predicate ValidatedFrom(a: Company, b: Company, importId: ImportId) {
    b == a
    || ((a.status == Cleaned || a.status == Researched) && a.importId == importId && b == a.(status := Validated))
  }

  ghost predicate OnlyValidated(c0: map<string, Company>, c1: map<string, Company>, importId: ImportId) {
    forall h :: h in c0 ==> h in c1 && ValidatedFrom(c0[h], c1[h], importId)
  }

  ghost predicate Selected(c0: map<string, Company>, sel: seq<Company>, importId: ImportId) {
    forall c :: c in sel ==>
      c.companyHash in c0 && c0[c.companyHash] == c && (c.status == Cleaned || c.status == Researched) && c.importId == importId
  }

  /** A company with errors is left as it is and reported once. */
  lemma InvalidKeepsStatus(st: ValidateState, c: Company, errs: seq<ValidationError>, importId: ImportId,
    fault: Company -> Option<string>, logRejected: LogEntry -> bool)
    requires errs != []
    ensures var r := ValidateOne(st, c, errs, importId, fault, logRejected);
      r.companies == st.companies
      && r.result.errors == st.result.errors + [c.name + ": " + Join(Messages(errs), ", ")]
      && (!logRejected(LogEntry(c.companyHash, importId, ValidateStepName, errs)) ==>
            r.logs == st.logs + [LogEntry(c.companyHash, importId, ValidateStepName, errs)])
  {
  }

  /** One iteration keeps `ValidatedFrom` for the company stored under `h`. */
  lemma ValidateOneFrom(st: ValidateState, c: Company, errs: seq<ValidationError>, importId: ImportId,
    fault: Company -> Option<string>, logRejected: LogEntry -> bool, h: string, a: Company)
    requires h in st.companies && ValidatedFrom(a, st.companies[h], importId)
    requires c.companyHash == h ==> c == a && (a.status == Cleaned || a.status == Researched) && a.importId == importId
    ensures var r := ValidateOne(st, c, errs, importId, fault, logRejected);
      h in r.companies && ValidatedFrom(a, r.companies[h], importId)
  {
  }

  /** With no active rules, the bulk update validates exactly the cleaned
      and researched companies of the import. */
  lemma BulkValidates(companies: map<string, Company>, importId: ImportId, h: string)
    requires h in companies
    ensures var r := Store.SetStatusWhere(companies, importId, {Cleaned, Researched}, Validated);
      ValidatedFrom(companies[h], r[h], importId)
      && (r[h].status == Validated <==>
            companies[h].status == Validated || (companies[h].importId == importId && companies[h].status in {Cleaned, Researched}))
  {
  }

  // ---------------------------------------------------------------------
  // The step as it runs against the store

  lemma ValidateAllStep(st: ValidateState, sel: seq<Company>, k: nat, check: Checker, importId: ImportId,
    fault: Company -> Option<string>, logRejected: LogEntry -> bool)
    requires k < |sel|
    ensures ValidateAll(st, sel[..k + 1], check, importId, fault, logRejected)
      == ValidateOne(ValidateAll(st, sel[..k], check, importId, fault, logRejected), sel[k], check(sel[k]), importId, fault, logRejected)
  {
    assert sel[..k + 1][..k] == sel[..k];
  }

  /** Record the outcome for one company whose errors are `errs`. */
  method ValidateOneTo(db: Store.Store, c: Company, errs: seq<ValidationError>, importId: ImportId,
    fault: Company -> Option<string>, logRejected: LogEntry -> bool, res0: ValidateResult)
    returns (res: ValidateResult)
    requires db.Valid()
    modifies db
    ensures db.Valid()
    ensures ValidateState(db.companies, db.logs, res)
      == ValidateOne(ValidateState(old(db.companies), old(db.logs), res0), c, errs, importId, fault, logRejected)
    ensures db.order == old(db.order) && db.imports == old(db.imports) && db.nextImportId == old(db.nextImportId)
  {
    res := res0;
    var h := c.companyHash;
    if errs == [] {
      if h !in db.companies {
        res := res.(processed := res.processed + 1, valid := res.valid + 1);
      } else {
        var row := db.companies[h].(status := Validated);
        match fault(row)
        case Some(msg) =>
          res := res.(processed := res.processed + 1, errors := res.errors + ["Failed to update " + c.name + ": " + msg]);
        case None =>
          db.Update(row);
          res := res.(processed := res.processed + 1, valid := res.valid + 1);
      }
    } else {
      var entry := LogEntry(h, importId, ValidateStepName, errs);
      if !logRejected(entry) {
        db.AppendLog(entry);
      }
      res := res.(processed := res.processed + 1, invalid := res.invalid + 1, errors := res.errors + [InvalidLine(c.name, errs)]);
    }
  }

  /** Iteration `k`: check `sel[k]` and record the outcome, unless the
      check throws. */
  method ValidateAt(db: Store.Store, sel: seq<Company>, k: nat, rules: seq<ColumnRule>, matches: Matcher,
    system: Company -> SystemColumns, importId: ImportId, fault: Company -> Option<string>, logRejected: LogEntry -> bool,
    res0: ValidateResult, ghost c0: map<string, Company>)
    returns (res: ValidateResult, thrown: Option<string>)
    requires db.Valid() && k < |sel|
    requires Selected(c0, sel, importId) && OnlyValidated(c0, db.companies, importId)
    modifies db
    ensures db.Valid()
    ensures thrown == ThrowerOf(rules, matches, system)(sel[k])
    ensures thrown.Some? ==> db.companies == old(db.companies) && db.logs == old(db.logs) && res == res0
    ensures thrown.None? ==>
      ValidateState(db.companies, db.logs, res)
      == ValidateOne(ValidateState(old(db.companies), old(db.logs), res0), sel[k], CheckerOf(rules, matches, system)(sel[k]),
           importId, fault, logRejected)
    ensures OnlyValidated(c0, db.companies, importId)
    ensures db.order == old(db.order) && db.imports == old(db.imports) && db.nextImportId == old(db.nextImportId)
  {
    var c := sel[k];
    var checked := ValidateCompany(Columns(c, system(c)), rules, matches);
    if checked.Err? {
      return res0, Some(checked.msg);
    }
    thrown := None;
    var errs := checked.value;
    ghost var st := ValidateState(db.companies, db.logs, res0);
    res := ValidateOneTo(db, c, errs, importId, fault, logRejected, res0);
    forall g | g in c0 ensures g in db.companies && ValidatedFrom(c0[g], db.companies[g], importId) {
      ValidateOneFrom(st, c, errs, importId, fault, logRejected, g, c0[g]);
    }
  }

  /** The loop of `runValidateStep`: it stops at the first company whose
      check throws. */
  method ValidateCompanies(db: Store.Store, sel: seq<Company>, rules: seq<ColumnRule>, matches: Matcher,
    system: Company -> SystemColumns, importId: ImportId, fault: Company -> Option<string>, logRejected: LogEntry -> bool)
    returns (res: ValidateResult, thrown: Option<string>)
    requires db.Valid()
    requires Selected(db.companies, sel, importId)
    modifies db
    ensures db.Valid()
    ensures var k := ThrowAt(sel, ThrowerOf(rules, matches, system));
      var st := ValidateAll(ValidateState(old(db.companies), old(db.logs), ValidateResult(0, 0, 0, [])), sel[..k],
        CheckerOf(rules, matches, system), importId, fault, logRejected);
      db.companies == st.companies && db.logs == st.logs
      && (k == |sel| ==> thrown.None? && res == st.result)
      && (k < |sel| ==> thrown == ThrowerOf(rules, matches, system)(sel[k]))
    ensures OnlyValidated(old(db.companies), db.companies, importId)
    ensures db.order == old(db.order) && db.imports == old(db.imports) && db.nextImportId == old(db.nextImportId)
  {
    ghost var c0 := db.companies;
    ghost var st0 := ValidateState(db.companies, db.logs, ValidateResult(0, 0, 0, []));
    ghost var check, thrower := CheckerOf(rules, matches, system), ThrowerOf(rules, matches, system);
    res := ValidateResult(0, 0, 0, []);
    var k := 0;
    while k < |sel|
      invariant 0 <= k <= |sel|
      invariant db.Valid()
      invariant k <= ThrowAt(sel, thrower)
      invariant ValidateState(db.companies, db.logs, res) == ValidateAll(st0, sel[..k], check, importId, fault, logRejected)
      invariant OnlyValidated(c0, db.companies, importId)
      invariant db.order == old(db.order) && db.imports == old(db.imports) && db.nextImportId == old(db.nextImportId)
    {
      ValidateAllStep(st0, sel, k, check, importId, fault, logRejected);
      var t;
      res, t := ValidateAt(db, sel, k, rules, matches, system, importId, fault, logRejected, res, c0);
      if t.Some? {
        assert ThrowAt(sel, thrower) == k;
        return res, t;
      }
      k := k + 1;
    }
    assert ThrowAt(sel, thrower) == k;
    return res, None;
  }

  /** `runValidateStep`.  `ruleTable` is the rule select (`Err`: it failed),
      `system` the database-filled columns of each selected row,
      `bulkFault` the error of the bulk update, `countFails` whether the
      count query returns no count, `fetchFault` the error of the company
      select, `fault` the error of each single update, `logRejected`
      whether a log insert is rejected (its error is ignored).  A pattern
      that does not compile throws out of the step: the companies checked
      before it keep their outcome. */
  method RunValidateStep(db: Store.Store, importId: ImportId, ruleTable: Result<seq<ColumnRule>>, matches: Matcher,
    system: Company -> SystemColumns, bulkFault: Option<string>, countFails: bool, fetchFault: Option<string>,
    fault: Company -> Option<string>, logRejected: LogEntry -> bool)
    returns (r: Result<ValidateResult>)
    requires db.Valid()
    modifies db
    ensures db.Valid()
    ensures ruleTable.Err? ==> r == Err(RulesFailedPrefix + ruleTable.msg) && db.companies == old(db.companies) && db.logs == old(db.logs)
    ensures ruleTable.Ok? && ActiveRules(ruleTable.value) == [] ==>
      r.Ok? && r.value.invalid == 0 && db.logs == old(db.logs)
      && (bulkFault.Some? ==> r.value == ValidateResult(0, 0, 0, [bulkFault.value]) && db.companies == old(db.companies))
      && (bulkFault.None? ==>
            db.companies == Store.SetStatusWhere(old(db.companies), importId, {Cleaned, Researched}, Validated)
            && r.value.errors == [] && r.value.processed == r.value.valid
            && r.value.processed == (if countFails then 0 else |Store.WithStatus(db.Rows(), importId, Validated)|))
    ensures ruleTable.Ok? && ActiveRules(ruleTable.value) != [] && fetchFault.Some? ==>
      r == Err(FetchFailedPrefix + fetchFault.value) && db.companies == old(db.companies) && db.logs == old(db.logs)
    ensures ruleTable.Ok? && ActiveRules(ruleTable.value) != [] && fetchFault.None? ==>
      var rules := ActiveRules(ruleTable.value);
      var sel := ValidateSelection(old(db.Rows()), importId);
      var k := ThrowAt(sel, ThrowerOf(rules, matches, system));
      var st := ValidateAll(ValidateState(old(db.companies), old(db.logs), ValidateResult(0, 0, 0, [])), sel[..k],
        CheckerOf(rules, matches, system), importId, fault, logRejected);
      (sel == [] ==> r == Ok(ValidateResult(0, 0, 0, [NoCompaniesMessage])) && db.companies == old(db.companies) && db.logs == old(db.logs))
      && (sel != [] ==> db.companies == st.companies && db.logs == st.logs)
      && (k < |sel| ==> r == Err(ThrowerOf(rules, matches, system)(sel[k]).value))
      && (sel != [] && k == |sel| ==> r == Ok(st.result))
    ensures r.Ok? <==>
      ruleTable.Ok? && (ActiveRules(ruleTable.value) == []
        || (fetchFault.None? && LoopCompletes(old(db.Rows()), importId, ActiveRules(ruleTable.value), matches, system)))
    ensures OnlyValidated(old(db.companies), db.companies, importId)
    ensures db.order == old(db.order) && db.imports == old(db.imports) && db.nextImportId == old(db.nextImportId)
  {
    if ruleTable.Err? {
      return Err(RulesFailedPrefix + ruleTable.msg);
    }
    var rules := ActiveRules(ruleTable.value);
    if |rules| == 0 {
      if bulkFault.Some? {
        return Ok(ValidateResult(0, 0, 0, [bulkFault.value]));
      }
      ghost var c0 := db.companies;
      db.UpdateStatusWhere(importId, {Cleaned, Researched}, Validated);
      forall h | h in c0 ensures h in db.companies && ValidatedFrom(c0[h], db.companies[h], importId) {
        BulkValidates(c0, importId, h);
      }
      var count := if countFails then 0 else |Store.WithStatus(db.Rows(), importId, Validated)|;
      return Ok(ValidateResult(count, count, 0, []));
    }
    if fetchFault.Some? {
      return Err(FetchFailedPrefix + fetchFault.value);
    }
    var companies := ValidateSelection(db.Rows(), importId);
    if |companies| == 0 {
      return Ok(ValidateResult(0, 0, 0, [NoCompaniesMessage]));
    }
    var res, thrown := ValidateCompanies(db, companies, rules, matches, system, importId, fault, logRejected);
    if thrown.Some? {
      return Err(thrown.value);
    }
    return Ok(res);
  }
}

=== FILE: wrappers.dfy ===
/** Failure-compatible wrappers shared by every module of the model. */
module Wrappers {

  /** A value that may be absent: JavaScript `null`/`undefined`, Python `None`. */
  datatype Option<+T> = None | Some(value: T)

  /** The outcome of an operation that may throw: `Err` carries the message
      of the thrown `Error`. */
  datatype Result<+T> = Ok(value: T) | Err(msg: string)
}
